=== FILE: README.md ===
# define-js schema nodes, modelled in Dafny

define-js turns JSON-like definitions into trees of schema nodes. The nodes check data (`valid`, which records `validationFailures`), coerce it (`clean`, which throws a `NodeException` listing `[path, reason]` pairs), and write themselves back out as definitions (`toObject`). The model covers:

- `Base.create`, which picks the kind of node a definition stands for;
- the Base constructor, which reads `__optional__` and the `__name__`-style special keys;
- the terminal `Node`, with its twenty types and its `__regex__`, `__options__`, `__minimum__` and `__maximum__` constraints;
- the containers `ArrayNode`, `Hash`, `Options` and `Parent`, the last with `__require__` rules;
- `Tree`;
- the `Decimal` wrapper around decimal.js, which remembers how many fraction digits ("points") its text had;
- the helpers `compareIPs` and `strToInt`.

Nodes are immutable values here (`Schema.Node`):

- A setter such as `minmax`, `options`, `regex`, `optional` or `special` is a function that returns the updated node.
- `valid` returns a `Verdict`: the boolean together with the failures it leaves.
- `clean` returns a `Cleaned`: a value, a `NodeException`'s errors, or the message of any other `Error`.
- Numbers are exact decimals, so `0.1 + 0.2` style rounding does not arise.
- Objects are lists of entries in key order.
- Regular-expression compilation and testing of user patterns, and `JSON`, are the oracles of a `Host` record passed as a parameter. Every pattern of `lib/constants.js` is written out as a predicate (`Patterns`).

Modules, by file:

| file | module | what it holds |
|---|---|---|
| wrappers.dfy | Wrappers | `Option`, `Result` |
| values.dfy | Values | JavaScript values, object entries, `String()`, `===`, `<` |
| strings.dfy, numbers.dfy, js_numbers.dfy | Strings, Numbers, JsNumbers | split/join, exact decimals, `parseInt`, `parseFloat`, `Number()` |
| patterns.dfy | Patterns | the regular expressions of `lib/constants.js` |
| helpers.dfy | Helpers | `strToInt`, `compareIPs` (a loop, with its specification) |
| decimals.dfy, decimal_props.dfy | Decimals, DecimalProperties | the `Decimal` wrapper and its properties |
| schema.dfy | Schema | types, nodes, verdicts, errors, the `Host` oracles |
| base.dfy | BaseNodes | the Base constructor, `optional`, `special`, `toObject` |
| terminal.dfy, terminal_props.dfy | Terminals, TerminalProperties | the terminal `Node`: construction, setters, `clean`, `valid`, `toObject` |
| build.dfy, build_props.dfy | Build, BuildProperties | `Base.create` and the container constructors, `requires`, getters; round trips |
| valid.dfy, valid_props.dfy | Validation, ValidProperties | `valid` of every node; its if-and-only-if characterisations |
| clean.dfy, clean_props.dfy | Cleaning, CleanProperties | `clean` of every node; its characterisations |
| objects.dfy | Serialise | `toObject` of every node |
| runner.dfy | Runner | the loops of `valid`, `clean`, the `Options` and `Parent` constructors and `requires`, each proved equal to its specification function |
| findings.dfy | Findings | the places where the code does something other than it evidently means, as written and as intended |

`Cleaning.Clean` has an `aggregate` flag:

- `false` is the code as written, where a child's `NodeException` is never recognised as one (see Findings).
- `true` is the intended behaviour.

The `Runner` methods and the `CleanProperties` lemmas hold for both, and `Runner` implements the intended one.

## Model

| member | source | states |
|---|---|---|
| Helpers.StrToIntHex | helpers.ts:129-134 | "0x" or "0X" followed by hex digits reads as the hexadecimal value of those digits |
| Helpers.StrToIntOctal | helpers.ts:129-139 | a leading 0 followed by octal digits reads as their octal value |
| Helpers.StrToIntDecimal | helpers.ts:143-145 | digits without a leading zero, with an optional sign, read as their decimal value, negated after a minus |
| Helpers.StrToIntSigned | helpers.ts:143-145 | a sign followed by digits (even with leading zeros) reads in base 10, since the first character is not 0 |
| Helpers.IntTextHasValue | helpers.ts:126-146 | every string the int pattern admits has a number: strToInt never gives NaN for it |
| Helpers.ParseIntDigits | helpers.ts:133-144 | parseInt in base 8, 10 or 16 reads a whole run of digits of that base as their value |
| Helpers.ParseIntPlain | helpers.ts:133-144 | text that starts with neither white space, a sign nor 0x is read by parseInt as its leading digit run |
| Helpers.ParseParts | helpers.ts:36-43 | the loop over the parts of an address yields parseInt(part, 10) for every dot-separated part, in order |
| Helpers.CompareIPs | helpers.ts:28-62 | the method returns what the comparison function gives, and that is always -1, 0 or 1 |
| Helpers.IpOrderAntisymmetric | helpers.ts:28-62 | swapping the two arguments negates the result, for any two strings |
| Helpers.OctetsOfIp | helpers.ts:36-43 | an address the ip pattern admits splits into exactly four parts, each parsed to its decimal number |
| Helpers.IpOrderFirstDifference | helpers.ts:47-58 | between two addresses, the first octet whose number differs decides: 1 when the first is greater, -1 when smaller |
| Helpers.IpOrderZeroIffSame | helpers.ts:28-62 | between two addresses, the result is 0 exactly when they are the same text |
| Helpers.FirstDifference | helpers.ts:47-58 | two addresses with any differing octet never compare as 0 |
| BaseNodes.ReadOptional | src/Base.js:129-142 | fails exactly when `__optional__` is present and not a boolean; otherwise the flag is true only for `true`, the key is gone and every other key is untouched |
| BaseNodes.SplitSpecials | src/Base.js:144-158 | the details left are exactly those whose key is not special; every `__name__` key becomes a special called `name`, and each special comes from such a key |
| BaseNodes.SplitSpecialsValues | src/Base.js:146-158 | in details with distinct keys, as a JavaScript object has, each `__name__` key's value is the value stored under the special `name` |
| BaseNodes.ExtractSpecials | src/Base.js:146-158 | the key-by-key loop gives the same specials and the same remaining details as the specification function |
| BaseNodes.MakeBase | src/Base.js:119-159 | details that are not an object are refused with 'details must be an Object'; what is left holds only entries of the details that are neither special nor `__optional__` |
| BaseNodes.SplitSpecialsSize | src/Base.js:146-158 | removing specials never makes the details larger |
| BaseNodes.MakeBaseSize | src/Base.js:119-159 | the details the constructor leaves are no larger than those given, which bounds the recursion of create |
| BaseNodes.RestOfDetails | src/Base.js:131-158 | after the optional flag and the specials are taken out, each remaining entry comes from the details and is neither |
| BaseNodes.OptionalCall | src/Base.js:194-203 | with undefined it reads the flag and changes nothing; otherwise it stores the truthiness of the value and keeps the specials |
| BaseNodes.SpecialCall | src/Base.js:218-243 | a name that is not a string, or that does not match `[a-z0-9_-]+`, is refused with the source's message; a get returns the stored value or null; a set stores the value under that name and leaves every other special as it was |
| BaseNodes.SpecialEntries | src/Base.js:274-276 | special `n` is written under the key `__n__`, one entry per special, in order |
| BaseNodes.SplitSpecialEntries | src/Base.js:146-158 | the special loop reads the written keys back as exactly the specials they came from, leaving no other details |
| BaseNodes.SpecialEntriesDistinct | src/Base.js:274-276 | distinct special names are written under distinct keys |
| BaseNodes.BaseRoundTrip | src/Base.js:266-279 | toObject followed by the constructor gives back the optional flag and the specials, with no details left over |
| BaseNodes.BaseObjectFresh | src/Base.js:268-278 | the object is `__optional__: true` (only when optional) followed by the special keys, with nothing overwritten |
| BaseNodes.SpecialSetGet | src/Base.js:218-243 | setting a special and then reading it with the same name gives back the value set |
| Decimals.Clone | src/Decimal.js:127-134 | the clone has the same value and the same points as the original |
| Decimals.Apply | src/Decimal.js:88-400 | each wrapped decimal.js operation keeps this Decimal's points; it fails only where decimal.js refuses its argument (negative places, fewer than one significant digit) |
| Decimals.ToString | src/Decimal.js:355-387 | the padding loop builds exactly the text the specification function describes, for values decimal.js writes in plain notation |
| DecimalProperties.TextPadding | src/Decimal.js:359-384 | for values decimal.js writes in plain notation and points of one or more, the text still matches the decimal pattern and its fraction has the greater of the points and the digits the value needs: zeros are added, nothing is cut |
| DecimalProperties.PadParts | src/Decimal.js:365-382 | a fraction shorter than the points is padded with zeros up to them, a missing one becomes a point and that many zeros, and a longer one stays |
| DecimalProperties.TextExtendsRender | src/Decimal.js:355-387 | toString always starts with decimal.js's own text |
| DecimalProperties.TextWithoutPoints | src/Decimal.js:357-359 | with no points toString is exactly decimal.js's text |
| DecimalProperties.RenderMatch | src/Decimal.js:361-363 | decimal.js's text of a value it writes in plain notation matches the decimal pattern, with a fraction capture exactly when the value needs fraction digits |
| DecimalProperties.LiteralOfMatch | src/Decimal.js:42-57 | text the decimal pattern accepts is a decimal literal whose exponent is the length of the captured fraction |
| DecimalProperties.TextKeepsPoints | src/Decimal.js:42-57 | a Decimal built from text with a fraction records the fraction's length as its points, and toString writes exactly that many fraction digits back, for values decimal.js writes in plain notation |
| DecimalProperties.NoPointsWithoutFraction | src/Decimal.js:48-57 | a Decimal built from text without a fraction has no points |
| DecimalProperties.ToFixedPlaces | src/Decimal.js:312-314 | toFixed(p) matches the decimal pattern with exactly p fraction digits (none when p is 0), whatever the points |
| DecimalProperties.ToFixedThree | src/Decimal.js:312-314 | 3 with two places is written "3.00", the case of the test '3 equals "3.00"' (tests/Node_Clean.test.ts:300-302) |
| DecimalProperties.ComparisonsIgnorePoints | src/Decimal.js:158-216 | equals, lessThan and greaterThan against another Decimal compare the values and ignore the points of either side |
| Schema.TagOf | lib/constants.js:15-19 | a `__type__` value names a type exactly when it is a string `===` one of the twenty node names, and the type found carries that name |
| Terminals.CheckBound | src/Node.ts:399-520 | a bound is accepted only for the types that take bounds: never for any, bool, json, md5, tuuid, tuuid4, uuid or uuid4 |
| Terminals.CheckBoundFormat | src/Node.ts:409-420 | a date, datetime, ip or time bound is accepted exactly when it is text in the type's format, and it is kept as given |
| Terminals.CheckBoundInteger | src/Node.ts:422-452 | a base64, int, string, timestamp or uint bound becomes an integer, and one read from text is not below zero except for int |
| Terminals.CheckBoundNumeric | src/Node.ts:454-512 | a decimal or price bound becomes a Decimal; a float bound becomes a number (or NaN) |
| Terminals.MinMax | src/Node.ts:388-673 | both undefined reads the bounds and changes nothing; a minimum left undefined beside a maximum is refused with the source's message; a null bound leaves that bound as it was; a bound that is set is the checked and converted value; the maximum is never below a minimum that is set; type, regex, options and base are unchanged |
| Terminals.ConvertOption | src/Node.ts:714-830 | an accepted option is text in the format for the format types, a Decimal for decimal and price, an integer for the int types (not negative for timestamp and uint), the text of the value for string, and only for the types that take options; a price option that is already a Decimal throws decimal.js's invalid argument error, as it is wrapped a second time |
| Terminals.CollectedOptions | src/Node.ts:711-843 | the stored list holds every option converted at its own index, and no two of them are `===` |
| Terminals.CollectStops | src/Node.ts:714-840 | once an option has been refused, the later options change nothing: the first error is the one thrown |
| Terminals.OptionList | src/Node.ts:711-843 | the loop over the options gives exactly the list, or the error, of the specification function |
| Terminals.SetOptions | src/Node.ts:686-845 | undefined changes nothing; anything but an array is refused; a type that takes no options is refused with its name; on success the node keeps everything else and holds the converted list |
| Terminals.SetRegex | src/Node.ts:857-892 | undefined changes nothing; a type outside decimal, int, price, string, timestamp and uint is refused; a RegExp is kept and text is compiled, which succeeds exactly when the host can compile it |
| Terminals.NodeDetails | src/Node.ts:70-137 | a type name alone stands for `{__type__: name}`, an object stands for itself, and anything else is refused |
| Terminals.BuildTerminal | src/Node.ts:64-185 | a node is built only with a `__type__` that names a type, and has that type; a missing `__type__` and an unknown one are refused with the source's messages |
| Terminals.Constrain | src/Node.ts:162-184 | a regex, else options, else the bounds given are set, so a node never holds two kinds of constraint; with none of the four keys the node is unchanged |
| Terminals.CleanInt | src/Node.ts:293-306 | int text becomes the number strToInt reads, an integer stays as it is, and any number produced is an integer |
| Terminals.CleanDecimal | src/Node.ts:276-287 | a Decimal is written by its toString (price: toFixed(2)); a value decimal.js can not read makes clean throw decimal.js's error |
| Terminals.CleanTerminal | src/Node.ts:197-387 | null on an optional node stays null; clean throws only for tuuid and tuuid4, which have no branch in clean, and for decimal and price values decimal.js can not read |
| Terminals.TailStep | src/Node.ts:1395-1430 | the shared end of valid always decides: it accepts or refuses, and never passes the value on |
| Terminals.ValidTerminal | src/Node.ts:966-1433 | the verdict is true exactly when no failure is recorded; a refusal records one failure at the joined path; null passes on an optional node and is 'missing' otherwise |
| Patterns.DecimalMatch | lib/constants.js:34 | when the decimal pattern matches with a fraction, the captured fraction is one or more digits |
| Patterns.SpecialKeyName | lib/constants.js:22 | a key the special-key pattern matches is `__` + a special name + `__`, and the name is what is captured |
| Patterns.SpecialKeyNameOf | lib/constants.js:22-23 | a special name written as `__name__` is read back as the same name |
| Patterns.SpecialKeyInjective | lib/constants.js:22 | distinct special names give distinct keys |
| Schema.TagName | lib/constants.js:15-19 | the name of every type is one of the twenty node names |
| TerminalProperties.BoolValidClean | src/Node.ts:221-237 | a value bool valid accepts cleans to the boolean it spells: true for true, 1 and the true spellings, false for the rest |
| TerminalProperties.NumericRejectsBool | src/Node.ts:1054-1091 | a boolean is refused with 'is a bool' by the int types, decimal, float and price |
| TerminalProperties.UnsignedRejectsNegative | src/Node.ts:1054-1091 | uint and timestamp refuse a negative integer with 'signed' |
| TerminalProperties.UnsignedRejectsNegativeText | src/Node.ts:1054-1091 | uint and timestamp refuse text that strToInt reads as a negative integer with 'signed' |
| TerminalProperties.IntTextStep | src/Node.ts:1054-1091 | int text is checked as the integer strToInt reads from it, so "0x10" counts as 16 and "010" as 8 |
| TerminalProperties.StringLength | src/Node.ts:1373-1391 | with integer bounds a string is 'not long enough' below the minimum length, else 'too long' above the maximum, and accepted exactly when its length is within the bounds set |
| TerminalProperties.StringRegex | src/Node.ts:1363-1370 | a string the node's regex does not match is 'invalid' |
| TerminalProperties.IpRange | src/Node.ts:1026-1050 | an ip address is 'exceeds maximum' when compareIPs puts it above the maximum, else 'did not meet minimum' when below the minimum, and accepted exactly when neither holds |
| TerminalProperties.StringOptions | src/Node.ts:1395-1406 | a string node with options accepts exactly the strings among them and refuses the rest with 'not in options' |
| TerminalProperties.IntOptions | src/Node.ts:1395-1406 | an int node with options accepts an integer exactly when an option is the same number, and refuses it with 'not in options' otherwise |
| TerminalProperties.PriceTextPlaces | src/Node.ts:1268-1351 | price text (two fraction digits at most) is a Decimal that needs at most two places |
| TerminalProperties.PriceTooPrecise | src/Node.ts:1268-1351 | a Decimal price with more than two places is 'too many decimal points' |
| TerminalProperties.PriceTextInvalid | src/Node.ts:1268-1351 | text that is not a price is 'invalid' |
| TerminalProperties.PriceTextValid | src/Node.ts:1268-1351 | price text never fails on its places: with no options and no bounds it passes |
| TerminalProperties.PriceTextStep | src/Node.ts:1268-1351 | price text goes on to the options and bounds as the Decimal decimal.js reads from it |
| Validation.Missing | src/Parent.js:306-314 | null passes exactly when the node is optional, and fails with a failure recorded otherwise |
| Validation.Valid | src/Base.js:290 | for every node and value, valid is true exactly when it records no failure |
| Validation.LengthChecks | src/ArrayNode.js:376-390 | the length checks keep the loop's failures in front and pass exactly when the loop passed and the length is within the bounds that are set |
| Validation.FirstValid | src/Options.ts:258-293 | the variant picked is the first whose valid accepts the value: every earlier one refuses it |
| Validation.ValidTree | src/Tree.js:122-129 | without a level, Tree.valid is the Parent's valid at a level made of the tree's name; it is true exactly when nothing is recorded |
| ValidProperties.ScanItemsOk | src/ArrayNode.js:346-374 | after k elements the loop's boolean is true exactly when each passed the child and, in 'unique' mode, none is `===` an earlier one; the list of accepted elements is then the whole prefix |
| ValidProperties.ArrayValidIff | src/ArrayNode.js:323-393 | a list is valid exactly when every element passes the child at its own level, no element repeats an earlier one in 'unique' mode, and its length is within the bounds that are set |
| ValidProperties.ScanItemsGrows | src/ArrayNode.js:346-374 | the loop only adds failures: those after j elements are a prefix of those after more |
| ValidProperties.ArrayKeepsChildFailures | src/ArrayNode.js:350-359 | the loop does not stop at the first bad element: every failure an element's child records appears among the list's failures |
| ValidProperties.ScanEntriesOk | src/Hash.ts:268-290 | after k entries the loop is still true exactly when none of them added a failure |
| ValidProperties.EntryFailuresEmpty | src/Hash.ts:278-289 | an entry adds no failure exactly when its key passes the key node and its value passes the child |
| ValidProperties.HashValidIff | src/Hash.ts:238-294 | an object is valid exactly when every key passes the key node and every value passes the child at the key's level |
| ValidProperties.HashReportsInvalidKey | src/Hash.ts:278-282 | a key the key node refuses is reported as 'invalid key: <k>' at its path, and the loop goes on past it |
| ValidProperties.ScanEntriesGrows | src/Hash.ts:268-290 | the loop only adds failures: those after j entries are a prefix of those after more |
| ValidProperties.ScanEntriesSnoc | src/Hash.ts:268-290 | the failures after k entries are those after k - 1 followed by those of entry k - 1 |
| ValidProperties.ScanFieldsOk | src/Parent.js:323-354 | after k fields the loop is true exactly when each of them is satisfied |
| ValidProperties.FieldFailuresEmpty | src/Parent.js:325-353 | a field adds no failure exactly when it is absent and optional, or present, valid and with every field its rule requires set |
| ValidProperties.ParentValidIff | src/Parent.js:298-357 | an object is valid exactly when every field of the Parent is satisfied |
| ValidProperties.UnmetOfEmpty | src/Parent.js:344-353 | a rule adds no failure exactly when every field it requires is set (present and none of the four unset values), and never more failures than it names fields |
| ValidProperties.UnmetOfReasons | src/Parent.js:348-350 | each failure of a rule is at the field's path and says which required field is not set |
| ValidProperties.OptionsValidIff | src/Options.ts:258-293 | a value is valid exactly when some variant accepts it, and otherwise the only failure is 'no valid option' at the level |
| ValidProperties.FailuresUnder | src/Base.js:290 | every failure valid records lies under the level it was given: its path starts with the joined level |
| ValidProperties.TreeFailuresNamed | src/Tree.js:122-129 | without a level, every failure path of a Tree starts with the tree's name |
| Cleaning.MissingClean | src/ArrayNode.js:140-147 | null or undefined gives null exactly when the container is optional, and otherwise a NodeException 'missing' at the level |
| Cleaning.ItemsHaltSticks | src/ArrayNode.js:155-170 | once the list loop has thrown, the rest of the list changes nothing: the same error is thrown |
| Cleaning.EntriesHaltSticks | src/Hash.ts:166-182 | once the Hash loop has thrown, the rest of the object changes nothing |
| Cleaning.KeysHaltSticks | src/Parent.js:145-160 | once the Parent loop has thrown, the rest of the object changes nothing |
| CleanProperties.NodeErrorsNonEmpty | src/ArrayNode.js:172-174 | a NodeException thrown by clean always lists at least one error, so a gathered error list is never mistaken for success |
| CleanProperties.CleanItemsOk | src/ArrayNode.js:153-174 | the list loop ends without error exactly when every element cleans |
| CleanProperties.CleanItemsValues | src/ArrayNode.js:153-176 | a list loop that ends without error holds each element's cleaned value at its own index |
| CleanProperties.ArrayCleanIff | src/ArrayNode.js:134-177 | ArrayNode.clean returns a value exactly when every element cleans at level + '[i]', and then a list of the same length with each element's cleaned value in order |
| CleanProperties.CleanEntriesOk | src/Hash.ts:164-187 | the Hash loop ends without error exactly when every key and every value cleans |
| CleanProperties.HashCleanIff | src/Hash.ts:139-191 | Hash.clean of an object returns an object exactly when the key node cleans every key and the child cleans every value |
| CleanProperties.HashCleanStores | src/Hash.ts:164-191 | when Hash.clean returns an object, it is the entries written in turn, each key cleaned by the key node and each value by the child node at level + key; every written key is in it with the value of its last write, and it has no other key |
| CleanProperties.EntriesGatherErrors | src/Hash.ts:164-182 | with child errors gathered, the Hash loop keeps going past failing entries and holds the errors of every failing key or value, in order |
| CleanProperties.HashReportsEveryError | src/Hash.ts:164-186 | when entries fail and none throws anything but a NodeException, Hash.clean throws one NodeException holding every entry's errors, in order |
| CleanProperties.CleanKeysOk | src/Parent.js:143-164 | the Parent loop ends without error exactly when every key of the value names a field whose node cleans it |
| CleanProperties.CleanKeysHas | src/Parent.js:145-160 | the object the Parent loop builds without error has every key it read |
| CleanProperties.ParentCleanIff | src/Parent.js:124-167 | Parent.clean of an object returns a value exactly when every key names a field that cleans its value, and then an object with each of those keys |
| CleanProperties.ParentCleanStores | src/Parent.js:143-166 | when Parent.clean returns an object, each key of the value is in it, and holds the value of the field of that name cleaned at level + key (the last one read for a repeated key); it has no other key |
| CleanProperties.KeysGatherErrors | src/Parent.js:143-160 | with child errors gathered, the Parent loop keeps going past failing fields and holds one nested entry per failing field, in order |
| CleanProperties.ParentReportsEveryError | src/Parent.js:143-164 | when fields fail and none throws anything but a NodeException, Parent.clean throws one NodeException with one nested entry per failing field |
| CleanProperties.OptionsCleanFirst | src/Options.ts:172-180 | a value that is set is cleaned by the first variant, in order, whose valid accepts it |
| CleanProperties.OptionsCleanNone | src/Options.ts:183 | when no variant accepts the value, clean throws 'matches no option' at the level |
| CleanProperties.NullClean | src/Options.ts:160-169 | null on an optional node cleans to null whatever its kind; on a container that is not optional it throws 'missing' |
| Build.Create | src/Base.js:46-85 | a list builds an Options; an object with `__array__` an ArrayNode, else with `__hash__` a Hash, else without `__type__` a Parent; a string a Node; anything else is refused with 'details invalid' |
| Build.BuildOptions | src/Options.ts:38-116 | anything but a list is refused; an Options has one variant per definition, no specials, and is optional exactly when every variant is |
| Build.CreateAll | src/Options.ts:106-115 | when every definition builds, there is one node per definition |
| Build.CreateAllStops | src/Options.ts:106-115 | the first definition that fails to build makes the whole constructor fail with its error |
| Build.ArraySpec | src/ArrayNode.js:86-88 | an `__array__` that is not an object stands for `{type: <it>}` |
| Build.GivenBound | src/ArrayNode.js:103-105 | a bound handed to minmax is null or truthy: a falsy bound counts as not given |
| Build.BuildArray | src/ArrayNode.js:50-110 | an ArrayNode is 'unique' exactly when its type is 'unique'; a type other than 'unique' or 'duplicates' is refused with the source's message |
| Build.ArrayBound | src/ArrayNode.js:190-254 | an accepted bound is never negative; integer text is read by strToInt, an integer stands for itself, and anything else is refused as not an integer |
| Build.ArrayMinMax | src/ArrayNode.js:190-254 | both undefined reads the bounds; an undefined minimum beside a maximum is refused; null leaves a bound as it was; a bound that is set is the one read; a maximum below a minimum that is set and not zero is refused |
| Build.KeyDetails | src/Hash.ts:101-103 | `__hash__: true` stands for a string key node; anything else is the key node's definition |
| Build.BuildHash | src/Hash.ts:49-113 | a Hash's key node is the Node built from the `__hash__` definition, and its base is read from the details without `__hash__` |
| Build.BuildParent | src/Parent.js:44-92 | a Parent's base is the one its details give; every field has a standard name; every rule is for a field and names only fields |
| Build.CreateFields | src/Parent.js:81-87 | only keys with a standard name become fields |
| Build.CreateFieldsStops | src/Parent.js:81-87 | the first field whose definition fails to build makes the constructor fail with its error |
| Build.ReadRequires | src/Parent.js:227-267 | undefined sets no rules; anything but an object is refused; the rules read are one per key, each for a field and naming only fields |
| Build.RequireEntries | src/Parent.js:239-264 | one rule per key, in order, for that key; a string value names one field; every value is a string or a list |
| Build.RequireEntriesStops | src/Parent.js:239-264 | the first key that is refused makes the whole call fail with its message |
| Build.RequireNames | src/Parent.js:241-263 | an accepted key is a field and its value a string or a list; a string names itself and a list names the text of each element, every one of them a field |
| Build.FirstUnknown | src/Parent.js:253-257 | the index found is the first list element that names no field |
| Build.BuildTree | src/Tree.js:41-90 | anything but an object, a missing `__name__` and a name that is not standard are refused with the source's messages; a Tree keeps the name and holds the Parent built from the details without `__array__` |
| Build.OptionsLength | src/Options.ts:218-220 | the length of an Options is the number of its variants |
| Build.OptionsGet | src/Options.ts:197-207 | an index within range gives that variant; outside, the default when one is given, else an Error naming the index |
| Values.KeyIndex | src/Parent.js:178-180 | the index found is that of the first pair with the key (the first field of that name, as in `key in this._nodes`, and likewise the first rule for a field, src/Parent.js:344-346), and the length of the list exactly when no pair has it |
| Values.AssignSnoc | src/Parent.js:150 | writing one more pair into an object is writing it after all the earlier ones, as `oRet[k] = ...` does in turn |
| Values.AssignLastWins | src/Parent.js:145-151 | an object built by writing pairs in turn has every written key, holds for each key the value of its last write, and has no key that was not written |
| Build.ParentGet | src/Parent.js:178-204 | contains is true exactly when a field has the key; get gives that field's node, else the default when one is given, else an Error naming the key |
| Build.Keys | src/Parent.js:214-216 | the keys are the field names in order |
| BuildProperties.TagOfName | lib/constants.js:15-19 | every type reads back from its own name |
| BuildProperties.TypeOnlyBase | src/Base.js:119-159 | the Base constructor on a lone `__type__` gives a base that is not optional, has no specials, and leaves the type |
| BuildProperties.StringShorthand | src/Node.ts:70-76 | a type name alone builds what `{__type__: name}` builds: for a known name that type with no base keys and no constraint, and for any other text the error 'invalid "__type__" in details' |
| BuildProperties.HashTrueKey | src/Hash.ts:101-103 | `__hash__: true` builds a plain string key node |
| BuildProperties.PlainKeyAcceptsAll | src/Hash.ts:101-103 | that plain key node accepts every key |
| BuildProperties.StandardEntries | src/Parent.js:81-87 | the entries kept are those with a standard name, each one from the details |
| BuildProperties.FieldsOfStandardEntries | src/Parent.js:81-87 | the field loop succeeds exactly when Base.create succeeds on the value of every standard key, and then its fields are those keys in order, each with the node of its value |
| BuildProperties.ParentFields | src/Parent.js:76-87 | the fields of a Parent are the standard keys the Base constructor leaves, in order, each holding the node Base.create makes of its value |
| BuildProperties.WrittenBound | src/ArrayNode.js:269-286 | a bound is written out exactly when it is set and not zero |
| BuildProperties.BoundOfInt | src/ArrayNode.js:190-254 | a whole number that is not negative, given as an array bound, reads back as itself |
| BuildProperties.ArrayValueRoundTrip | src/ArrayNode.js:265-299 | the `__array__` value toObject writes reads back through the constructor as the node's type and its bounds that are set and not zero |
| BuildProperties.ReadBoth | src/ArrayNode.js:86-105 | an `__array__` object with both bounds reads back as them |
| BuildProperties.ReadOne | src/ArrayNode.js:86-105 | an `__array__` object with one bound reads back as that bound alone |
| BuildProperties.SpecialEntriesKeys | src/Base.js:274-276 | the keys written for the specials are neither reserved nor `__optional__` |
| BuildProperties.BaseObjectKeys | src/Base.js:266-279 | Base.toObject writes no key the constructors reserve |
| BuildProperties.BaseObjectDistinct | src/Base.js:266-279 | Base.toObject writes no key twice |
| BuildProperties.SplitAfter | src/Base.js:146-158 | the special loop after a key that is not special gives back the specials written after it and leaves that key alone |
| BuildProperties.ReadTerminalBase | src/Base.js:119-159 | the Base constructor on a type followed by what Base.toObject writes gives back the base and leaves the type |
| BuildProperties.TerminalObjectLayout | src/Node.ts:904-940 | toObject of a terminal with no constraint is its type followed by what Base.toObject writes |
| BuildProperties.BuildTerminalRoundTrip | src/Node.ts:64-185 | the Node constructor on that layout gives the terminal back |
| BuildProperties.HashKeyRoundTrip | src/Hash.ts:101-106 | the `__hash__` value Hash.toObject writes (src/Hash.ts:209) for a key node with no constraint reads back through the constructor as the same key node |
| BuildProperties.TerminalRoundTrip | src/Node.ts:904-940 | toObject of a terminal with no constraint, handed to Base.create, gives the same terminal back: its type, its optional flag and its specials |
| BuildProperties.CreateTerminal | src/Base.js:62-70 | details with a textual `__type__` and neither `__array__` nor `__hash__` build a Node |
| BuildProperties.TreeObjectName | src/Tree.js:101-111 | Tree.toObject writes `__name__` first, holding the tree's name unless the Parent's own object also has that key |
| Serialise.ArrayValue | src/ArrayNode.js:269-286 | with no bound set (or only zero bounds) `__array__` is the type alone; otherwise an object whose first key is the type |
| Serialise.RequireObject | src/Parent.js:227-267 | the `__require__` value has one key per rule |
| Serialise.ToObject | src/Options.ts:233-245 | an Options writes a list with one definition per variant, and every other node writes an object |
| Runner.Check | src/Base.js:290 | valid of any node, run with loops, gives exactly the verdict of the specification |
| Runner.CheckArray | src/ArrayNode.js:323-393 | the loop over the elements, with the accepted list kept for 'unique', gives exactly the specified verdict |
| Runner.CheckHash | src/Hash.ts:238-294 | the loop over the keys gives exactly the specified verdict |
| Runner.CheckOptions | src/Options.ts:258-293 | the loop that stops at the first variant accepting the value gives exactly the specified verdict |
| Runner.CheckParent | src/Parent.js:298-357 | the loop over the fields, with the inner loop over each rule, gives exactly the specified verdict |
| Runner.CheckRule | src/Parent.js:346-352 | the inner loop appends exactly the failures of the rule and keeps the boolean true only when the rule adds none |
| Runner.Scrub | src/Base.js:182 | clean of any node, run with loops, gives exactly the specified outcome with child errors gathered |
| Runner.ScrubArray | src/ArrayNode.js:134-177 | the loop over the elements gives exactly the specified outcome |
| Runner.ScrubHash | src/Hash.ts:139-191 | the loop over the keys gives exactly the specified outcome |
| Runner.ScrubOptions | src/Options.ts:152-184 | the loop over the variants gives exactly the specified outcome |
| Runner.ScrubParent | src/Parent.js:124-167 | the loop over the keys of the value gives exactly the specified outcome |
| Runner.NewOptions | src/Options.ts:38-116 | the constructor's loop builds exactly the specified Options, or fails with the first error |
| Runner.NewParent | src/Parent.js:44-92 | the constructor's loop builds exactly the specified Parent, or fails with the first error |
| Runner.SetRequires | src/Parent.js:227-267 | the loop over the keys of `__require__` gives exactly the specified rules, or the first error |
| Runner.RequireOne | src/Parent.js:241-263 | the body of that loop for one key gives exactly the specified names, or the error |
| Findings.TailStepAsWritten | src/Node.ts:1409-1426 | the end of valid as written always decides, and with no options and no truthy bound it accepts |
| Findings.ZeroMinimumIgnored | src/Node.ts:1412-1417 | an int node with minimum 0 accepts every integer as written, while the intended check refuses exactly the negative ones |
| Findings.IntBoundsHonoured | src/Node.ts:1409-1426 | with integer bounds, zero included, an integer passes exactly when it lies within the bounds that are set |
| Findings.StringStepAsWritten | src/Node.ts:1373-1391 | the string length check as written skips a bound of 0, so with no truthy bound and no regex a string goes on to the end of valid unchecked |
| Findings.ZeroMaxLengthIgnored | src/Node.ts:1373-1391 | a string node with maximum length 0 accepts "abc" as written, while the intended check refuses it as 'too long' |
| Findings.DecimalBoundsAsText | src/Node.ts:660-670 | minimum 9 and maximum 10 are refused as written, since "9" > "10" as text, although 9 is not above 10 |
| Findings.DecimalBoundsByValue | src/Node.ts:646-672 | for decimal and price, minmax accepts two Decimals exactly when the maximum is not below the minimum by value, and then stores both |
| Findings.UnknownRequireAsWritten | src/Parent.js:253-257 | the message as written keeps the `__require__[k]:` prefix |
| Findings.UnknownNameLost | src/Parent.js:253-257 | as written `{a: ['zz']}` is reported as `__require__[a]:undefined`; the intended message names `zz` |
| Findings.UnknownRequireNamed | src/Parent.js:252-259 | a list naming an unknown field is refused with a message naming the first unknown entry |
| Findings.ParentObjectAsWritten | src/Parent.js:278-287 | Parent.toObject as written gives an object |
| Findings.RequiresDropped | src/Parent.js:278-287 | as written, the object of a Parent whose field a requires b has no `__require__` key; the intended one has it |
| Findings.RequireRoundTrip | src/Parent.js:227-267 | the `__require__` value written for rules that name fields reads back through requires as the same rules |
| Findings.ParentKeepsRequires | src/Parent.js:278-287 | a Parent with rules writes `__require__`, and reading it back gives the same rules |
| Findings.ListErrorsLost | src/ArrayNode.js:159-169 | as written a list of two nulls under a list node reports only the first element's error; the intended loop reports both |
| Findings.FieldErrorsLost | src/Parent.js:149-159 | as written a field whose node throws a NodeException is reported as 'not a valid node'; the intended loop nests the field's own error |
| Findings.ItemsGatherErrors | src/ArrayNode.js:153-170 | with child errors gathered, the list loop collects every element's errors in order |
| Findings.ListReportsEveryError | src/ArrayNode.js:134-177 | when elements fail, ArrayNode.clean throws one NodeException holding every element's errors, in order |

## Left out

- Date objects: the branches of `clean` and `valid` that accept a JavaScript `Date` (date, datetime, time) are not modelled. The same goes for `dateToStr` and `dateTimeToStr` (helpers.ts:74-114), because a `Date` and the clock are not values of this model; only text dates are.
- Binary floating point: JavaScript numbers are exact decimals, so float rounding, `-0`, infinities and integers beyond 2^53 are not modelled. NaN is kept as its own value.
- Regular expressions given by the user (`__regex__`) and `JSON.parse`/`JSON.stringify` are oracles of `Host`, not implementations. `String(regex)` is read as the pattern's source.
- The `extend` argument of every constructor (`clone`/`combine` of the details) is not modelled. Constructors take the details as they are, as `Base.create` passes them (`extend === false`).
- `Base.register` and the class registry, `class()`, `toJSON`, and the `Options` and `Parent` iterators are not modelled. The iterators give the same order as `Build.Keys` and the variants list.
- The check in `special` that a value can be encoded to JSON is not modelled: every value is taken to be encodable.
- Update in place and aliasing are not modelled. A setter returns a new node, and `validationFailures` is returned with the verdict rather than stored on the node. A definition object shared between nodes is therefore not modelled.
- Key order of JavaScript objects is not modelled: integer-like keys are not moved to the front, and entries keep the order given.
- Decimals.Apply: decimal.js arithmetic is exact here. Its default precision of 20 significant digits is not modelled. Neither are the rounding-mode arguments of `toDecimalPlaces` and `toSignificantDigits`, nor operands other than numbers (the default rounding, half up, is).
- Build.CreateAll: its contract states only the length of the list it builds. Stating each element as the node of its definition ran out of resources. `Build.CreateAllStops` and `Build.CreateAllSnoc` state the loop one step at a time instead.
- Build.CreateAll and Build.CreateFields carry a ghost `bound` that only proves termination. It limits nothing.
- BuildProperties.TerminalRoundTrip: only terminals without a regex, options or bounds are covered. Bounds and options go through conversions (Decimal, `strToInt`) whose written form is not always the form read back.
- BuildProperties.ArrayValueRoundTrip: a bound of zero comes back as not set, because `toObject` writes only bounds that are truthy (src/ArrayNode.js:269-281); the contract states that loss rather than hiding it.
- Serialise.ToObject: a terminal bound of zero is written out, where src/Node.ts:924-929 skips a falsy bound. This is the same truthiness slip as the bound finding below, and the model follows the intended behaviour.
- Tests expect 'failed regex (custom)' for a string that misses its regex. The code says 'invalid', and the model follows the code.
- Terminals.ToDecimal: reads only plain decimal text and numbers, as `new Decimal` of them. decimal.js also reads the number NaN, the text "NaN" and "Infinity", and binary, octal and hexadecimal text such as "0x1F"; those give no Decimal here. NaN and infinite Decimals are not values of this model.
- Terminals.ConvertOption: a decimal option that is NaN, "NaN" or hexadecimal text is refused with 'not a valid decimal', where decimal.js reads it (see Terminals.ToDecimal).
- Terminals.DecimalTypeStep: NaN, "NaN" and hexadecimal text are refused with 'can not be converted to decimal', where the source accepts them (see Terminals.ToDecimal).
- Terminals.PriceStep: the number NaN is refused with 'can not be converted to price', where the source reads a NaN Decimal, whose `decimalPlaces()` is not above 2, and accepts it (see Terminals.ToDecimal).
- Terminals.CleanDecimal: NaN, "NaN" and hexadecimal text make clean throw, where the source writes the Decimal decimal.js reads from them, "NaN" for NaN (see Terminals.ToDecimal).
- Terminals.CleanTerminal: its promise that clean throws only for decimal and price values decimal.js can not read holds for the values Terminals.ToDecimal reads; NaN, "NaN" and hexadecimal text throw here but not in the source.
- Build.ParentGet: `key in this._nodes` (src/Parent.js:179, 193) is also true for names inherited from `Object.prototype`, such as 'toString' and 'constructor'. Here only the fields are keys, so `contains('toString')` is false. The same goes for Build.RequireNames (src/Parent.js:241, 246, 254), which refuses a rule naming 'constructor', and for ValidProperties.ParentValidIff (`k in value`, src/Parent.js:328), where a field called 'constructor' that the value lacks is reported missing here and never in the source.
- Terminals.StringStep: strings are sequences of Unicode characters, while JavaScript's `value.length` (src/Node.ts:1376, 1384) counts UTF-16 code units, so a character outside the Basic Multilingual Plane counts 1 here and 2 in the source. The same holds for TerminalProperties.StringLength and for Values.StrLess, which orders text by character where JavaScript orders it by code unit.
- Decimals.ToString: decimal.js's `toString` (src/Decimal.js:357) writes a value in exponent notation when its exponent is -7 or below or 21 or above, "1e-7" for 0.0000001 and "1e+21" for 10^21; the padding regex then does not match and that text is returned unpadded. Here every value is written in plain notation, so for those values the text differs.
- DecimalProperties.RenderMatch: holds only for values decimal.js writes in plain notation, with exponents from -6 to 20 (see Decimals.ToString); "1e-7" and "1e+21" do not match the decimal pattern.
- DecimalProperties.TextPadding: holds only for values decimal.js writes in plain notation, with exponents from -6 to 20 (see Decimals.ToString).
- DecimalProperties.TextKeepsPoints: holds only for values decimal.js writes in plain notation; `new Decimal("0.00000010").toString()` is "1e-7" in the source (see Decimals.ToString).
- Values.ToJsString: JavaScript's `String(number)` also switches to exponent notation below 10^-6 and from 10^21 up ("1e-7", "1e+21"); numbers are written here in plain notation, so a string node cleaning the number 0.0000001 gives "0.0000001" where the source gives "1e-7".
- BaseNodes.SpecialCall: `name in this._special` (src/Base.js:230) is also true for names inherited from `Object.prototype` that match `[a-z0-9_-]+`, such as 'constructor' and '__proto__'; the source's get returns a clone of the inherited value, and here it returns null. The same gap affects BaseNodes.SpecialSetGet and CleanProperties.HashCleanStores.
- BaseNodes.SpecialSetGet: setting '__proto__' (src/Base.js:237) replaces the prototype of the specials object, or is ignored for a primitive value, so reading it back does not give the value set in the source; here '__proto__' is an ordinary name (see BaseNodes.SpecialCall).
- CleanProperties.HashCleanStores: a key that cleans to '__proto__' sets the prototype of the returned object at src/Hash.ts:174 rather than adding an own key; here it is an ordinary key (see BaseNodes.SpecialCall).
- Validation.Unmet: `k in this._requires` (src/Parent.js:344) is also true for a field named 'toString', 'valueOf' or 'constructor', since `_requires` is a plain object (src/Parent.js:79, 266); when such a field's value passes, src/Parent.js:346 iterates over the inherited function and valid throws a TypeError. Here no rule is found for it and valid goes on. The same gap affects ValidProperties.ParentValidIff and Runner.CheckParent, which report valid where the source throws.
- ValidProperties.ParentValidIff: states valid for a Parent with a field named 'toString', 'valueOf' or 'constructor' whose value passes, where the source throws a TypeError (see Validation.Unmet).
- Runner.CheckParent: returns valid where the source throws a TypeError for a field named after an `Object.prototype` member (see Validation.Unmet).
- Terminals.MinMax: the source stores a new minimum (src/Node.ts:521) before the maximum checks that can throw (src/Node.ts:664), so after a failed call the node keeps the new minimum; here an error leaves the node as it was. Build.ArrayMinMax likewise, where src/ArrayNode.js:222 stores the minimum before the checks of src/ArrayNode.js:228-249.
- Build.ArrayMinMax: an error leaves no new minimum behind, where the source has already stored it (see Terminals.MinMax).
- Terminals.SetRegex: a RegExp given as `__regex__` keeps only its source here, so its flags (such as `i` or `g`, and the `lastIndex` state `g` gives `test`) are lost, where src/Node.ts:876-889 stores the RegExp itself. The compile error is modelled as "Invalid regular expression: /x/" without the engine's reason that follows it in JavaScript.
- The type declarations (`*.d.ts`), the older `BaseNode`, `Child` and `OptionsNode` files, and `index` are not part of this model.

## Findings

| source | as written | input that shows it | evidently intended | confidence | as-written member | corrected member |
|---|---|---|---|---|---|---|
| src/ArrayNode.js:163-168 | The catch tests `err.name === 'NodeException'`, but NodeException (src/NodeException.ts:19-48) never sets `name`, so it is 'Error'. ArrayNode and Hash clean therefore rethrow the first child's exception, and Parent clean (src/Parent.js:153-157) turns it into 'not a valid node'. | A list of lists of strings cleaning `[null, null]`: only `[0]` 'missing' is reported. A Parent with a list field `a` cleaning `{a: null}`: it reports `a` 'not a valid node'. | every child's errors are gathered and thrown together | not executed | Findings.ListErrorsLost | Findings.ListReportsEveryError |
| src/Node.ts:1412-1425 | The bounds at the end of `valid` are tested by truthiness, so a bound of 0 counts as not set. | An int node with `__minimum__: 0` accepts -1. | a bound of 0 is enforced like any other | not executed | Findings.ZeroMinimumIgnored | Findings.IntBoundsHonoured |
| src/Node.ts:1373-1391 | The string length bounds are tested by truthiness too, so a length bound of 0 counts as not set. | A string node with `__maximum__: 0` accepts "abc". | a length bound of 0 is enforced like any other | not executed | Findings.ZeroMaxLengthIgnored | TerminalProperties.StringLength |
| src/Parent.js:278-287 | toObject writes the base keys and the fields, but not the `__require__` rules. | A Parent with fields a and b, where a requires b: its object has no `__require__`. | the rules are written out and read back as the same rules | not executed | Findings.RequiresDropped | Findings.ParentKeepsRequires |
| src/Node.ts:663 | For decimal and price, `this._minimum > maximum` compares two Decimal wrappers. JavaScript converts them to their text and compares strings. | A decimal node with minimum "9" and maximum "10" is refused, as "9" > "10". | the bounds are compared by value | not executed; relies on the wrapper's base class having no numeric `valueOf` | Findings.DecimalBoundsAsText | Findings.DecimalBoundsByValue |
| src/Parent.js:253-256 | The message for an unknown name in a list reads `require[s]`, an index into the outer object, which is undefined. | `__require__: {a: ['zz']}` reports `__require__[a]:undefined`. | the message names the unknown entry, `__require__[a]:zz` | not executed | Findings.UnknownNameLost | Findings.UnknownRequireNamed |

=== FILE: base.dfy ===
/** src/Base.js: what every node does with its definition before it looks at
    its own keys (the `__optional__` flag and the special `__x__` keys), the
    optional and special accessors, and the object the base part serialises to. */
module BaseNodes {
  import opened Wrappers
  import opened Patterns
  import opened Values
  import opened Schema
  import opened Strings

  /** Reads `__optional__`: it must be a bool, and it leaves the details. */
  function ReadOptional(details: seq<(string, Value)>): (r: Result<(bool, seq<(string, Value)>), string>)
    ensures r.Err? <==> HasKey(details, "__optional__") && !Get(details, "__optional__").Bool?
    ensures r.Ok? ==> (r.value.0 <==> Get(details, "__optional__") == Bool(true))
    ensures r.Ok? ==> !HasKey(r.value.1, "__optional__")
    ensures r.Ok? ==> forall k | k != "__optional__" :: HasKey(r.value.1, k) == HasKey(details, k)
                                                        && Get(r.value.1, k) == Get(details, k)
  {
    if !HasKey(details, "__optional__") then Ok((false, details))
    else
      var v := Get(details, "__optional__");
      if v.Bool? then Ok((v.b, Remove(details, "__optional__")))
      else Err("\"" + ToJsString(v) + "\" is not a valid value for __optional__.")
  }

  /** Whether the Base constructor moves key `k` into the specials. */
  predicate IsSpecialKey(k: string)
  {
    NameIndex(Reserved, k) == |Reserved| && SpecialKeyName(k).Some?
  }

  /** The special-key loop of the Base constructor over `details`, in order:
      the specials found, by name, and the details that remain. */
  function SplitSpecials(details: seq<(string, Value)>): (r: (seq<(string, Value)>, seq<(string, Value)>))
    ensures forall e | e in r.1 :: e in details && !IsSpecialKey(e.0)
    ensures forall e | e in details && !IsSpecialKey(e.0) :: e in r.1
    ensures forall e | e in details && IsSpecialKey(e.0) :: HasKey(r.0, SpecialKeyName(e.0).value)
    ensures forall n | HasKey(r.0, n) :: IsSpecialName(n) && HasKey(details, "__" + n + "__")
    decreases |details|
  {
    if details == [] then ([], [])
    else
      var init := details[..|details| - 1];
      var e := details[|details| - 1];
      assert details == init + [e];
      var (special, rest) := SplitSpecials(init);
      HasKeySnoc(init, e, e.0);
      if IsSpecialKey(e.0) then
        var name := SpecialKeyName(e.0).value;
        var special' := Put(special, name, e.1);
        assert forall n | HasKey(special', n) :: IsSpecialName(n) && HasKey(details, "__" + n + "__") by {
          forall n | HasKey(special', n) ensures IsSpecialName(n) && HasKey(details, "__" + n + "__") {
            HasKeySnoc(init, e, "__" + n + "__");
          }
        }
        (special', rest)
      else
        assert forall n | HasKey(special, n) :: HasKey(details, "__" + n + "__") by {
          forall n | HasKey(special, n) ensures HasKey(details, "__" + n + "__") {
            HasKeySnoc(init, e, "__" + n + "__");
          }
        }
        (special, rest + [e])
  }

  /** In details with distinct keys, as every JavaScript object has, each
      special key's value is the one stored under its name. */
  lemma {:induction false} SplitSpecialsValues(details: seq<(string, Value)>)
    requires DistinctKeys(details)
    ensures forall e | e in details && IsSpecialKey(e.0) :: Get(SplitSpecials(details).0, SpecialKeyName(e.0).value) == e.1
    decreases |details|
  {
    if details != [] {
      var init, last := details[..|details| - 1], details[|details| - 1];
      assert details == init + [last];
      assert DistinctKeys(init) by {
        forall i, j | 0 <= i < j < |init| ensures init[i].0 != init[j].0 {
          assert init[i] == details[i] && init[j] == details[j];
        }
      }
      SplitSpecialsValues(init);
      forall e | e in details && IsSpecialKey(e.0)
        ensures Get(SplitSpecials(details).0, SpecialKeyName(e.0).value) == e.1
      {
        if e != last {
          assert e in init;
          var i :| 0 <= i < |init| && init[i] == e;
          assert details[i] == e && e.0 != last.0;
        }
      }
    }
  }

  lemma {:induction false} HasKeySnoc(o: seq<(string, Value)>, e: (string, Value), k: string)
    ensures HasKey(o + [e], k) <==> HasKey(o, k) || e.0 == k
    decreases |o|
  {
    if o != [] {
      assert (o + [e])[1..] == o[1..] + [e];
      HasKeySnoc(o[1..], e, k);
    }
  }

  /** The loop of the Base constructor: each key in turn is skipped when
      reserved, moved into the specials when it is `__name__`, kept otherwise. */
  method ExtractSpecials(details: seq<(string, Value)>) returns (special: seq<(string, Value)>, rest: seq<(string, Value)>)
    ensures (special, rest) == SplitSpecials(details)
  {
    special, rest := [], [];
    for i := 0 to |details|
      invariant (special, rest) == SplitSpecials(details[..i])
    {
      assert details[..i + 1][..i] == details[..i];
      var (k, v) := details[i];
      if NameIndex(Reserved, k) == |Reserved| {
        var m := SpecialKeyName(k);
        if m.Some? {
          special := Put(special, m.value, v);
          continue;
        }
      }
      rest := rest + [(k, v)];
    }
    assert details[..|details|] == details;
  }

  /** The Base constructor: the details must be an object; the result is the
      base part of the node and the details left for the node's own keys. */
  function MakeBase(details: Value): (r: Result<(Base, seq<(string, Value)>), string>)
    ensures !details.Obj? ==> r == Err("details must be an Object")
    ensures r.Ok? ==> forall e | e in r.value.1 :: e in details.entries && !IsSpecialKey(e.0) && e.0 != "__optional__"
  {
    if !details.Obj? then Err("details must be an Object")
    else
      match ReadOptional(details.entries)
      case Err(msg) => Err(msg)
      case Ok((optional, d)) =>
        var split := SplitSpecials(d);
        RestOfDetails(details.entries, optional, d);
        Ok((Base(optional, split.0), split.1))
  }

  /** The details the special-key loop leaves are no larger than it was given. */
  lemma {:induction false} SplitSpecialsSize(d: seq<(string, Value)>)
    ensures Size(Obj(SplitSpecials(d).1)) <= Size(Obj(d))
    decreases |d|
  {
    if d != [] {
      var init := d[..|d| - 1];
      var e := d[|d| - 1];
      assert d == init + [e];
      SplitSpecialsSize(init);
      ObjSizeAppend(init, [e]);
      ObjSizeAppend(SplitSpecials(init).1, [e]);
    }
  }

  /** The details the Base constructor leaves are no larger than it was given. */
  lemma MakeBaseSize(details: Value)
    requires MakeBase(details).Ok?
    ensures Size(Obj(MakeBase(details).value.1)) <= Size(details)
  {
    var d := ReadOptional(details.entries).value.1;
    SplitSpecialsSize(d);
  }

  /** What the Base constructor leaves: entries of the details that are
      neither the optional flag nor special. */
  lemma RestOfDetails(o: seq<(string, Value)>, optional: bool, d: seq<(string, Value)>)
    requires ReadOptional(o) == Ok((optional, d))
    ensures forall e | e in SplitSpecials(d).1 :: e in o && !IsSpecialKey(e.0) && e.0 != "__optional__"
  {
    forall e | e in SplitSpecials(d).1 ensures e in o && e.0 != "__optional__" {
      HasKeyIn(d, e);
      if HasKey(o, "__optional__") {
        RemoveKeeps(o, "__optional__", e);
      }
    }
  }

  lemma {:induction false} HasKeyIn(o: seq<(string, Value)>, e: (string, Value))
    requires e in o
    ensures HasKey(o, e.0)
    decreases |o|
  {
    if o[0] != e {
      HasKeyIn(o[1..], e);
    }
  }

  lemma {:induction false} RemoveKeeps(o: seq<(string, Value)>, k: string, e: (string, Value))
    requires e in Remove(o, k)
    ensures e in o
    decreases |o|
  {
    if o[0].0 == k {
      RemoveKeeps(o[1..], k, e);
    } else if Remove(o, k)[0] != e {
      assert Remove(o, k)[1..] == Remove(o[1..], k);
      RemoveKeeps(o[1..], k, e);
    }
  }

  // ------------------------------------------------------------ accessors

  /** optional(v): with v undefined a getter returning the flag, otherwise a
      setter storing the truthiness of v. */
  function OptionalCall(b: Base, v: Value): (r: (Base, Value))
    ensures v == Undefined ==> r == (b, Bool(b.optional))
    ensures v != Undefined ==> r.0.optional == Truthy(v) && r.0.special == b.special && r.1 == Undefined
  {
    if v == Undefined then (b, Bool(b.optional)) else (b.(optional := Truthy(v)), Undefined)
  }

  /** special(name, v): the name must be a string matching `[a-z0-9_-]+`; with
      v undefined a getter returning the value or null, otherwise a setter. */
  function SpecialCall(b: Base, name: Value, v: Value): (r: Result<(Base, Value), string>)
    ensures !name.Str? ==> r == Err("name must be a string")
    ensures name.Str? && !IsSpecialName(name.s) ==> r == Err("special name must match \"[a-z0-9_-]+\"")
    ensures r.Ok? <==> name.Str? && IsSpecialName(name.s)
    ensures r.Ok? && v == Undefined ==> r.value.0 == b && r.value.1 == (if HasKey(b.special, name.s) then Get(b.special, name.s) else Null)
    ensures r.Ok? && v != Undefined ==>
              (r.value.0.optional == b.optional && r.value.1 == Undefined
               && HasKey(r.value.0.special, name.s) && Get(r.value.0.special, name.s) == v)
    ensures r.Ok? && v != Undefined ==> forall n | n != name.s :: Get(r.value.0.special, n) == Get(b.special, n)
  {
    if !name.Str? then Err("name must be a string")
    else if !IsSpecialName(name.s) then Err("special name must match \"[a-z0-9_-]+\"")
    else if v == Undefined then Ok((b, if HasKey(b.special, name.s) then Get(b.special, name.s) else Null))
    else Ok((b.(special := Put(b.special, name.s, v)), Undefined))
  }

  // ------------------------------------------------------------ toObject

  /** The specials as definition keys: name n becomes `__n__`. */
  function SpecialEntries(special: seq<(string, Value)>): (r: seq<(string, Value)>)
    ensures |r| == |special|
    ensures forall i | 0 <= i < |r| :: r[i] == ("__" + special[i].0 + "__", special[i].1)
  {
    if special == [] then []
    else
      var e := special[|special| - 1];
      SpecialEntries(special[..|special| - 1]) + [("__" + e.0 + "__", e.1)]
  }

  /** Base.toObject: `__optional__: true` only when optional, then each special. */
  function BaseObject(b: Base): seq<(string, Value)>
  {
    Assign(if b.optional then [("__optional__", Bool(true))] else [], SpecialEntries(b.special))
  }

  /** No key appears twice, as in every JavaScript object. */
  predicate DistinctKeys(o: seq<(string, Value)>)
  {
    forall i, j | 0 <= i < j < |o| :: o[i].0 != o[j].0
  }

  /** The specials a Base can hold and write out so that reading them back
      gives them again: distinct names that neither clash with a reserved key
      nor with `__optional__`. */
  predicate SerialisableSpecials(special: seq<(string, Value)>)
  {
    DistinctKeys(special)
    && forall e | e in special :: IsSpecialName(e.0) && IsSpecialKey("__" + e.0 + "__") && "__" + e.0 + "__" != "__optional__"
  }

  lemma {:induction false} HasKeyIndex(o: seq<(string, Value)>, k: string)
    ensures HasKey(o, k) <==> exists i | 0 <= i < |o| :: o[i].0 == k
    decreases |o|
  {
    if o != [] {
      HasKeyIndex(o[1..], k);
      if HasKey(o[1..], k) {
        var i :| 0 <= i < |o[1..]| && o[1..][i].0 == k;
        assert o[i + 1].0 == k;
      }
      if exists i | 0 <= i < |o| :: o[i].0 == k {
        var i :| 0 <= i < |o| && o[i].0 == k;
        if i > 0 {
          assert o[1..][i - 1].0 == k;
        }
      }
    }
  }

  /** A Put of a key that is not there yet appends the entry. */
  lemma {:induction false} PutFresh(o: seq<(string, Value)>, k: string, v: Value)
    requires !HasKey(o, k)
    ensures Put(o, k, v) == o + [(k, v)]
    decreases |o|
  {
    if o != [] {
      PutFresh(o[1..], k, v);
      assert o == [o[0]] + o[1..];
    }
  }

  /** Assigning entries with fresh, distinct keys appends them. */
  lemma {:induction false} AssignFresh(dst: seq<(string, Value)>, src: seq<(string, Value)>)
    requires DistinctKeys(src)
    requires forall i | 0 <= i < |src| :: !HasKey(dst, src[i].0)
    ensures Assign(dst, src) == dst + src
    decreases |src|
  {
    if src != [] {
      var dst' := dst + [src[0]];
      assert dst' + src[1..] == dst + src;
      assert Assign(dst, src) == Assign(Put(dst, src[0].0, src[0].1), src[1..]);
      PutFresh(dst, src[0].0, src[0].1);
      FreshTail(dst, src);
      AssignFresh(dst', src[1..]);
    }
  }

  lemma FreshTail(dst: seq<(string, Value)>, src: seq<(string, Value)>)
    requires src != [] && DistinctKeys(src)
    requires forall i | 0 <= i < |src| :: !HasKey(dst, src[i].0)
    ensures DistinctKeys(src[1..])
    ensures forall i | 0 <= i < |src[1..]| :: !HasKey(dst + [src[0]], src[1..][i].0)
  {
    forall i | 0 <= i < |src[1..]| ensures !HasKey(dst + [src[0]], src[1..][i].0) {
      HasKeySnoc(dst, src[0], src[i + 1].0);
    }
  }

  /** The special loop gives back the specials it is handed as keys. */
  lemma {:induction false} SplitSpecialEntries(special: seq<(string, Value)>)
    requires SerialisableSpecials(special)
    ensures SplitSpecials(SpecialEntries(special)) == (special, [])
    decreases |special|
  {
    if special != [] {
      var init := special[..|special| - 1];
      var e := special[|special| - 1];
      assert special == init + [e];
      SerialisablePrefix(special);
      SplitSpecialEntries(init);
      HasKeyIndex(init, e.0);
      SplitSpecialEntriesStep(init, e);
    }
  }

  lemma SplitSpecialEntriesStep(init: seq<(string, Value)>, e: (string, Value))
    requires SplitSpecials(SpecialEntries(init)) == (init, [])
    requires IsSpecialName(e.0) && IsSpecialKey("__" + e.0 + "__") && !HasKey(init, e.0)
    ensures SplitSpecials(SpecialEntries(init + [e])) == (init + [e], [])
  {
    var k := "__" + e.0 + "__";
    assert (init + [e])[..|init|] == init;
    assert SpecialEntries(init + [e]) == SpecialEntries(init) + [(k, e.1)];
    SpecialKeyNameOf(e.0);
    SplitSpecialsSnoc(SpecialEntries(init), (k, e.1));
    PutFresh(init, e.0, e.1);
  }

  /** The specials without their last one are serialisable too, and the
      last one is special. */
  lemma SerialisablePrefix(special: seq<(string, Value)>)
    requires SerialisableSpecials(special) && special != []
    ensures SerialisableSpecials(special[..|special| - 1])
    ensures IsSpecialKey("__" + special[|special| - 1].0 + "__")
    ensures forall i | 0 <= i < |special| - 1 :: special[i].0 != special[|special| - 1].0
  {
    var init := special[..|special| - 1];
    forall e | e in init ensures e in special {
      var i :| 0 <= i < |init| && init[i] == e;
      assert special[i] == e;
    }
    assert special[|special| - 1] in special;
  }

  /** One more entry through the special loop. */
  lemma SplitSpecialsSnoc(d: seq<(string, Value)>, e: (string, Value))
    ensures SplitSpecials(d + [e])
            == if IsSpecialKey(e.0) then (Put(SplitSpecials(d).0, SpecialKeyName(e.0).value, e.1), SplitSpecials(d).1)
               else (SplitSpecials(d).0, SplitSpecials(d).1 + [e])
  {
    assert (d + [e])[..|d|] == d;
  }

  lemma {:induction false} NoSpecialKeyOptional(special: seq<(string, Value)>)
    requires SerialisableSpecials(special)
    ensures !HasKey(SpecialEntries(special), "__optional__")
  {
    var se := SpecialEntries(special);
    HasKeyIndex(se, "__optional__");
    forall i | 0 <= i < |se| ensures se[i].0 != "__optional__" {
      assert special[i] in special;
    }
  }

  lemma {:induction false} SpecialEntriesDistinct(special: seq<(string, Value)>)
    requires SerialisableSpecials(special)
    ensures DistinctKeys(SpecialEntries(special))
  {
    var se := SpecialEntries(special);
    forall i, j | 0 <= i < j < |se| ensures se[i].0 != se[j].0 {
      SpecialKeyInjective(special[i].0, special[j].0);
    }
  }

  /** Base.toObject followed by the Base constructor gives back the flag and
      the specials, and leaves no details over. */
  lemma BaseRoundTrip(b: Base)
    requires SerialisableSpecials(b.special)
    ensures MakeBase(Obj(BaseObject(b))) == Ok((b, []))
  {
    var se := SpecialEntries(b.special);
    var head: seq<(string, Value)> := if b.optional then [("__optional__", Bool(true))] else [];
    var o := head + se;
    assert b.optional ==> o[1..] == se;
    assert !b.optional ==> o == se;
    BaseObjectFresh(b);
    assert BaseObject(b) == o;
    NoSpecialKeyOptional(b.special);
    if b.optional {
      RemoveAbsent(se, "__optional__");
      assert ReadOptional(o) == Ok((true, se));
    }
    SplitSpecialEntries(b.special);
  }

  /** The optional flag and the specials have distinct keys, so Base.toObject
      lays them out one after the other. */
  lemma BaseObjectFresh(b: Base)
    requires SerialisableSpecials(b.special)
    ensures BaseObject(b) == (if b.optional then [("__optional__", Bool(true))] else []) + SpecialEntries(b.special)
  {
    var se := SpecialEntries(b.special);
    var head: seq<(string, Value)> := if b.optional then [("__optional__", Bool(true))] else [];
    SpecialEntriesDistinct(b.special);
    NoSpecialKeyOptional(b.special);
    forall i | 0 <= i < |se| ensures !HasKey(head, se[i].0) {
      HasKeyIn(se, se[i]);
    }
    AssignFresh(head, se);
  }

  lemma {:induction false} RemoveAbsent(o: seq<(string, Value)>, k: string)
    requires !HasKey(o, k)
    ensures Remove(o, k) == o
    decreases |o|
  {
    if o != [] {
      RemoveAbsent(o[1..], k);
      assert o == [o[0]] + o[1..];
    }
  }

  /** Setting a special and reading it back gives the value set. */
  lemma SpecialSetGet(b: Base, name: string, v: Value)
    requires IsSpecialName(name) && v != Undefined
    ensures SpecialCall(b, Str(name), v).Ok?
    ensures var b' := SpecialCall(b, Str(name), v).value.0;
            SpecialCall(b', Str(name), Undefined) == Ok((b', v))
  {
  }
}

=== FILE: build.dfy ===
/** Base.create (src/Base.js) and the constructors of the container nodes:
    Options (src/Options.ts), ArrayNode (src/ArrayNode.js), Hash (src/Hash.ts),
    Parent (src/Parent.js) and Tree (src/Tree.js). A definition is a Value;
    building it gives a Node or the message of the Error the constructors throw. */
module Build {
  import opened Wrappers
  import Numbers
  import opened Patterns
  import opened Helpers
  import opened Values
  import opened Schema
  import opened BaseNodes
  import opened Terminals

  /** Base.create: a list is an Options; an object with `__array__` an
      ArrayNode, else with `__hash__` a Hash, else with `__type__` either the
      node of the object or list under `__type__` or a Node, else a Parent; a
      string is a Node; anything else is refused. */
  function Create(host: Host, details: Value): (r: Result<Node, string>)
    ensures details.Arr? && r.Ok? ==> r.value.Options?
    ensures details.Obj? && HasKey(details.entries, "__array__") && r.Ok? ==> r.value.ArrayNode?
    ensures (details.Obj? && !HasKey(details.entries, "__array__") && HasKey(details.entries, "__hash__") && r.Ok?
             ==> r.value.Hash?)
    ensures ((details.Obj? && !HasKey(details.entries, "__array__") && !HasKey(details.entries, "__hash__")
              && !HasKey(details.entries, "__type__") && r.Ok?) ==> r.value.Parent?)
    ensures details.Str? && r.Ok? ==> r.value.Terminal?
    ensures !details.Arr? && !details.Obj? && !details.Str? ==> r == Err("details invalid")
    decreases Size(details), 2, 0
  {
    match details
    case Arr(_) => BuildOptions(host, details)
    case Obj(o) =>
      if HasKey(o, "__array__") then BuildArray(host, o)
      else if HasKey(o, "__hash__") then BuildHash(host, o)
      else if HasKey(o, "__type__") then
        var t := Get(o, "__type__");
        if t.Obj? || t.Arr? then
          GetShrinks(o, "__type__");
          Create(host, t)
        else BuildTerminal(host, details)
      else BuildParent(host, o)
    case Str(_) => BuildTerminal(host, details)
    case _ => Err("details invalid")
  }

  // ---------------------------------------------------------------- Options

  /** new Options(details): a node per entry, in order, under a base with no
      specials whose optional flag is lowered by any variant that is not optional. */
  function BuildOptions(host: Host, details: Value): (r: Result<Node, string>)
    ensures !details.Arr? ==> r == Err("details must be an Array")
    ensures r.Ok? ==> r.value.Options? && |r.value.variants| == |details.items|
    ensures r.Ok? ==> r.value.base == Base(AllOptional(r.value.variants), [])
    decreases Size(details), 1, 0
  {
    if !details.Arr? then Err("details must be an Array")
    else
      var items := details.items;
      assert forall i | 0 <= i < |items| :: Size(items[i]) < Size(details) by {
        forall i | 0 <= i < |items| ensures Size(items[i]) < Size(details) {
          ItemShrinks(items, i);
        }
      }
      var variants :- CreateAll(host, items, Size(details));
      Ok(Options(Base(AllOptional(variants), []), variants))
  }

  /** The optional flag of a union: every variant is optional. */
  predicate AllOptional(variants: seq<Node>)
  {
    forall i | 0 <= i < |variants| :: variants[i].base.optional
  }

  lemma AllOptionalSnoc(variants: seq<Node>, v: Node)
    ensures AllOptional(variants + [v]) == (AllOptional(variants) && v.base.optional)
  {
    if AllOptional(variants) && v.base.optional {
      forall i | 0 <= i < |variants| + 1 ensures (variants + [v])[i].base.optional {
        if i < |variants| {
          assert (variants + [v])[i] == variants[i];
        }
      }
    }
    if AllOptional(variants + [v]) {
      assert (variants + [v])[|variants|] == v;
      forall i | 0 <= i < |variants| ensures variants[i].base.optional {
        assert (variants + [v])[i] == variants[i];
      }
    }
  }

  /** Base.create of each definition in order; the first that throws stops the loop. */
  function CreateAll(host: Host, items: seq<Value>, ghost bound: nat): (r: Result<seq<Node>, string>)
    requires forall i | 0 <= i < |items| :: Size(items[i]) < bound
    ensures r.Ok? ==> |r.value| == |items|
    decreases bound, 0, |items|
  {
    if items == [] then Ok([])
    else
      var init :- CreateAll(host, items[..|items| - 1], bound);
      var last :- Create(host, items[|items| - 1]);
      Ok(init + [last])
  }

  // -------------------------------------------------------------- ArrayNode

  /** The value of `__array__` as an object: anything else is the type. */
  function ArraySpec(a: Value): (r: seq<(string, Value)>)
    ensures !a.Obj? ==> HasKey(r, "type") && Get(r, "type") == a
  {
    if a.Obj? then a.entries else [("type", a)]
  }

  /** `'k' in a && a.k || null`: a bound the constructor hands to minmax. */
  function GivenBound(spec: seq<(string, Value)>, k: string): (r: Value)
    ensures r == Null || Truthy(r)
  {
    if HasKey(spec, k) && Truthy(Get(spec, k)) then Get(spec, k) else Null
  }

  /** new ArrayNode(details): the base keys; the type, which must be 'unique'
      or 'duplicates'; the bounds, when `__array__` names one; then the node
      of what is left once `__array__` is gone. The base keys do not look at
      `__array__`, so they are read from the details without it. */
  function BuildArray(host: Host, o: seq<(string, Value)>): (r: Result<Node, string>)
    requires HasKey(o, "__array__")
    ensures r.Ok? ==> r.value.ArrayNode?
    ensures r.Ok? ==> (r.value.unique <==> Get(ArraySpec(Get(o, "__array__")), "type") == Str("unique"))
    ensures (MakeBase(Obj(Remove(o, "__array__"))).Ok?
             && Get(ArraySpec(Get(o, "__array__")), "type") !in [Str("unique"), Str("duplicates")]
             ==> r == Err("\"" + ToJsString(Get(ArraySpec(Get(o, "__array__")), "type")) + "\" is not a valid type for __array__"))
    decreases Size(Obj(o)), 1, 0
  {
    var spec := ArraySpec(Get(o, "__array__"));
    var made :- MakeBase(Obj(Remove(o, "__array__")));
    var t := Get(spec, "type");
    if t != Str("unique") && t != Str("duplicates") then
      Err("\"" + ToJsString(t) + "\" is not a valid type for __array__")
    else
      var bounds :- if HasKey(spec, "minimum") || HasKey(spec, "maximum")
                    then ArrayMinMax((None, None), GivenBound(spec, "minimum"), GivenBound(spec, "maximum"))
                    else Ok((None, None));
      MakeBaseSize(Obj(Remove(o, "__array__")));
      var child :- Create(host, Obj(made.1));
      Ok(ArrayNode(made.0, t == Str("unique"), bounds.0, bounds.1, child))
  }

  /** The integer an array bound stands for: a string must be integer text,
      read by strToInt; anything else must be an integer; and none may be negative. */
  function ArrayBound(which: string, v: Value): (r: Result<int, string>)
    ensures r.Ok? ==> r.value >= 0
    ensures v.Str? && IsIntText(v.s) ==> r.Ok? || r == Err("\"" + which + "\" of array must be an unsigned integer")
    ensures v.Str? && IsIntText(v.s) && r.Ok? ==> Some(r.value) == StrToInt(v.s)
    ensures (v.Str? && !IsIntText(v.s)) || (!v.Str? && !IsInteger(v)) ==> r == Err("\"" + which + "\" of array must be an integer")
    ensures IsInteger(v) && r.Ok? ==> Numbers.Eq(Numbers.Int(r.value), v.n)
  {
    var i :- if v.Str? then
               if IsIntText(v.s) then (IntTextHasValue(v.s); Ok(StrToInt(v.s).value))
               else Err("\"" + which + "\" of array must be an integer")
             else if IsInteger(v) then Ok(WholeOf(v.n))
             else Err("\"" + which + "\" of array must be an integer");
    if i < 0 then Err("\"" + which + "\" of array must be an unsigned integer") else Ok(i)
  }

  /** The integer an integral number is. */
  function WholeOf(n: Numbers.Number): (r: int)
    requires Numbers.IsIntegral(n)
    ensures Numbers.Eq(Numbers.Int(r), n)
  {
    var p := Numbers.Pow10(n.exp);
    var q := n.mant / p;
    assert n.mant == q * p;
    q
  }

  /** ArrayNode.minmax: with both undefined, the bounds as they are;
      otherwise each bound that is not null is read by ArrayBound, and a
      maximum below a minimum that is set and not zero is refused. */
  function ArrayMinMax(current: (Option<int>, Option<int>), minimum: Value, maximum: Value)
    : (r: Result<(Option<int>, Option<int>), string>)
    ensures minimum == Undefined && maximum == Undefined ==> r == Ok(current)
    ensures minimum == Undefined && maximum != Undefined
            ==> r == Err("\"minimum\" can only be undefined if \"maximum\" is also undefined")
    ensures minimum == Null && r.Ok? ==> r.value.0 == current.0
    ensures maximum == Null && r.Ok? ==> r.value.1 == current.1
    ensures (minimum != Null && minimum != Undefined && r.Ok?
             ==> ArrayBound("minimum", minimum).Ok? && r.value.0 == Some(ArrayBound("minimum", minimum).value))
    ensures (maximum != Null && maximum != Undefined && minimum != Undefined && r.Ok?
             ==> ArrayBound("maximum", maximum).Ok? && r.value.1 == Some(ArrayBound("maximum", maximum).value))
    ensures ((r.Ok? && r.value.0.Some? && r.value.0.value != 0 && r.value.1.Some? && maximum != Null
              && maximum != Undefined) ==> r.value.0.value <= r.value.1.value)
  {
    if minimum == Undefined && maximum == Undefined then Ok(current)
    else
      var low :- if minimum == Null then Ok(current.0)
                 else if minimum == Undefined then Err("\"minimum\" can only be undefined if \"maximum\" is also undefined")
                 else (var m :- ArrayBound("minimum", minimum); Ok(Some(m)));
      if maximum == Null then Ok((low, current.1))
      else if maximum == Undefined then Err("\"maximum\" can only be undefined if \"minimum\" is also undefined")
      else
        var m :- ArrayBound("maximum", maximum);
        if low.Some? && low.value != 0 && m < low.value then Err("\"maximum\" of array must not be less than \"minimum\"")
        else Ok((low, Some(m)))
  }

  // ------------------------------------------------------------------- Hash

  /** The key definition of a Hash: `true` stands for a plain string key. */
  function KeyDetails(h: Value): (r: Value)
    ensures h == Bool(true) ==> r == Obj([("__type__", Str("string"))])
    ensures h != Bool(true) ==> r == h
  {
    if h == Bool(true) then Obj([("__type__", Str("string"))]) else h
  }

  /** new Hash(details): the base keys, the key Node of `__hash__`, then the
      node of what is left once `__hash__` is gone. */
  function BuildHash(host: Host, o: seq<(string, Value)>): (r: Result<Node, string>)
    requires HasKey(o, "__hash__")
    ensures r.Ok? ==> r.value.Hash? && BuildTerminal(host, KeyDetails(Get(o, "__hash__"))) == Ok(r.value.key)
    ensures r.Ok? ==> MakeBase(Obj(Remove(o, "__hash__"))).Ok? && r.value.base == MakeBase(Obj(Remove(o, "__hash__"))).value.0
    decreases Size(Obj(o)), 1, 0
  {
    var made :- MakeBase(Obj(Remove(o, "__hash__")));
    var key :- BuildTerminal(host, KeyDetails(Get(o, "__hash__")));
    MakeBaseSize(Obj(Remove(o, "__hash__")));
    var child :- Create(host, Obj(made.1));
    Ok(Hash(made.0, key, child))
  }

  // ----------------------------------------------------------------- Parent

  /** new Parent(details): the base keys, a field for every remaining key
      that is a standard name, in order, then the `__require__` rules. */
  function BuildParent(host: Host, o: seq<(string, Value)>): (r: Result<Node, string>)
    ensures r.Ok? ==> r.value.Parent? && MakeBase(Obj(o)).Ok? && r.value.base == MakeBase(Obj(o)).value.0
    ensures r.Ok? ==> forall i | 0 <= i < |r.value.fields| :: IsStandard(r.value.fields[i].0)
    ensures (r.Ok? ==> forall i | 0 <= i < |r.value.rules| ::
               HasField(r.value.fields, r.value.rules[i].0)
               && forall j | 0 <= j < |r.value.rules[i].1| :: HasField(r.value.fields, r.value.rules[i].1[j]))
    decreases Size(Obj(o)), 1, 0
  {
    var made :- MakeBase(Obj(o));
    var rest := made.1;
    MakeBaseSize(Obj(o));
    assert forall i | 0 <= i < |rest| :: Size(rest[i].1) < Size(Obj(o)) by {
      forall i | 0 <= i < |rest| ensures Size(rest[i].1) < Size(Obj(o)) {
        EntryShrinks(rest, i);
      }
    }
    var fields :- CreateFields(host, rest, Size(Obj(o)));
    var rules :- if HasKey(o, "__require__") then ReadRequires(fields, Get(o, "__require__")) else Ok([]);
    Ok(Parent(made.0, fields, rules))
  }

  /** The constructor's loop over the keys: a node for each standard name. */
  function CreateFields(host: Host, entries: seq<(string, Value)>, ghost bound: nat): (r: Result<seq<(string, Node)>, string>)
    requires forall i | 0 <= i < |entries| :: Size(entries[i].1) < bound
    ensures r.Ok? ==> forall i | 0 <= i < |r.value| :: IsStandard(r.value[i].0)
    decreases bound, 0, |entries|
  {
    if entries == [] then Ok([])
    else
      var init :- CreateFields(host, entries[..|entries| - 1], bound);
      var e := entries[|entries| - 1];
      if IsStandard(e.0) then
        var child :- Create(host, e.1);
        Ok(init + [(e.0, child)])
      else Ok(init)
  }

  /** `key in this._nodes` */
  predicate HasField(fields: seq<(string, Node)>, key: string)
  {
    exists i | 0 <= i < |fields| :: fields[i].0 == key
  }

  /** Parent.requires(require): an object whose every key is a field and
      whose every value is a field name or a list of field names. */
  function ReadRequires(fields: seq<(string, Node)>, req: Value): (r: Result<seq<(string, seq<string>)>, string>)
    ensures req == Undefined ==> r == Ok([])
    ensures !req.Obj? && req != Undefined ==> r == Err("__require__ must be a valid Object")
    ensures (r.Ok? ==> forall i | 0 <= i < |r.value| ::
               HasField(fields, r.value[i].0) && forall j | 0 <= j < |r.value[i].1| :: HasField(fields, r.value[i].1[j]))
    ensures req.Obj? && r.Ok? ==> |r.value| == |req.entries|
  {
    if req == Undefined then Ok([])
    else if !req.Obj? then Err("__require__ must be a valid Object")
    else RequireEntries(fields, req.entries)
  }

  /** The loop of requires over the keys of its argument. */
  function RequireEntries(fields: seq<(string, Node)>, req: seq<(string, Value)>): (r: Result<seq<(string, seq<string>)>, string>)
    ensures (r.Ok? ==> forall i | 0 <= i < |r.value| ::
               HasField(fields, r.value[i].0) && forall j | 0 <= j < |r.value[i].1| :: HasField(fields, r.value[i].1[j]))
    ensures r.Ok? ==> |r.value| == |req| && forall i | 0 <= i < |req| :: r.value[i].0 == req[i].0
    ensures r.Ok? ==> forall i | 0 <= i < |req| :: req[i].1.Str? ==> r.value[i].1 == [req[i].1.s]
    ensures r.Ok? ==> forall i | 0 <= i < |req| :: req[i].1.Str? || req[i].1.Arr?
  {
    if req == [] then Ok([])
    else
      var init :- RequireEntries(fields, req[..|req| - 1]);
      var k := req[|req| - 1].0;
      var names :- RequireNames(fields, k, req[|req| - 1].1);
      Ok(init + [(k, names)])
  }

  /** One turn of requires' loop: the key must be a field, and its value a
      field name or a list of field names; these are the names it requires. */
  function RequireNames(fields: seq<(string, Node)>, k: string, v: Value): (r: Result<seq<string>, string>)
    ensures r.Ok? ==> HasField(fields, k) && (v.Str? || v.Arr?)
    ensures r.Ok? ==> forall j | 0 <= j < |r.value| :: HasField(fields, r.value[j])
    ensures r.Ok? && v.Str? ==> r.value == [v.s]
    ensures r.Ok? && v.Arr? ==> |r.value| == |v.items| && forall j | 0 <= j < |v.items| :: r.value[j] == ToJsString(v.items[j])
  {
    if !HasField(fields, k) then Err("__require__[" + k + "] does not exist in the Parent")
    else if v.Str? then
      if HasField(fields, v.s) then Ok([v.s]) else Err("__require__[" + k + "]:" + v.s)
    else if v.Arr? then
      var names := seq(|v.items|, j requires 0 <= j < |v.items| => ToJsString(v.items[j]));
      var missing := FirstUnknown(fields, names);
      if missing < |names| then Err(UnknownRequire(k, v.items, missing))
      else Ok(names)
    else Err("__require__[" + k + "] must be a single string or an Array")
  }

  /** The index of the first name that is not a field, or |names|. */
  function FirstUnknown(fields: seq<(string, Node)>, names: seq<string>): (k: nat)
    ensures k <= |names|
    ensures k < |names| ==> !HasField(fields, names[k])
    ensures forall j | 0 <= j < k :: HasField(fields, names[j])
  {
    if names == [] then 0
    else if !HasField(fields, names[0]) then 0
    else 1 + FirstUnknown(fields, names[1..])
  }

  /** The message for a list entry that names no field: the entry itself. */
  function UnknownRequire(k: string, items: seq<Value>, j: nat): string
    requires j < |items|
  {
    "__require__[" + k + "]:" + ToJsString(items[j])
  }

  // ------------------------------------------------------------------- Tree

  /** new Tree(details): `__name__` must be there and a standard name; any
      `__array__` is dropped; the rest is a Parent. */
  function BuildTree(host: Host, details: Value): (r: Result<Tree, string>)
    ensures !details.Obj? ==> r == Err("details must be an Object")
    ensures details.Obj? && !HasKey(details.entries, "__name__") ==> r == Err("\"__name__\" not found in details")
    ensures (details.Obj? && HasKey(details.entries, "__name__") && !IsStandard(ToJsString(Get(details.entries, "__name__")))
             ==> r == Err("\"__name__\" not a valid value for Tree"))
    ensures r.Ok? ==> r.value.name == Get(details.entries, "__name__") && IsStandard(ToJsString(r.value.name))
    ensures r.Ok? ==> BuildParent(host, Remove(details.entries, "__array__")) == Ok(r.value.root)
  {
    if !details.Obj? then Err("details must be an Object")
    else if !HasKey(details.entries, "__name__") then Err("\"__name__\" not found in details")
    else
      var name := Get(details.entries, "__name__");
      if !IsStandard(ToJsString(name)) then Err("\"__name__\" not a valid value for Tree")
      else
        var root :- BuildParent(host, Remove(details.entries, "__array__"));
        Ok(Tree(name, root))
  }

  // ------------------------------------------------- loops that throw

  /** Once Base.create has thrown on an element, the whole list throws that. */
  lemma {:induction false} CreateAllStops(host: Host, items: seq<Value>, bound: nat, j: nat)
    requires forall i | 0 <= i < |items| :: Size(items[i]) < bound
    requires j <= |items| && CreateAll(host, items[..j], bound).Err?
    ensures CreateAll(host, items, bound) == CreateAll(host, items[..j], bound)
    decreases |items|
  {
    if j < |items| {
      var init := items[..|items| - 1];
      assert init[..j] == items[..j];
      CreateAllStops(host, init, bound, j);
    } else {
      assert items[..j] == items;
    }
  }

  /** Once a field's Base.create has thrown, the whole constructor throws that. */
  lemma {:induction false} CreateFieldsStops(host: Host, entries: seq<(string, Value)>, bound: nat, j: nat)
    requires forall i | 0 <= i < |entries| :: Size(entries[i].1) < bound
    requires j <= |entries| && CreateFields(host, entries[..j], bound).Err?
    ensures CreateFields(host, entries, bound) == CreateFields(host, entries[..j], bound)
    decreases |entries|
  {
    if j < |entries| {
      var init := entries[..|entries| - 1];
      assert init[..j] == entries[..j];
      CreateFieldsStops(host, init, bound, j);
    } else {
      assert entries[..j] == entries;
    }
  }

  /** Once requires has thrown on a key, the whole call throws that. */
  lemma {:induction false} RequireEntriesStops(fields: seq<(string, Node)>, req: seq<(string, Value)>, j: nat)
    requires j <= |req| && RequireEntries(fields, req[..j]).Err?
    ensures RequireEntries(fields, req) == RequireEntries(fields, req[..j])
    decreases |req|
  {
    if j < |req| {
      var init := req[..|req| - 1];
      assert init[..j] == req[..j];
      RequireEntriesStops(fields, init, j);
    } else {
      assert req[..j] == req;
    }
  }

  /** One more element of the Options loop. */
  lemma CreateAllSnoc(host: Host, items: seq<Value>, bound: nat, i: nat)
    requires forall j | 0 <= j < |items| :: Size(items[j]) < bound
    requires i < |items|
    ensures CreateAll(host, items[..i + 1], bound)
            == if CreateAll(host, items[..i], bound).Err? then CreateAll(host, items[..i], bound)
               else if Create(host, items[i]).Err? then Err(Create(host, items[i]).error)
               else Ok(CreateAll(host, items[..i], bound).value + [Create(host, items[i]).value])
  {
    assert items[..i + 1][..i] == items[..i];
  }

  /** One more key of the Parent constructor's loop. */
  lemma CreateFieldsSnoc(host: Host, entries: seq<(string, Value)>, bound: nat, i: nat)
    requires forall j | 0 <= j < |entries| :: Size(entries[j].1) < bound
    requires i < |entries|
    ensures CreateFields(host, entries[..i + 1], bound)
            == if CreateFields(host, entries[..i], bound).Err? then CreateFields(host, entries[..i], bound)
               else if !IsStandard(entries[i].0) then CreateFields(host, entries[..i], bound)
               else if Create(host, entries[i].1).Err? then Err(Create(host, entries[i].1).error)
               else Ok(CreateFields(host, entries[..i], bound).value + [(entries[i].0, Create(host, entries[i].1).value)])
  {
    assert entries[..i + 1][..i] == entries[..i];
  }

  /** One more key of requires' loop. */
  lemma RequireEntriesSnoc(fields: seq<(string, Node)>, req: seq<(string, Value)>, i: nat)
    requires i < |req|
    ensures RequireEntries(fields, req[..i + 1])
            == if RequireEntries(fields, req[..i]).Err? then RequireEntries(fields, req[..i])
               else if RequireNames(fields, req[i].0, req[i].1).Err? then Err(RequireNames(fields, req[i].0, req[i].1).error)
               else Ok(RequireEntries(fields, req[..i]).value + [(req[i].0, RequireNames(fields, req[i].0, req[i].1).value)])
  {
    assert req[..i + 1][..i] == req[..i];
  }

  // -------------------------------------------------------------- accessors

  /** Options.length */
  function OptionsLength(n: Node): (r: nat)
    requires n.Options?
    ensures r == |n.variants|
  {
    |n.variants|
  }

  /** Options.get(index, def): the variant at index, else the default, else an Error. */
  function OptionsGet(n: Node, index: int, def: Option<Node>): (r: Result<Node, string>)
    requires n.Options?
    ensures 0 <= index < |n.variants| ==> r == Ok(n.variants[index])
    ensures !(0 <= index < |n.variants|) && def.Some? ==> r == Ok(def.value)
    ensures (!(0 <= index < |n.variants|) && def.None?
             ==> r == Err("No such node in the Options: " + ToJsString(Num(Numbers.Int(index)))))
  {
    if 0 <= index < |n.variants| then Ok(n.variants[index])
    else if def.Some? then Ok(def.value)
    else Err("No such node in the Options: " + ToJsString(Num(Numbers.Int(index))))
  }

  /** Parent.contains(key) */
  predicate Contains(n: Node, key: string)
    requires n.Parent?
  {
    KeyIndex(n.fields, key) < |n.fields|
  }

  /** Parent.get(key, def): the field's node, else the default, else an Error. */
  function ParentGet(n: Node, key: string, def: Option<Node>): (r: Result<Node, string>)
    requires n.Parent?
    ensures Contains(n, key) <==> HasField(n.fields, key)
    ensures HasField(n.fields, key) ==> r.Ok? && (exists i | 0 <= i < |n.fields| :: n.fields[i] == (key, r.value))
    ensures !HasField(n.fields, key) && def.Some? ==> r == Ok(def.value)
    ensures !HasField(n.fields, key) && def.None? ==> r == Err("No such node in the Parent \"" + key + "\"")
  {
    var k := KeyIndex(n.fields, key);
    if k < |n.fields| then Ok(n.fields[k].1)
    else if def.Some? then Ok(def.value)
    else Err("No such node in the Parent \"" + key + "\"")
  }

  /** Parent.keys() */
  function Keys(n: Node): (r: seq<string>)
    requires n.Parent?
    ensures |r| == |n.fields| && forall i | 0 <= i < |r| :: r[i] == n.fields[i].0
  {
    seq(|n.fields|, i requires 0 <= i < |n.fields| => n.fields[i].0)
  }
}

=== FILE: build_props.dfy ===
/** What the constructors promise across calls: the string shorthand of a
    Node, the plain key `__hash__: true` stands for, the fields a Parent makes
    of its keys, and what toObject writes that the constructors read back. */
module BuildProperties {
  import opened Wrappers
  import Numbers
  import opened Patterns
  import opened Strings
  import opened Values
  import opened Schema
  import opened BaseNodes
  import opened Terminals
  import opened Validation
  import opened Build
  import opened Serialise

  // ------------------------------------------------------------ type names

  /** Every type reads back from its own name. */
  lemma TagOfName(t: TypeTag)
    ensures TagOf(Str(TagName(t))) == Some(t)
  {
  }

  // ------------------------------------------------------- string shorthand

  /** A definition with a type and nothing else. */
  function TypeOnly(s: string): seq<(string, Value)>
  {
    [("__type__", Str(s))]
  }

  /** The Base constructor on a lone `__type__`: not optional, no specials,
      the type left for the node. */
  lemma TypeOnlyBase(s: string)
    ensures MakeBase(Obj(TypeOnly(s))) == Ok((Base(false, []), TypeOnly(s)))
  {
    var d := TypeOnly(s);
    assert !HasKey(d, "__optional__");
    assert NameIndex(Reserved, "__type__") < |Reserved|;
    assert !IsSpecialKey("__type__");
    assert SplitSpecials(d) == ([], d) by {
      SplitSpecialsSnoc([], d[0]);
      assert [] + [d[0]] == d;
    }
  }

  /** new Node('t') is new Node({__type__: 't'}): the name of a type gives
      that type with no base keys and no constraint, and any other text is
      refused as an invalid type. */
  lemma StringShorthand(host: Host, s: string)
    ensures BuildTerminal(host, Str(s)) == BuildTerminal(host, Obj(TypeOnly(s)))
    ensures s in TypeNames ==> BuildTerminal(host, Str(s)) == Ok(Terminal(Base(false, []), TagOf(Str(s)).value, None, None, Null, Null))
    ensures s !in TypeNames ==> BuildTerminal(host, Str(s)) == Err("invalid \"__type__\" in details")
  {
    var d := TypeOnly(s);
    assert HasKey(d, "__type__") && Get(d, "__type__") == Str(s);
    if s in TypeNames {
      TypeOnlyBase(s);
      assert !HasKey(d, "__regex__") && !HasKey(d, "__options__") && !HasKey(d, "__minimum__") && !HasKey(d, "__maximum__");
    }
  }

  /** `__hash__: true` makes the key a plain string node, which accepts
      every key. */
  lemma HashTrueKey(host: Host)
    ensures BuildTerminal(host, KeyDetails(Bool(true))) == Ok(PlainKey)
  {
    assert TagOf(Str("string")) == Some(StringType);
    StringShorthand(host, "string");
  }

  /** The node `__hash__: true` stands for. */
  const PlainKey := Terminal(Base(false, []), StringType, None, None, Null, Null)

  /** The plain string key accepts every key. */
  lemma PlainKeyAcceptsAll(host: Host, k: string)
    ensures Valid(host, PlainKey, Str(k), []) == Pass()
  {
    assert StringStep(host, PlainKey, Str(k)) == Next(Str(k));
    assert TailStep(PlainKey, Str(k)) == Accept;
  }

  // ----------------------------------------------------------------- Parent

  /** The entries whose key is a standard name, in order: the keys the
      Parent constructor makes fields of. */
  function StandardEntries(entries: seq<(string, Value)>): (r: seq<(string, Value)>)
    ensures forall i | 0 <= i < |r| :: IsStandard(r[i].0) && r[i] in entries
  {
    if entries == [] then []
    else
      var init := entries[..|entries| - 1];
      var e := entries[|entries| - 1];
      var r := StandardEntries(init) + (if IsStandard(e.0) then [e] else []);
      assert forall i | 0 <= i < |r| :: r[i] in entries by {
        forall i | 0 <= i < |r| ensures r[i] in entries {
          if i < |StandardEntries(init)| {
            var x := StandardEntries(init)[i];
            var j :| 0 <= j < |init| && init[j] == x;
            assert entries[j] == x;
          }
        }
      }
      r
  }

  /** Base.create succeeds on the value of every entry. */
  predicate AllCreated(host: Host, es: seq<(string, Value)>)
  {
    forall i | 0 <= i < |es| :: Create(host, es[i].1).Ok?
  }

  /** Each field is the entry at the same place, with the node of its value. */
  predicate FieldsOf(host: Host, fields: seq<(string, Node)>, es: seq<(string, Value)>)
  {
    |fields| == |es| && forall i | 0 <= i < |es| :: fields[i].0 == es[i].0 && Create(host, es[i].1) == Ok(fields[i].1)
  }

  lemma AllCreatedSnoc(host: Host, es: seq<(string, Value)>, e: (string, Value))
    ensures AllCreated(host, es + [e]) <==> AllCreated(host, es) && Create(host, e.1).Ok?
  {
    assert (es + [e])[|es|] == e;
    assert forall i | 0 <= i < |es| :: (es + [e])[i] == es[i];
  }

  lemma FieldsOfSnoc(host: Host, fields: seq<(string, Node)>, es: seq<(string, Value)>, e: (string, Value), c: Node)
    requires FieldsOf(host, fields, es) && Create(host, e.1) == Ok(c)
    ensures FieldsOf(host, fields + [(e.0, c)], es + [e])
  {
    assert forall i | 0 <= i < |es| :: (es + [e])[i] == es[i] && (fields + [(e.0, c)])[i] == fields[i];
  }

  /** The field loop succeeds exactly when Base.create succeeds on the value
      of every standard key; then its fields are those keys, in order, each
      with the node of its value. */
  lemma {:induction false} FieldsOfStandardEntries(host: Host, entries: seq<(string, Value)>, bound: nat)
    requires forall i | 0 <= i < |entries| :: Size(entries[i].1) < bound
    ensures CreateFields(host, entries, bound).Ok? <==> AllCreated(host, StandardEntries(entries))
    ensures CreateFields(host, entries, bound).Ok? ==> FieldsOf(host, CreateFields(host, entries, bound).value, StandardEntries(entries))
    decreases |entries|
  {
    if entries != [] {
      var init := entries[..|entries| - 1];
      var e := entries[|entries| - 1];
      FieldsOfStandardEntries(host, init, bound);
      var si := StandardEntries(init);
      if IsStandard(e.0) {
        assert StandardEntries(entries) == si + [e];
        AllCreatedSnoc(host, si, e);
        var r := CreateFields(host, init, bound);
        if r.Ok? && Create(host, e.1).Ok? {
          FieldsOfSnoc(host, r.value, si, e, Create(host, e.1).value);
        }
      } else {
        assert StandardEntries(entries) == si;
      }
    }
  }

  /** The fields of a Parent are the standard keys the Base constructor
      leaves, in order, each with the node Base.create makes of its value. */
  lemma ParentFields(host: Host, o: seq<(string, Value)>)
    requires BuildParent(host, o).Ok?
    ensures var se := StandardEntries(MakeBase(Obj(o)).value.1);
            var p := BuildParent(host, o).value;
            |p.fields| == |se|
            && forall i | 0 <= i < |se| :: Create(host, se[i].1).Ok? && p.fields[i] == (se[i].0, Create(host, se[i].1).value)
  {
    var rest := MakeBase(Obj(o)).value.1;
    MakeBaseSize(Obj(o));
    assert forall i | 0 <= i < |rest| :: Size(rest[i].1) < Size(Obj(o)) by {
      forall i | 0 <= i < |rest| ensures Size(rest[i].1) < Size(Obj(o)) {
        EntryShrinks(rest, i);
      }
    }
    FieldsOfStandardEntries(host, rest, Size(Obj(o)));
    var se := StandardEntries(rest);
    assert AllCreated(host, se) && FieldsOf(host, BuildParent(host, o).value.fields, se);
  }

  // ---------------------------------------------------------- ArrayNode bounds

  /** The bounds an ArrayNode writes out and reads back: one that is not
      set, or zero, comes back as not set. */
  function WrittenBound(b: Option<int>): (r: Option<int>)
    ensures r.Some? <==> IsSet(b)
  {
    if IsSet(b) then b else None
  }

  /** What the ArrayNode constructor reads from `__array__`: the type, and
      the bounds when the object names one. */
  function ReadArraySpec(a: Value): (r: (Value, Result<(Option<int>, Option<int>), string>))
  {
    var spec := ArraySpec(a);
    (Get(spec, "type"),
     if HasKey(spec, "minimum") || HasKey(spec, "maximum")
     then ArrayMinMax((None, None), GivenBound(spec, "minimum"), GivenBound(spec, "maximum"))
     else Ok((None, None)))
  }

  /** A whole number written as a bound reads back as itself. */
  lemma BoundOfInt(which: string, k: int)
    requires k >= 0
    ensures ArrayBound(which, Num(Numbers.Int(k))) == Ok(k)
  {
    assert Numbers.Pow10(0) == 1;
    assert WholeOf(Numbers.Int(k)) == k;
  }

  /** The `__array__` value of ArrayNode.toObject reads back as the node's
      type and its set bounds, when the bounds are ones the constructor can
      have made: not negative, and a set maximum not below a set minimum. */
  lemma ArrayValueRoundTrip(n: Node)
    requires n.ArrayNode?
    requires n.minLength.Some? ==> n.minLength.value >= 0
    requires n.maxLength.Some? ==> n.maxLength.value >= 0
    requires IsSet(n.minLength) && IsSet(n.maxLength) ==> n.minLength.value <= n.maxLength.value
    ensures ReadArraySpec(ArrayValue(n)).0 == Str(if n.unique then "unique" else "duplicates")
    ensures ReadArraySpec(ArrayValue(n)).1 == Ok((WrittenBound(n.minLength), WrittenBound(n.maxLength)))
  {
    var t := Str(if n.unique then "unique" else "duplicates");
    var lo, hi := n.minLength, n.maxLength;
    if IsSet(lo) && IsSet(hi) {
      assert ArrayValue(n) == Obj([("type", t), ("minimum", Num(Numbers.Int(lo.value))), ("maximum", Num(Numbers.Int(hi.value)))]);
      ReadBoth(t, lo.value, hi.value);
    } else if IsSet(lo) {
      assert ArrayValue(n) == Obj([("type", t), ("minimum", Num(Numbers.Int(lo.value)))]);
      ReadOne(t, "minimum", lo.value);
    } else if IsSet(hi) {
      assert ArrayValue(n) == Obj([("type", t), ("maximum", Num(Numbers.Int(hi.value)))]);
      ReadOne(t, "maximum", hi.value);
    }
  }

  /** An `__array__` object with both bounds reads back as them. */
  lemma ReadBoth(t: Value, lo: nat, hi: nat)
    requires 0 < lo <= hi
    ensures ReadArraySpec(Obj([("type", t), ("minimum", Num(Numbers.Int(lo))), ("maximum", Num(Numbers.Int(hi)))]))
            == (t, Ok((Some(lo), Some(hi))))
  {
    var m := ("minimum", Num(Numbers.Int(lo)));
    var x := ("maximum", Num(Numbers.Int(hi)));
    TripleLookup(("type", t), m, x, "type");
    TripleLookup(("type", t), m, x, "minimum");
    TripleLookup(("type", t), m, x, "maximum");
    BoundOfInt("minimum", lo);
    BoundOfInt("maximum", hi);
  }

  /** An `__array__` object with one bound reads back as that bound alone. */
  lemma ReadOne(t: Value, which: string, b: nat)
    requires which == "minimum" || which == "maximum"
    requires b > 0
    ensures ReadArraySpec(Obj([("type", t), (which, Num(Numbers.Int(b)))]))
            == (t, Ok(if which == "minimum" then (Some(b), None) else (None, Some(b))))
  {
    var m := (which, Num(Numbers.Int(b)));
    assert "maximum"[1] != "minimum"[1];
    PairLookup(("type", t), m, "type");
    PairLookup(("type", t), m, "minimum");
    PairLookup(("type", t), m, "maximum");
    BoundOfInt(which, b);
  }

  /** Looking a key up in an object of two entries. */
  lemma PairLookup(a: (string, Value), b: (string, Value), k: string)
    ensures HasKey([a, b], k) <==> a.0 == k || b.0 == k
    ensures Get([a, b], k) == if a.0 == k then a.1 else if b.0 == k then b.1 else Undefined
  {
    var o := [a, b];
    assert o[1..] == [b] && o[1..][1..] == [];
    assert !HasKey(o[1..][1..], k);
    assert HasKey(o[1..], k) <==> b.0 == k;
  }

  /** Looking a key up in an object of three entries. */
  lemma TripleLookup(a: (string, Value), b: (string, Value), c: (string, Value), k: string)
    ensures HasKey([a, b, c], k) <==> a.0 == k || b.0 == k || c.0 == k
    ensures Get([a, b, c], k) == if a.0 == k then a.1 else if b.0 == k then b.1 else if c.0 == k then c.1 else Undefined
  {
    var o := [a, b, c];
    assert o[1..] == [b, c];
    PairLookup(b, c, k);
  }

  // ------------------------------------------------------ terminal round trip

  /** No key of the object is one the constructors reserve. */
  predicate NoReservedKeys(o: seq<(string, Value)>)
  {
    forall i | 0 <= i < |o| :: o[i].0 !in Reserved
  }

  lemma ReservedAbsent(o: seq<(string, Value)>, k: string)
    requires NoReservedKeys(o) && k in Reserved
    ensures !HasKey(o, k)
  {
    HasKeyIndex(o, k);
  }

  /** The keys Base.toObject writes for the specials are neither reserved
      nor the optional flag. */
  lemma SpecialEntriesKeys(special: seq<(string, Value)>)
    requires SerialisableSpecials(special)
    ensures NoReservedKeys(SpecialEntries(special))
    ensures forall i | 0 <= i < |SpecialEntries(special)| :: SpecialEntries(special)[i].0 != "__optional__"
  {
    var se := SpecialEntries(special);
    forall i | 0 <= i < |se| ensures se[i].0 !in Reserved && se[i].0 != "__optional__" {
      assert special[i] in special;
    }
  }

  /** Base.toObject writes no reserved key. */
  lemma BaseObjectKeys(b: Base)
    requires SerialisableSpecials(b.special)
    ensures NoReservedKeys(BaseObject(b))
  {
    var se := SpecialEntries(b.special);
    var head: seq<(string, Value)> := if b.optional then [("__optional__", Bool(true))] else [];
    BaseObjectFresh(b);
    SpecialEntriesKeys(b.special);
    assert "__optional__" !in Reserved;
    forall i | 0 <= i < |head + se| ensures (head + se)[i].0 !in Reserved {
      if i >= |head| {
        assert (head + se)[i] == se[i - |head|];
      }
    }
  }

  /** Base.toObject writes no key twice. */
  lemma BaseObjectDistinct(b: Base)
    requires SerialisableSpecials(b.special)
    ensures DistinctKeys(BaseObject(b))
  {
    var se := SpecialEntries(b.special);
    BaseObjectFresh(b);
    SpecialEntriesDistinct(b.special);
    if b.optional {
      SpecialEntriesKeys(b.special);
      var o := [("__optional__", Bool(true))] + se;
      forall i, j | 0 <= i < j < |o| ensures o[i].0 != o[j].0 {
        assert o[j] == se[j - 1];
        if i > 0 {
          assert o[i] == se[i - 1];
        }
      }
    } else {
      assert BaseObject(b) == se;
    }
  }

  lemma Regroup<T>(a: seq<T>, b: seq<T>, c: seq<T>)
    ensures a + (b + c) == (a + b) + c
  {
  }

  /** The special loop after a key that is not special gives back the
      specials it is handed, and leaves that key. */
  lemma {:induction false} SplitAfter(e: (string, Value), special: seq<(string, Value)>)
    requires !IsSpecialKey(e.0) && SerialisableSpecials(special)
    ensures SplitSpecials([e] + SpecialEntries(special)) == (special, [e])
    decreases |special|
  {
    if special == [] {
      assert [e] + SpecialEntries(special) == [] + [e];
      SplitSpecialsSnoc([], e);
    } else {
      var init, x := special[..|special| - 1], special[|special| - 1];
      assert special == init + [x];
      assert SplitSpecials([e] + SpecialEntries(init)) == (init, [e])
        && IsSpecialName(x.0) && IsSpecialKey("__" + x.0 + "__") && !HasKey(init, x.0) by {
        SerialisablePrefix(special);
        assert x in special;
        SplitAfter(e, init);
        HasKeyIndex(init, x.0);
      }
      SplitAfterStep(e, init, x);
    }
  }

  lemma SplitAfterStep(e: (string, Value), init: seq<(string, Value)>, x: (string, Value))
    requires SplitSpecials([e] + SpecialEntries(init)) == (init, [e])
    requires IsSpecialName(x.0) && IsSpecialKey("__" + x.0 + "__") && !HasKey(init, x.0)
    ensures SplitSpecials([e] + SpecialEntries(init + [x])) == (init + [x], [e])
  {
    var k := "__" + x.0 + "__";
    assert (init + [x])[..|init|] == init;
    assert SpecialEntries(init + [x]) == SpecialEntries(init) + [(k, x.1)];
    Regroup([e], SpecialEntries(init), [(k, x.1)]);
    SpecialKeyNameOf(x.0);
    SplitSpecialsSnoc([e] + SpecialEntries(init), (k, x.1));
    PutFresh(init, x.0, x.1);
  }

  /** The optional flag read from a type followed by what Base.toObject
      writes: the base's flag, with the specials left after the type. */
  lemma ReadOptionalAfterType(ty: (string, Value), b: Base)
    requires ty.0 == "__type__" && SerialisableSpecials(b.special)
    ensures ReadOptional([ty] + BaseObject(b)) == Ok((b.optional, [ty] + SpecialEntries(b.special)))
  {
    var se := SpecialEntries(b.special);
    BaseObjectFresh(b);
    NoSpecialKeyOptional(b.special);
    if b.optional {
      assert BaseObject(b) == [("__optional__", Bool(true))] + se;
      OptionalAfterType(ty, se);
    } else {
      assert BaseObject(b) == se;
      assert ([ty] + se)[1..] == se;
    }
  }

  lemma OptionalAfterType(ty: (string, Value), se: seq<(string, Value)>)
    requires ty.0 == "__type__" && !HasKey(se, "__optional__")
    ensures ReadOptional([ty] + ([("__optional__", Bool(true))] + se)) == Ok((true, [ty] + se))
  {
    var opt := ("__optional__", Bool(true));
    var d := [ty] + ([opt] + se);
    assert d[0] == ty && d[1..] == [opt] + se && d[1..][0] == opt && d[1..][1..] == se;
    assert HasKey(d, "__optional__") && Get(d, "__optional__") == Bool(true) by {
      assert "__type__" != "__optional__";
      assert HasKey(d[1..], "__optional__") && Get(d[1..], "__optional__") == Bool(true);
    }
    assert Remove(d, "__optional__") == [ty] + se by {
      RemoveAbsent(se, "__optional__");
      assert Remove(d[1..], "__optional__") == se;
    }
  }

  /** The Base constructor on a type followed by what Base.toObject writes
      gives back the base and leaves the type. */
  lemma ReadTerminalBase(ty: (string, Value), b: Base)
    requires ty.0 == "__type__" && SerialisableSpecials(b.special)
    ensures MakeBase(Obj([ty] + BaseObject(b))) == Ok((b, [ty]))
  {
    ReadOptionalAfterType(ty, b);
    assert !IsSpecialKey("__type__") by {
      assert NameIndex(Reserved, "__type__") < |Reserved|;
    }
    SplitAfter(ty, b.special);
  }

  /** Node.toObject of a terminal with no constraint: its type, then what
      Base.toObject writes. */
  lemma TerminalObjectLayout(n: Node)
    requires n.Terminal? && n.regex.None? && n.options.None? && n.minimum == Null && n.maximum == Null
    requires SerialisableSpecials(n.base.special)
    ensures TerminalObject(n) == [("__type__", Str(TagName(n.tag)))] + BaseObject(n.base)
  {
    var ty := ("__type__", Str(TagName(n.tag)));
    var bo := BaseObject(n.base);
    BaseObjectKeys(n.base);
    BaseObjectDistinct(n.base);
    assert ConstraintEntries(n) == [];
    assert "__type__" in Reserved;
    assert forall i | 0 <= i < |bo| :: !HasKey([ty], bo[i].0);
    AssignFresh([ty], bo);
  }

  /** The Node constructor on that layout gives the terminal back. */
  lemma BuildTerminalRoundTrip(host: Host, n: Node)
    requires n.Terminal? && n.regex.None? && n.options.None? && n.minimum == Null && n.maximum == Null
    requires SerialisableSpecials(n.base.special)
    ensures BuildTerminal(host, Obj([("__type__", Str(TagName(n.tag)))] + BaseObject(n.base))) == Ok(n)
  {
    var ty := ("__type__", Str(TagName(n.tag)));
    var bo := BaseObject(n.base);
    var d := [ty] + bo;
    BaseObjectKeys(n.base);
    assert d[1..] == bo;
    ReservedAbsent(bo, "__regex__");
    ReservedAbsent(bo, "__options__");
    ReservedAbsent(bo, "__minimum__");
    ReservedAbsent(bo, "__maximum__");
    assert !HasKey(d, "__regex__") && !HasKey(d, "__options__") && !HasKey(d, "__minimum__") && !HasKey(d, "__maximum__");
    assert HasKey(d, "__type__") && Get(d, "__type__") == Str(TagName(n.tag));
    TagOfName(n.tag);
    ReadTerminalBase(ty, n.base);
  }

  /** The `__hash__` value Hash.toObject writes for a key node with no
      constraint is the key's own object, which the Hash constructor reads
      back through KeyDetails as the same key node. */
  lemma HashKeyRoundTrip(host: Host, n: Node)
    requires n.Hash? && n.key.Terminal?
    requires n.key.regex.None? && n.key.options.None? && n.key.minimum == Null && n.key.maximum == Null
    requires SerialisableSpecials(n.key.base.special)
    ensures KeyDetails(ToObject(n.key)) == ToObject(n.key)
    ensures BuildTerminal(host, KeyDetails(ToObject(n.key))) == Ok(n.key)
  {
    TerminalObjectLayout(n.key);
    BuildTerminalRoundTrip(host, n.key);
  }

  /** toObject of a terminal with no constraint, handed back to Base.create,
      gives the same terminal: its type, its optional flag and its specials. */
  lemma TerminalRoundTrip(host: Host, n: Node)
    requires n.Terminal? && n.regex.None? && n.options.None? && n.minimum == Null && n.maximum == Null
    requires SerialisableSpecials(n.base.special)
    ensures Create(host, ToObject(n)) == Ok(n)
  {
    var ty := ("__type__", Str(TagName(n.tag)));
    var bo := BaseObject(n.base);
    var d := [ty] + bo;
    assert ToObject(n) == Obj(d) by {
      TerminalObjectLayout(n);
    }
    assert !HasKey(d, "__array__") && !HasKey(d, "__hash__") && HasKey(d, "__type__") && Get(d, "__type__").Str? by {
      BaseObjectKeys(n.base);
      assert d[1..] == bo;
      ReservedAbsent(bo, "__array__");
      ReservedAbsent(bo, "__hash__");
    }
    assert Create(host, Obj(d)) == BuildTerminal(host, Obj(d)) by {
      CreateTerminal(host, d);
    }
    BuildTerminalRoundTrip(host, n);
  }

  /** Details under a `__type__` that is text, with no `__array__` or
      `__hash__`, are a terminal's. */
  lemma CreateTerminal(host: Host, o: seq<(string, Value)>)
    requires !HasKey(o, "__array__") && !HasKey(o, "__hash__") && HasKey(o, "__type__") && Get(o, "__type__").Str?
    ensures Create(host, Obj(o)) == BuildTerminal(host, Obj(o))
  {
  }

  // ------------------------------------------------------------------ Tree

  /** Put never moves the first key. */
  lemma PutKeepsFirst(o: seq<(string, Value)>, k: string, v: Value)
    requires o != []
    ensures Put(o, k, v) != [] && Put(o, k, v)[0].0 == o[0].0
  {
  }

  /** Object.assign keeps the first key of its target first, and leaves a
      key its source does not have as it was. */
  lemma {:induction false} AssignKeeps(dst: seq<(string, Value)>, src: seq<(string, Value)>, k: string)
    requires dst != []
    ensures Assign(dst, src) != [] && Assign(dst, src)[0].0 == dst[0].0
    ensures !HasKey(src, k) ==> HasKey(Assign(dst, src), k) == HasKey(dst, k) && Get(Assign(dst, src), k) == Get(dst, k)
    decreases |src|
  {
    if src != [] {
      var dst' := Put(dst, src[0].0, src[0].1);
      PutKeepsFirst(dst, src[0].0, src[0].1);
      AssignKeeps(dst', src[1..], k);
    }
  }

  /** Tree.toObject writes `__name__` first, holding the tree's name unless
      the Parent's own object has that key too. */
  lemma TreeObjectName(t: Tree)
    ensures TreeObject(t).entries != [] && TreeObject(t).entries[0].0 == "__name__"
    ensures !HasKey(EntriesOf(ToObject(t.root)), "__name__") ==> Get(TreeObject(t).entries, "__name__") == t.name
  {
    AssignKeeps([("__name__", t.name)], EntriesOf(ToObject(t.root)), "__name__");
  }
}

=== FILE: clean.dfy ===
/** clean of every kind of node. A Terminal throws only plain Errors; the
    containers throw a NodeException listing [path, reason] pairs. With
    `aggregate` set, a container catches the NodeException of a child and
    goes on, as its catch blocks are written to; without it, the child's
    exception leaves the container at once, which is what the test on
    `err.name` makes of those blocks (see findings.dfy). */
module Cleaning {
  import opened Wrappers
  import opened Values
  import opened Schema
  import opened Terminals
  import opened Validation
  import opened Build

  /** The state of a clean loop over a list: the values cleaned so far and
      the errors gathered, or what the loop threw. */
  datatype ListScan = ListScan(values: seq<Value>, errors: seq<ErrorEntry>) | ListHalt(outcome: Cleaned)

  /** The state of a clean loop over an object: the object built so far and
      the errors gathered, or what the loop threw. */
  datatype ObjectScan = ObjectScan(entries: seq<(string, Value)>, errors: seq<ErrorEntry>) | ObjectHalt(outcome: Cleaned)

  /** clean of null or undefined on a container: null when optional, else 'missing'. */
  function MissingClean(b: Base, level: seq<string>): (r: Cleaned)
    ensures b.optional <==> r == Cleaned(Null)
    ensures !b.optional ==> r == NodeError([Pair(PathOf(level), "missing")])
  {
    if b.optional then Cleaned(Null) else NodeError([Pair(PathOf(level), "missing")])
  }

  /** The outcome of a list loop: what it threw, the errors it gathered, or the list. */
  function EndList(s: ListScan): (r: Cleaned)
  {
    match s
    case ListHalt(o) => o
    case ListScan(vs, es) => if es != [] then NodeError(es) else Cleaned(Arr(vs))
  }

  /** The outcome of an object loop: what it threw, the errors it gathered, or the object. */
  function EndObject(s: ObjectScan): (r: Cleaned)
  {
    match s
    case ObjectHalt(o) => o
    case ObjectScan(o, es) => if es != [] then NodeError(es) else Cleaned(Obj(o))
  }

  /** clean(value, level) */
  function Clean(host: Host, n: Node, value: Value, level: seq<string>, aggregate: bool): (r: Cleaned)
    decreases n, 1, 0
  {
    match n
    case Terminal(_, _, _, _, _, _) =>
      (match CleanTerminal(host, n, value)
       case Ok(v) => Cleaned(v)
       case Err(m) => Thrown(m))
    case ArrayNode(b, _, _, _, _) =>
      if value == Null || value == Undefined then MissingClean(b, level)
      else if !value.Arr? then NodeError([Pair(PathOf(level), "not a valid Array")])
      else EndList(CleanItems(host, n, value.items, level, aggregate, |value.items|))
    case Hash(b, _, _) =>
      if value == Null || value == Undefined then MissingClean(b, level)
      else if !value.Obj? then NodeError([Pair(PathOf(level), "not a valid Object")])
      else EndObject(CleanEntries(host, n, value.entries, level, aggregate, |value.entries|))
    case Options(b, variants) =>
      if value == Null || value == Undefined then MissingClean(b, level)
      else
        var i := FirstValid(host, n, value, 0);
        if i < |variants| then Clean(host, variants[i], value, level, aggregate)
        else NodeError([Pair(PathOf(level), "matches no option")])
    case Parent(b, _, _) =>
      if value == Null || value == Undefined then MissingClean(b, level)
      else if !value.Obj? then NodeError([Pair(PathOf(level), "not a valid Object")])
      else EndObject(CleanKeys(host, n, value.entries, level, aggregate, |value.entries|))
  }

  /** The loop of ArrayNode.clean after the first k elements: each element
      cleaned by the child at level + '[i]', in order. */
  function CleanItems(host: Host, n: Node, items: seq<Value>, level: seq<string>, aggregate: bool, k: nat): (s: ListScan)
    requires n.ArrayNode? && k <= |items|
    decreases n, 0, k
  {
    if k == 0 then ListScan([], [])
    else
      var s := CleanItems(host, n, items, level, aggregate, k - 1);
      if s.ListHalt? then s else ItemStep(host, n, s, items[k - 1], level + [Index(k - 1)], aggregate)
  }

  /** One turn of ArrayNode.clean's loop, on an element at aLevel: a cleaned
      value is appended; a NodeException adds its errors or, without
      `aggregate`, ends the loop; anything else thrown ends the loop. */
  function ItemStep(host: Host, n: Node, s: ListScan, item: Value, aLevel: seq<string>, aggregate: bool): (r: ListScan)
    requires n.ArrayNode? && s.ListScan?
    decreases n, 0, 0
  {
    match Clean(host, n.child, item, aLevel, aggregate)
    case Cleaned(v) => ListScan(s.values + [v], s.errors)
    case NodeError(es) => if aggregate then ListScan(s.values, s.errors + es) else ListHalt(NodeError(es))
    case Thrown(m) => ListHalt(Thrown(m))
  }

  /** The loop of Hash.clean after the first k entries: the key through the
      key node, then the value through the child at level + key; the result
      is stored under the cleaned key's text. */
  function CleanEntries(host: Host, n: Node, entries: seq<(string, Value)>, level: seq<string>, aggregate: bool, k: nat)
    : (s: ObjectScan)
    requires n.Hash? && k <= |entries|
    decreases n, 0, k
  {
    if k == 0 then ObjectScan([], [])
    else
      var s := CleanEntries(host, n, entries, level, aggregate, k - 1);
      if s.ObjectHalt? then s else EntryStep(host, n, s, entries[k - 1], level, aggregate)
  }

  /** One turn of Hash.clean's loop: the key through the key node, then the
      value through the child at level + key; a NodeException from either
      adds its errors or, without `aggregate`, ends the loop. */
  function EntryStep(host: Host, n: Node, s: ObjectScan, e: (string, Value), level: seq<string>, aggregate: bool)
    : (r: ObjectScan)
    requires n.Hash? && s.ObjectScan?
    decreases n, 0, 0
  {
    match Clean(host, n.key, Str(e.0), [], aggregate)
    case Thrown(m) => ObjectHalt(Thrown(m))
    case NodeError(es) => if aggregate then ObjectScan(s.entries, s.errors + es) else ObjectHalt(NodeError(es))
    case Cleaned(kv) =>
      (match Clean(host, n.child, e.1, level + [e.0], aggregate)
       case Cleaned(v) => ObjectScan(Put(s.entries, ToJsString(kv), v), s.errors)
       case NodeError(es) => if aggregate then ObjectScan(s.entries, s.errors + es) else ObjectHalt(NodeError(es))
       case Thrown(m) => ObjectHalt(Thrown(m)))
  }

  /** The loop of Parent.clean after the first k keys of the value: a key
      with no field, or a child that throws anything but a NodeException,
      ends the loop with 'not a valid node'; a child's NodeException adds its
      errors as one nested entry. */
  function CleanKeys(host: Host, n: Node, value: seq<(string, Value)>, level: seq<string>, aggregate: bool, k: nat)
    : (s: ObjectScan)
    requires n.Parent? && k <= |value|
    decreases n, 0, k
  {
    if k == 0 then ObjectScan([], [])
    else
      var s := CleanKeys(host, n, value, level, aggregate, k - 1);
      if s.ObjectHalt? then s else KeyStep(host, n, s, value[k - 1], level, aggregate)
  }

  /** One turn of Parent.clean's loop: the value of a key with a field goes
      through that field's node; a NodeException adds one nested entry
      (only with `aggregate`); everything else thrown ends the loop. */
  function KeyStep(host: Host, n: Node, s: ObjectScan, e: (string, Value), level: seq<string>, aggregate: bool)
    : (r: ObjectScan)
    requires n.Parent? && s.ObjectScan?
    decreases n, 0, 0
  {
    var aLevel := level + [e.0];
    var i := KeyIndex(n.fields, e.0);
    if i == |n.fields| then ObjectHalt(NodeError([Pair(PathOf(aLevel), "not a valid node")]))
    else
      match Clean(host, n.fields[i].1, e.1, aLevel, aggregate)
      case Cleaned(v) => ObjectScan(Put(s.entries, e.0, v), s.errors)
      case NodeError(es) =>
        if aggregate then ObjectScan(s.entries, s.errors + [Group(es)])
        else ObjectHalt(NodeError([Pair(PathOf(aLevel), "not a valid node")]))
      case Thrown(_) => ObjectHalt(NodeError([Pair(PathOf(aLevel), "not a valid node")]))
  }

  // ------------------------------------------------------ loops that stop

  /** Once the array loop has thrown, it throws the same to the end. */
  lemma {:induction false} ItemsHaltSticks(host: Host, n: Node, items: seq<Value>, level: seq<string>, aggregate: bool, j: nat, k: nat)
    requires n.ArrayNode? && j <= k <= |items|
    requires CleanItems(host, n, items, level, aggregate, j).ListHalt?
    ensures CleanItems(host, n, items, level, aggregate, k) == CleanItems(host, n, items, level, aggregate, j)
    decreases k
  {
    if k > j {
      ItemsHaltSticks(host, n, items, level, aggregate, j, k - 1);
      assert CleanItems(host, n, items, level, aggregate, k) == CleanItems(host, n, items, level, aggregate, k - 1);
    }
  }

  /** Once the Hash loop has thrown, it throws the same to the end. */
  lemma {:induction false} EntriesHaltSticks(host: Host, n: Node, entries: seq<(string, Value)>, level: seq<string>, aggregate: bool, j: nat, k: nat)
    requires n.Hash? && j <= k <= |entries|
    requires CleanEntries(host, n, entries, level, aggregate, j).ObjectHalt?
    ensures CleanEntries(host, n, entries, level, aggregate, k) == CleanEntries(host, n, entries, level, aggregate, j)
    decreases k
  {
    if k > j {
      EntriesHaltSticks(host, n, entries, level, aggregate, j, k - 1);
      assert CleanEntries(host, n, entries, level, aggregate, k) == CleanEntries(host, n, entries, level, aggregate, k - 1);
    }
  }

  /** Once the Parent loop has thrown, it throws the same to the end. */
  lemma {:induction false} KeysHaltSticks(host: Host, n: Node, value: seq<(string, Value)>, level: seq<string>, aggregate: bool, j: nat, k: nat)
    requires n.Parent? && j <= k <= |value|
    requires CleanKeys(host, n, value, level, aggregate, j).ObjectHalt?
    ensures CleanKeys(host, n, value, level, aggregate, k) == CleanKeys(host, n, value, level, aggregate, j)
    decreases k
  {
    if k > j {
      KeysHaltSticks(host, n, value, level, aggregate, j, k - 1);
      assert CleanKeys(host, n, value, level, aggregate, k) == CleanKeys(host, n, value, level, aggregate, k - 1);
    }
  }
}

=== FILE: clean_props.dfy ===
/** What clean promises: a NodeException always says what went wrong; a
    container returns a value exactly when every part of it cleans, and then
    the value holds the cleaned parts in order; Options cleans with the first
    variant valid accepts; null and undefined follow the optional flag. */
module CleanProperties {
  import opened Wrappers
  import opened Values
  import opened Schema
  import opened Terminals
  import opened Validation
  import opened Cleaning
  import opened Build

  // ------------------------------------------------------ errors not empty

  /** A NodeException thrown by clean always lists at least one error; a
      loop that stops early never stops with a value. */
  lemma {:induction false} NodeErrorsNonEmpty(host: Host, n: Node, value: Value, level: seq<string>, aggregate: bool)
    ensures var r := Clean(host, n, value, level, aggregate);
            r.NodeError? ==> r.errors != []
    decreases n, 1, 0
  {
    match n
    case Terminal(_, _, _, _, _, _) =>
    case ArrayNode(_, _, _, _, _) =>
      if value.Arr? {
        ItemsErrorsNonEmpty(host, n, value.items, level, aggregate, |value.items|);
      }
    case Hash(_, _, _) =>
      if value.Obj? {
        EntriesErrorsNonEmpty(host, n, value.entries, level, aggregate, |value.entries|);
      }
    case Options(_, variants) =>
      if value != Null && value != Undefined {
        var i := FirstValid(host, n, value, 0);
        if i < |variants| {
          NodeErrorsNonEmpty(host, variants[i], value, level, aggregate);
        }
      }
    case Parent(_, _, _) =>
      if value.Obj? {
        KeysErrorsNonEmpty(host, n, value.entries, level, aggregate, |value.entries|);
      }
  }

  lemma {:induction false} ItemsErrorsNonEmpty(host: Host, n: Node, items: seq<Value>, level: seq<string>, aggregate: bool, k: nat)
    requires n.ArrayNode? && k <= |items|
    ensures var s := CleanItems(host, n, items, level, aggregate, k);
            s.ListHalt? ==> !s.outcome.Cleaned? && (s.outcome.NodeError? ==> s.outcome.errors != [])
    decreases n, 0, k
  {
    if k > 0 {
      ItemsErrorsNonEmpty(host, n, items, level, aggregate, k - 1);
      if CleanItems(host, n, items, level, aggregate, k - 1).ListScan? {
        NodeErrorsNonEmpty(host, n.child, items[k - 1], level + [Index(k - 1)], aggregate);
      }
    }
  }

  lemma {:induction false} EntriesErrorsNonEmpty(host: Host, n: Node, entries: seq<(string, Value)>, level: seq<string>, aggregate: bool, k: nat)
    requires n.Hash? && k <= |entries|
    ensures var s := CleanEntries(host, n, entries, level, aggregate, k);
            s.ObjectHalt? ==> !s.outcome.Cleaned? && (s.outcome.NodeError? ==> s.outcome.errors != [])
    decreases n, 0, k
  {
    if k > 0 {
      EntriesErrorsNonEmpty(host, n, entries, level, aggregate, k - 1);
      if CleanEntries(host, n, entries, level, aggregate, k - 1).ObjectScan? {
        var e := entries[k - 1];
        NodeErrorsNonEmpty(host, n.key, Str(e.0), [], aggregate);
        NodeErrorsNonEmpty(host, n.child, e.1, level + [e.0], aggregate);
      }
    }
  }

  lemma {:induction false} KeysErrorsNonEmpty(host: Host, n: Node, value: seq<(string, Value)>, level: seq<string>, aggregate: bool, k: nat)
    requires n.Parent? && k <= |value|
    ensures var s := CleanKeys(host, n, value, level, aggregate, k);
            s.ObjectHalt? ==> !s.outcome.Cleaned? && (s.outcome.NodeError? ==> s.outcome.errors != [])
    decreases k
  {
    if k > 0 {
      KeysErrorsNonEmpty(host, n, value, level, aggregate, k - 1);
    }
  }

  // --------------------------------------------------------------- ArrayNode

  /** Every one of the first k elements cleans to a value. */
  predicate ItemsClean(host: Host, n: Node, items: seq<Value>, level: seq<string>, aggregate: bool, k: nat)
    requires n.ArrayNode? && k <= |items|
  {
    forall i | 0 <= i < k :: Clean(host, n.child, items[i], level + [Index(i)], aggregate).Cleaned?
  }

  /** The array loop ends with no error exactly when every element cleans. */
  lemma {:induction false} CleanItemsOk(host: Host, n: Node, items: seq<Value>, level: seq<string>, aggregate: bool, k: nat)
    requires n.ArrayNode? && k <= |items|
    ensures var s := CleanItems(host, n, items, level, aggregate, k);
            (s.ListScan? && s.errors == []) <==> ItemsClean(host, n, items, level, aggregate, k)
  {
    if k > 0 {
      var s, t := CleanItems(host, n, items, level, aggregate, k - 1), CleanItems(host, n, items, level, aggregate, k);
      var c := Clean(host, n.child, items[k - 1], level + [Index(k - 1)], aggregate);
      assert (t.ListScan? && t.errors == []) <==> (s.ListScan? && s.errors == []) && c.Cleaned? by {
        CleanItemsOkStep(host, n, items, level, aggregate, k);
      }
      assert (s.ListScan? && s.errors == []) <==> ItemsClean(host, n, items, level, aggregate, k - 1) by {
        CleanItemsOk(host, n, items, level, aggregate, k - 1);
      }
      ItemsCleanSnoc(host, n, items, level, aggregate, k);
    }
  }

  lemma ItemsCleanSnoc(host: Host, n: Node, items: seq<Value>, level: seq<string>, aggregate: bool, k: nat)
    requires n.ArrayNode? && 0 < k <= |items|
    ensures ItemsClean(host, n, items, level, aggregate, k)
            <==> ItemsClean(host, n, items, level, aggregate, k - 1)
                 && Clean(host, n.child, items[k - 1], level + [Index(k - 1)], aggregate).Cleaned?
  {
    if ItemsClean(host, n, items, level, aggregate, k) {
      forall i | 0 <= i < k - 1 ensures Clean(host, n.child, items[i], level + [Index(i)], aggregate).Cleaned? {
        assert i < k;
      }
    }
  }

  /** When the array loop ends with no error, it holds each element's
      cleaned value, in order. */
  lemma {:induction false} CleanItemsValues(host: Host, n: Node, items: seq<Value>, level: seq<string>, aggregate: bool, k: nat)
    requires n.ArrayNode? && k <= |items|
    requires CleanItems(host, n, items, level, aggregate, k).ListScan? && CleanItems(host, n, items, level, aggregate, k).errors == []
    ensures var vs := CleanItems(host, n, items, level, aggregate, k).values;
            |vs| == k
            && forall i | 0 <= i < k :: Clean(host, n.child, items[i], level + [Index(i)], aggregate) == Cleaned(vs[i])
  {
    if k > 0 {
      assert CleanItems(host, n, items, level, aggregate, k - 1).ListScan? && CleanItems(host, n, items, level, aggregate, k - 1).errors == [] by {
        CleanItemsOkStep(host, n, items, level, aggregate, k);
      }
      CleanItemsValues(host, n, items, level, aggregate, k - 1);
      CleanItemsValuesStep(host, n, items, level, aggregate, k);
    }
  }

  lemma CleanItemsValuesStep(host: Host, n: Node, items: seq<Value>, level: seq<string>, aggregate: bool, k: nat)
    requires n.ArrayNode? && 0 < k <= |items|
    requires CleanItems(host, n, items, level, aggregate, k).ListScan? && CleanItems(host, n, items, level, aggregate, k).errors == []
    requires var vs := CleanItems(host, n, items, level, aggregate, k - 1).values;
             |vs| == k - 1
             && forall i | 0 <= i < k - 1 :: Clean(host, n.child, items[i], level + [Index(i)], aggregate) == Cleaned(vs[i])
    ensures var vs := CleanItems(host, n, items, level, aggregate, k).values;
            |vs| == k
            && forall i | 0 <= i < k :: Clean(host, n.child, items[i], level + [Index(i)], aggregate) == Cleaned(vs[i])
  {
    var s, t := CleanItems(host, n, items, level, aggregate, k - 1), CleanItems(host, n, items, level, aggregate, k);
    var c := Clean(host, n.child, items[k - 1], level + [Index(k - 1)], aggregate);
    assert c.Cleaned? && t.values == s.values + [c.value] by {
      CleanItemsOkStep(host, n, items, level, aggregate, k);
    }
    forall i | 0 <= i < k ensures Clean(host, n.child, items[i], level + [Index(i)], aggregate) == Cleaned(t.values[i]) {
      if i < k - 1 {
        assert t.values[i] == s.values[i];
      }
    }
  }

  lemma CleanItemsOkStep(host: Host, n: Node, items: seq<Value>, level: seq<string>, aggregate: bool, k: nat)
    requires n.ArrayNode? && 0 < k <= |items|
    ensures var s, t := CleanItems(host, n, items, level, aggregate, k - 1), CleanItems(host, n, items, level, aggregate, k);
            var c := Clean(host, n.child, items[k - 1], level + [Index(k - 1)], aggregate);
            (t.ListScan? && t.errors == []) <==> (s.ListScan? && s.errors == []) && c.Cleaned?
    ensures var s, t := CleanItems(host, n, items, level, aggregate, k - 1), CleanItems(host, n, items, level, aggregate, k);
            (t.ListScan? && t.errors == []) ==> t.values == s.values + [Clean(host, n.child, items[k - 1], level + [Index(k - 1)], aggregate).value]
  {
    NodeErrorsNonEmpty(host, n.child, items[k - 1], level + [Index(k - 1)], aggregate);
  }

  /** ArrayNode.clean of a list: a value exactly when every element cleans,
      and then a list of the same length holding each element's cleaned
      value in order. */
  lemma ArrayCleanIff(host: Host, n: Node, items: seq<Value>, level: seq<string>, aggregate: bool)
    requires n.ArrayNode?
    ensures Clean(host, n, Arr(items), level, aggregate).Cleaned? <==> ItemsClean(host, n, items, level, aggregate, |items|)
    ensures var r := Clean(host, n, Arr(items), level, aggregate);
            r.Cleaned? ==> r.value.Arr? && |r.value.items| == |items|
                           && forall i | 0 <= i < |items| :: Clean(host, n.child, items[i], level + [Index(i)], aggregate) == Cleaned(r.value.items[i])
  {
    var s := CleanItems(host, n, items, level, aggregate, |items|);
    ItemsErrorsNonEmpty(host, n, items, level, aggregate, |items|);
    CleanItemsOk(host, n, items, level, aggregate, |items|);
    if s.ListScan? && s.errors == [] {
      CleanItemsValues(host, n, items, level, aggregate, |items|);
    }
  }

  // -------------------------------------------------------------------- Hash

  /** Every one of the first k entries has a key the key node cleans and a
      value the child cleans. */
  predicate EntriesClean(host: Host, n: Node, entries: seq<(string, Value)>, level: seq<string>, aggregate: bool, k: nat)
    requires n.Hash? && k <= |entries|
  {
    forall i | 0 <= i < k :: EntryClean(host, n, entries[i], level, aggregate)
  }

  /** The key node cleans the key and the child cleans the value. */
  predicate EntryClean(host: Host, n: Node, e: (string, Value), level: seq<string>, aggregate: bool)
    requires n.Hash?
  {
    Clean(host, n.key, Str(e.0), [], aggregate).Cleaned?
    && Clean(host, n.child, e.1, level + [e.0], aggregate).Cleaned?
  }

  lemma CleanEntriesOkStep(host: Host, n: Node, entries: seq<(string, Value)>, level: seq<string>, aggregate: bool, k: nat)
    requires n.Hash? && 0 < k <= |entries|
    ensures var s, t := CleanEntries(host, n, entries, level, aggregate, k - 1), CleanEntries(host, n, entries, level, aggregate, k);
            var e := entries[k - 1];
            (t.ObjectScan? && t.errors == [])
            <==> (s.ObjectScan? && s.errors == []) && EntryClean(host, n, e, level, aggregate)
  {
    var e := entries[k - 1];
    NodeErrorsNonEmpty(host, n.key, Str(e.0), [], aggregate);
    NodeErrorsNonEmpty(host, n.child, e.1, level + [e.0], aggregate);
  }

  /** The Hash loop ends with no error exactly when every key and every
      value cleans. */
  lemma {:induction false} CleanEntriesOk(host: Host, n: Node, entries: seq<(string, Value)>, level: seq<string>, aggregate: bool, k: nat)
    requires n.Hash? && k <= |entries|
    ensures var s := CleanEntries(host, n, entries, level, aggregate, k);
            (s.ObjectScan? && s.errors == []) <==> EntriesClean(host, n, entries, level, aggregate, k)
  {
    if k > 0 {
      var s, t := CleanEntries(host, n, entries, level, aggregate, k - 1), CleanEntries(host, n, entries, level, aggregate, k);
      var good := EntryClean(host, n, entries[k - 1], level, aggregate);
      assert (t.ObjectScan? && t.errors == []) <==> (s.ObjectScan? && s.errors == []) && good by {
        CleanEntriesOkStep(host, n, entries, level, aggregate, k);
      }
      assert (s.ObjectScan? && s.errors == []) <==> EntriesClean(host, n, entries, level, aggregate, k - 1) by {
        CleanEntriesOk(host, n, entries, level, aggregate, k - 1);
      }
      assert EntriesClean(host, n, entries, level, aggregate, k) <==> EntriesClean(host, n, entries, level, aggregate, k - 1) && good by {
        EntriesCleanSnoc(host, n, entries, level, aggregate, k);
      }
    }
  }

  lemma EntriesCleanSnoc(host: Host, n: Node, entries: seq<(string, Value)>, level: seq<string>, aggregate: bool, k: nat)
    requires n.Hash? && 0 < k <= |entries|
    ensures EntriesClean(host, n, entries, level, aggregate, k)
            <==> EntriesClean(host, n, entries, level, aggregate, k - 1) && EntryClean(host, n, entries[k - 1], level, aggregate)
  {
    if EntriesClean(host, n, entries, level, aggregate, k) {
      EntriesCleanShrink(host, n, entries, level, aggregate, k);
    }
    if EntriesClean(host, n, entries, level, aggregate, k - 1) && EntryClean(host, n, entries[k - 1], level, aggregate) {
      EntriesCleanGrow(host, n, entries, level, aggregate, k);
    }
  }

  lemma EntriesCleanShrink(host: Host, n: Node, entries: seq<(string, Value)>, level: seq<string>, aggregate: bool, k: nat)
    requires n.Hash? && 0 < k <= |entries| && EntriesClean(host, n, entries, level, aggregate, k)
    ensures EntriesClean(host, n, entries, level, aggregate, k - 1) && EntryClean(host, n, entries[k - 1], level, aggregate)
  {
  }

  lemma EntriesCleanGrow(host: Host, n: Node, entries: seq<(string, Value)>, level: seq<string>, aggregate: bool, k: nat)
    requires n.Hash? && 0 < k <= |entries|
    requires EntriesClean(host, n, entries, level, aggregate, k - 1) && EntryClean(host, n, entries[k - 1], level, aggregate)
    ensures EntriesClean(host, n, entries, level, aggregate, k)
  {
  }

  /** Hash.clean of an object: a value exactly when every key and every
      value cleans. */
  lemma HashCleanIff(host: Host, n: Node, entries: seq<(string, Value)>, level: seq<string>, aggregate: bool)
    requires n.Hash?
    ensures Clean(host, n, Obj(entries), level, aggregate).Cleaned?
            <==> forall i | 0 <= i < |entries| :: EntryClean(host, n, entries[i], level, aggregate)
    ensures Clean(host, n, Obj(entries), level, aggregate).Cleaned? ==> Clean(host, n, Obj(entries), level, aggregate).value.Obj?
  {
    EntriesErrorsNonEmpty(host, n, entries, level, aggregate, |entries|);
    CleanEntriesOk(host, n, entries, level, aggregate, |entries|);
  }

  /** The pair Hash.clean writes for an entry that cleans: the text of the
      cleaned key and the cleaned value (an entry that does not clean is
      never written, and its pair holds undefined). */
  function StoredPair(host: Host, n: Node, e: (string, Value), level: seq<string>, aggregate: bool): (string, Value)
    requires n.Hash?
  {
    match Clean(host, n.key, Str(e.0), [], aggregate)
    case Cleaned(k) =>
      (match Clean(host, n.child, e.1, level + [e.0], aggregate)
       case Cleaned(v) => (ToJsString(k), v)
       case _ => (ToJsString(k), Undefined))
    case _ => (e.0, Undefined)
  }

  /** The pair for the i-th entry. */
  function StoredAt(host: Host, n: Node, entries: seq<(string, Value)>, level: seq<string>, aggregate: bool): int --> (string, Value)
    requires n.Hash?
  {
    (i: int) requires 0 <= i < |entries| => StoredPair(host, n, entries[i], level, aggregate)
  }

  /** The pairs for the first k entries. */
  function StoredPairs(host: Host, n: Node, entries: seq<(string, Value)>, level: seq<string>, aggregate: bool, k: nat)
    : (ps: seq<(string, Value)>)
    requires n.Hash? && k <= |entries|
  {
    seq(k, StoredAt(host, n, entries, level, aggregate))
  }

  /** A turn of the Hash loop over an entry that cleans writes its pair. */
  lemma EntryStepStores(host: Host, n: Node, s: ObjectScan, e: (string, Value), level: seq<string>, aggregate: bool)
    requires n.Hash? && s.ObjectScan? && EntryClean(host, n, e, level, aggregate)
    ensures var p := StoredPair(host, n, e, level, aggregate);
            EntryStep(host, n, s, e, level, aggregate) == ObjectScan(Put(s.entries, p.0, p.1), s.errors)
  {
  }

  lemma StoredPairsSnoc(host: Host, n: Node, entries: seq<(string, Value)>, level: seq<string>, aggregate: bool, k: nat)
    requires n.Hash? && 0 < k <= |entries|
    ensures StoredPairs(host, n, entries, level, aggregate, k)
            == StoredPairs(host, n, entries, level, aggregate, k - 1) + [StoredPair(host, n, entries[k - 1], level, aggregate)]
  {
    BuildSnoc(k, StoredAt(host, n, entries, level, aggregate));
  }

  lemma CleanEntriesStoredStep(host: Host, n: Node, entries: seq<(string, Value)>, level: seq<string>, aggregate: bool, k: nat)
    requires n.Hash? && 0 < k <= |entries|
    requires CleanEntries(host, n, entries, level, aggregate, k).ObjectScan? && CleanEntries(host, n, entries, level, aggregate, k).errors == []
    requires CleanEntries(host, n, entries, level, aggregate, k - 1)
             == ObjectScan(Assign([], StoredPairs(host, n, entries, level, aggregate, k - 1)), [])
    ensures CleanEntries(host, n, entries, level, aggregate, k)
            == ObjectScan(Assign([], StoredPairs(host, n, entries, level, aggregate, k)), [])
  {
    var s, ps := CleanEntries(host, n, entries, level, aggregate, k - 1), StoredPairs(host, n, entries, level, aggregate, k - 1);
    var p := StoredPair(host, n, entries[k - 1], level, aggregate);
    assert EntryClean(host, n, entries[k - 1], level, aggregate) by {
      CleanEntriesOkStep(host, n, entries, level, aggregate, k);
    }
    assert CleanEntries(host, n, entries, level, aggregate, k) == ObjectScan(Put(Assign([], ps), p.0, p.1), []) by {
      EntryStepStores(host, n, s, entries[k - 1], level, aggregate);
    }
    StoredPairsSnoc(host, n, entries, level, aggregate, k);
    AssignSnoc([], ps, p);
  }

  /** When the Hash loop gathers no error, it has written the stored pairs
      in order. */
  lemma {:induction false} CleanEntriesStored(host: Host, n: Node, entries: seq<(string, Value)>, level: seq<string>, aggregate: bool, k: nat)
    requires n.Hash? && k <= |entries|
    requires CleanEntries(host, n, entries, level, aggregate, k).ObjectScan? && CleanEntries(host, n, entries, level, aggregate, k).errors == []
    ensures CleanEntries(host, n, entries, level, aggregate, k)
            == ObjectScan(Assign([], StoredPairs(host, n, entries, level, aggregate, k)), [])
  {
    if k > 0 {
      assert CleanEntries(host, n, entries, level, aggregate, k - 1).ObjectScan? && CleanEntries(host, n, entries, level, aggregate, k - 1).errors == [] by {
        CleanEntriesOkStep(host, n, entries, level, aggregate, k);
      }
      CleanEntriesStored(host, n, entries, level, aggregate, k - 1);
      CleanEntriesStoredStep(host, n, entries, level, aggregate, k);
    }
  }

  /** Hash.clean of an object, when it returns a value: the object has the
      text of every cleaned key, each holding the cleaned value of the last
      entry whose key cleans to it, and no other key. */
  lemma HashCleanStores(host: Host, n: Node, entries: seq<(string, Value)>, level: seq<string>, aggregate: bool)
    requires n.Hash? && Clean(host, n, Obj(entries), level, aggregate).Cleaned?
    ensures EntriesClean(host, n, entries, level, aggregate, |entries|)
    ensures var o, ps := Clean(host, n, Obj(entries), level, aggregate).value, StoredPairs(host, n, entries, level, aggregate, |entries|);
            o == Obj(Assign([], ps))
            && (forall i | 0 <= i < |entries| ::
                  ps[i] == (ToJsString(Clean(host, n.key, Str(entries[i].0), [], aggregate).value),
                            Clean(host, n.child, entries[i].1, level + [entries[i].0], aggregate).value))
            && (forall i | 0 <= i < |ps| :: HasKey(o.entries, ps[i].0))
            && (forall i | 0 <= i < |ps| && LastOfKey(ps, i) :: Get(o.entries, ps[i].0) == ps[i].1)
            && (forall k | HasKey(o.entries, k) :: exists i | 0 <= i < |ps| :: ps[i].0 == k)
  {
    assert EntriesClean(host, n, entries, level, aggregate, |entries|) by {
      HashCleanIff(host, n, entries, level, aggregate);
    }
    assert CleanEntries(host, n, entries, level, aggregate, |entries|).ObjectScan? && CleanEntries(host, n, entries, level, aggregate, |entries|).errors == [] by {
      EntriesErrorsNonEmpty(host, n, entries, level, aggregate, |entries|);
    }
    CleanEntriesStored(host, n, entries, level, aggregate, |entries|);
    AssignLastWins(StoredPairs(host, n, entries, level, aggregate, |entries|));
  }

  /** The errors Hash.clean gathers from an entry with aggregate: those of
      its key when the key fails, or else those of its value. */
  function EntryErrors(host: Host, n: Node, e: (string, Value), level: seq<string>): (es: seq<ErrorEntry>)
    requires n.Hash?
  {
    var c := Clean(host, n.key, Str(e.0), [], true);
    if c.NodeError? then c.errors
    else if c.Cleaned? && Clean(host, n.child, e.1, level + [e.0], true).NodeError? then Clean(host, n.child, e.1, level + [e.0], true).errors
    else []
  }

  /** The errors Hash.clean gathers from the first k entries, in order. */
  function EntriesErrors(host: Host, n: Node, entries: seq<(string, Value)>, level: seq<string>, k: nat): (es: seq<ErrorEntry>)
    requires n.Hash? && k <= |entries|
  {
    if k == 0 then [] else EntriesErrors(host, n, entries, level, k - 1) + EntryErrors(host, n, entries[k - 1], level)
  }

  /** Neither the key nor, when the key cleans, the value of an entry throws
      anything but a NodeException. */
  predicate EntryDoesntThrow(host: Host, n: Node, e: (string, Value), level: seq<string>)
    requires n.Hash?
  {
    var c := Clean(host, n.key, Str(e.0), [], true);
    !c.Thrown? && (c.Cleaned? ==> !Clean(host, n.child, e.1, level + [e.0], true).Thrown?)
  }

  predicate EntriesDontThrow(host: Host, n: Node, entries: seq<(string, Value)>, level: seq<string>, k: nat)
    requires n.Hash? && k <= |entries|
  {
    forall i | 0 <= i < k :: EntryDoesntThrow(host, n, entries[i], level)
  }

  /** A turn of the Hash loop with aggregate over an entry that throws
      nothing but a NodeException adds the entry's errors and goes on. */
  lemma EntryStepGathers(host: Host, n: Node, s: ObjectScan, e: (string, Value), level: seq<string>)
    requires n.Hash? && s.ObjectScan? && EntryDoesntThrow(host, n, e, level)
    ensures EntryStep(host, n, s, e, level, true).ObjectScan?
    ensures EntryStep(host, n, s, e, level, true).errors == s.errors + EntryErrors(host, n, e, level)
  {
  }

  lemma EntriesDontThrowShrink(host: Host, n: Node, entries: seq<(string, Value)>, level: seq<string>, k: nat)
    requires n.Hash? && 0 < k <= |entries| && EntriesDontThrow(host, n, entries, level, k)
    ensures EntriesDontThrow(host, n, entries, level, k - 1) && EntryDoesntThrow(host, n, entries[k - 1], level)
  {
  }

  /** With aggregate, the Hash loop keeps going past failing entries and
      holds the errors of every one of them, in order. */
  lemma {:induction false} EntriesGatherErrors(host: Host, n: Node, entries: seq<(string, Value)>, level: seq<string>, k: nat)
    requires n.Hash? && k <= |entries| && EntriesDontThrow(host, n, entries, level, k)
    ensures CleanEntries(host, n, entries, level, true, k).ObjectScan?
    ensures CleanEntries(host, n, entries, level, true, k).errors == EntriesErrors(host, n, entries, level, k)
  {
    if k > 0 {
      EntriesDontThrowShrink(host, n, entries, level, k);
      EntriesGatherErrors(host, n, entries, level, k - 1);
      EntryStepGathers(host, n, CleanEntries(host, n, entries, level, true, k - 1), entries[k - 1], level);
    }
  }

  /** With aggregate, when no entry throws anything but a NodeException and
      some fail, Hash.clean throws a NodeException holding every error. */
  lemma HashReportsEveryError(host: Host, n: Node, entries: seq<(string, Value)>, level: seq<string>)
    requires n.Hash? && EntriesDontThrow(host, n, entries, level, |entries|)
    requires EntriesErrors(host, n, entries, level, |entries|) != []
    ensures Clean(host, n, Obj(entries), level, true) == NodeError(EntriesErrors(host, n, entries, level, |entries|))
  {
    EntriesGatherErrors(host, n, entries, level, |entries|);
  }

  // ------------------------------------------------------------------ Parent

  /** The key names a field whose node cleans the value under it. */
  predicate KeyClean(host: Host, n: Node, e: (string, Value), level: seq<string>, aggregate: bool)
    requires n.Parent?
  {
    var f := KeyIndex(n.fields, e.0);
    f < |n.fields| && Clean(host, n.fields[f].1, e.1, level + [e.0], aggregate).Cleaned?
  }

  /** Every one of the first k keys names a field whose node cleans its value. */
  predicate KeysClean(host: Host, n: Node, value: seq<(string, Value)>, level: seq<string>, aggregate: bool, k: nat)
    requires n.Parent? && k <= |value|
  {
    forall i | 0 <= i < k :: KeyClean(host, n, value[i], level, aggregate)
  }

  lemma CleanKeysOkStep(host: Host, n: Node, value: seq<(string, Value)>, level: seq<string>, aggregate: bool, k: nat)
    requires n.Parent? && 0 < k <= |value|
    ensures var s, t := CleanKeys(host, n, value, level, aggregate, k - 1), CleanKeys(host, n, value, level, aggregate, k);
            (t.ObjectScan? && t.errors == [])
            <==> (s.ObjectScan? && s.errors == []) && KeyClean(host, n, value[k - 1], level, aggregate)
    ensures var s, t := CleanKeys(host, n, value, level, aggregate, k - 1), CleanKeys(host, n, value, level, aggregate, k);
            (t.ObjectScan? && t.errors == []) ==> HasKey(t.entries, value[k - 1].0)
                                                  && forall j :: HasKey(s.entries, j) ==> HasKey(t.entries, j)
  {
  }

  /** The Parent loop ends with no error exactly when every key names a
      field that cleans its value. */
  lemma CleanKeysOk(host: Host, n: Node, value: seq<(string, Value)>, level: seq<string>, aggregate: bool, k: nat)
    requires n.Parent? && k <= |value|
    ensures var s := CleanKeys(host, n, value, level, aggregate, k);
            (s.ObjectScan? && s.errors == []) <==> KeysClean(host, n, value, level, aggregate, k)
  {
    if CleanKeys(host, n, value, level, aggregate, k).ObjectScan? && CleanKeys(host, n, value, level, aggregate, k).errors == [] {
      KeysCleanOfOk(host, n, value, level, aggregate, k);
    }
    if KeysClean(host, n, value, level, aggregate, k) {
      OkOfKeysClean(host, n, value, level, aggregate, k);
    }
  }

  lemma {:induction false} KeysCleanOfOk(host: Host, n: Node, value: seq<(string, Value)>, level: seq<string>, aggregate: bool, k: nat)
    requires n.Parent? && k <= |value| && CleanKeys(host, n, value, level, aggregate, k).ObjectScan? && CleanKeys(host, n, value, level, aggregate, k).errors == []
    ensures KeysClean(host, n, value, level, aggregate, k)
  {
    if k > 0 {
      assert CleanKeys(host, n, value, level, aggregate, k - 1).ObjectScan? && CleanKeys(host, n, value, level, aggregate, k - 1).errors == [] && KeyClean(host, n, value[k - 1], level, aggregate) by {
        CleanKeysOkStep(host, n, value, level, aggregate, k);
      }
      KeysCleanOfOk(host, n, value, level, aggregate, k - 1);
      KeysCleanGrow(host, n, value, level, aggregate, k);
    }
  }

  lemma {:induction false} OkOfKeysClean(host: Host, n: Node, value: seq<(string, Value)>, level: seq<string>, aggregate: bool, k: nat)
    requires n.Parent? && k <= |value| && KeysClean(host, n, value, level, aggregate, k)
    ensures CleanKeys(host, n, value, level, aggregate, k).ObjectScan? && CleanKeys(host, n, value, level, aggregate, k).errors == []
  {
    if k > 0 {
      assert KeyClean(host, n, value[k - 1], level, aggregate)
             && CleanKeys(host, n, value, level, aggregate, k - 1).ObjectScan?
             && CleanKeys(host, n, value, level, aggregate, k - 1).errors == [] by {
        KeysCleanShrink(host, n, value, level, aggregate, k);
        OkOfKeysClean(host, n, value, level, aggregate, k - 1);
      }
      CleanKeysOkStep(host, n, value, level, aggregate, k);
    }
  }

  lemma KeysCleanShrink(host: Host, n: Node, value: seq<(string, Value)>, level: seq<string>, aggregate: bool, k: nat)
    requires n.Parent? && 0 < k <= |value| && KeysClean(host, n, value, level, aggregate, k)
    ensures KeysClean(host, n, value, level, aggregate, k - 1) && KeyClean(host, n, value[k - 1], level, aggregate)
  {
  }

  lemma KeysCleanGrow(host: Host, n: Node, value: seq<(string, Value)>, level: seq<string>, aggregate: bool, k: nat)
    requires n.Parent? && 0 < k <= |value|
    requires KeysClean(host, n, value, level, aggregate, k - 1) && KeyClean(host, n, value[k - 1], level, aggregate)
    ensures KeysClean(host, n, value, level, aggregate, k)
  {
  }

  /** The object the Parent loop builds with no error has every key it read. */
  lemma {:induction false} CleanKeysHas(host: Host, n: Node, value: seq<(string, Value)>, level: seq<string>, aggregate: bool, k: nat)
    requires n.Parent? && k <= |value|
    requires CleanKeys(host, n, value, level, aggregate, k).ObjectScan? && CleanKeys(host, n, value, level, aggregate, k).errors == []
    ensures forall i | 0 <= i < k :: HasKey(CleanKeys(host, n, value, level, aggregate, k).entries, value[i].0)
  {
    if k > 0 {
      var s, t := CleanKeys(host, n, value, level, aggregate, k - 1), CleanKeys(host, n, value, level, aggregate, k);
      assert s.ObjectScan? && s.errors == [] && HasKey(t.entries, value[k - 1].0)
             && forall j :: HasKey(s.entries, j) ==> HasKey(t.entries, j) by {
        CleanKeysOkStep(host, n, value, level, aggregate, k);
        KeysErrorsNonEmpty(host, n, value, level, aggregate, k - 1);
      }
      CleanKeysHas(host, n, value, level, aggregate, k - 1);
    }
  }

  /** Parent.clean of an object: a value exactly when every key of the value
      names a field that cleans it, and then an object with those keys. */
  lemma ParentCleanIff(host: Host, n: Node, value: seq<(string, Value)>, level: seq<string>, aggregate: bool)
    requires n.Parent?
    ensures Clean(host, n, Obj(value), level, aggregate).Cleaned? <==> KeysClean(host, n, value, level, aggregate, |value|)
    ensures var r := Clean(host, n, Obj(value), level, aggregate);
            r.Cleaned? ==> r.value.Obj? && forall i | 0 <= i < |value| :: HasKey(r.value.entries, value[i].0)
  {
    KeysErrorsNonEmpty(host, n, value, level, aggregate, |value|);
    CleanKeysOk(host, n, value, level, aggregate, |value|);
    var s := CleanKeys(host, n, value, level, aggregate, |value|);
    if s.ObjectScan? && s.errors == [] {
      CleanKeysHas(host, n, value, level, aggregate, |value|);
    }
  }

  /** The pair Parent.clean writes for a key that cleans: the key and the
      value its field's node cleans it to (a key that does not clean is
      never written, and its pair holds undefined). */
  function FieldPair(host: Host, n: Node, e: (string, Value), level: seq<string>, aggregate: bool): (string, Value)
    requires n.Parent?
  {
    var f := KeyIndex(n.fields, e.0);
    if f < |n.fields| then
      match Clean(host, n.fields[f].1, e.1, level + [e.0], aggregate)
      case Cleaned(v) => (e.0, v)
      case _ => (e.0, Undefined)
    else (e.0, Undefined)
  }

  /** The pair for the i-th key. */
  function FieldAt(host: Host, n: Node, value: seq<(string, Value)>, level: seq<string>, aggregate: bool): int --> (string, Value)
    requires n.Parent?
  {
    (i: int) requires 0 <= i < |value| => FieldPair(host, n, value[i], level, aggregate)
  }

  /** The pairs for the first k keys. */
  function FieldPairs(host: Host, n: Node, value: seq<(string, Value)>, level: seq<string>, aggregate: bool, k: nat)
    : (ps: seq<(string, Value)>)
    requires n.Parent? && k <= |value|
  {
    seq(k, FieldAt(host, n, value, level, aggregate))
  }

  lemma FieldPairsSnoc(host: Host, n: Node, value: seq<(string, Value)>, level: seq<string>, aggregate: bool, k: nat)
    requires n.Parent? && 0 < k <= |value|
    ensures FieldPairs(host, n, value, level, aggregate, k)
            == FieldPairs(host, n, value, level, aggregate, k - 1) + [FieldPair(host, n, value[k - 1], level, aggregate)]
  {
    BuildSnoc(k, FieldAt(host, n, value, level, aggregate));
  }

  /** A turn of the Parent loop over a key that cleans writes its pair. */
  lemma KeyStepStores(host: Host, n: Node, s: ObjectScan, e: (string, Value), level: seq<string>, aggregate: bool)
    requires n.Parent? && s.ObjectScan? && KeyClean(host, n, e, level, aggregate)
    ensures var p := FieldPair(host, n, e, level, aggregate);
            KeyStep(host, n, s, e, level, aggregate) == ObjectScan(Put(s.entries, p.0, p.1), s.errors)
  {
  }

  lemma CleanKeysStoredStep(host: Host, n: Node, value: seq<(string, Value)>, level: seq<string>, aggregate: bool, k: nat)
    requires n.Parent? && 0 < k <= |value|
    requires CleanKeys(host, n, value, level, aggregate, k).ObjectScan? && CleanKeys(host, n, value, level, aggregate, k).errors == []
    requires CleanKeys(host, n, value, level, aggregate, k - 1)
             == ObjectScan(Assign([], FieldPairs(host, n, value, level, aggregate, k - 1)), [])
    ensures CleanKeys(host, n, value, level, aggregate, k)
            == ObjectScan(Assign([], FieldPairs(host, n, value, level, aggregate, k)), [])
  {
    var s, ps := CleanKeys(host, n, value, level, aggregate, k - 1), FieldPairs(host, n, value, level, aggregate, k - 1);
    var p := FieldPair(host, n, value[k - 1], level, aggregate);
    assert KeyClean(host, n, value[k - 1], level, aggregate) by {
      CleanKeysOkStep(host, n, value, level, aggregate, k);
    }
    assert CleanKeys(host, n, value, level, aggregate, k) == ObjectScan(Put(Assign([], ps), p.0, p.1), []) by {
      KeyStepStores(host, n, s, value[k - 1], level, aggregate);
    }
    FieldPairsSnoc(host, n, value, level, aggregate, k);
    AssignSnoc([], ps, p);
  }

  /** When the Parent loop gathers no error, it has written the field pairs
      in order. */
  lemma {:induction false} CleanKeysStored(host: Host, n: Node, value: seq<(string, Value)>, level: seq<string>, aggregate: bool, k: nat)
    requires n.Parent? && k <= |value|
    requires CleanKeys(host, n, value, level, aggregate, k).ObjectScan? && CleanKeys(host, n, value, level, aggregate, k).errors == []
    ensures CleanKeys(host, n, value, level, aggregate, k)
            == ObjectScan(Assign([], FieldPairs(host, n, value, level, aggregate, k)), [])
  {
    if k > 0 {
      assert CleanKeys(host, n, value, level, aggregate, k - 1).ObjectScan? && CleanKeys(host, n, value, level, aggregate, k - 1).errors == [] by {
        CleanKeysOkStep(host, n, value, level, aggregate, k);
      }
      CleanKeysStored(host, n, value, level, aggregate, k - 1);
      CleanKeysStoredStep(host, n, value, level, aggregate, k);
    }
  }

  /** Parent.clean of an object, when it returns a value: an object with
      exactly the keys of the value, each holding what its field's node
      cleans the value under it to (the last such entry, should a key
      repeat). */
  lemma ParentCleanStores(host: Host, n: Node, value: seq<(string, Value)>, level: seq<string>, aggregate: bool)
    requires n.Parent? && Clean(host, n, Obj(value), level, aggregate).Cleaned?
    ensures KeysClean(host, n, value, level, aggregate, |value|)
    ensures var o, ps := Clean(host, n, Obj(value), level, aggregate).value, FieldPairs(host, n, value, level, aggregate, |value|);
            o == Obj(Assign([], ps))
            && (forall i | 0 <= i < |value| ::
                  ps[i] == (value[i].0, Clean(host, n.fields[KeyIndex(n.fields, value[i].0)].1, value[i].1, level + [value[i].0], aggregate).value)
                  && HasKey(o.entries, value[i].0))
            && (forall i | 0 <= i < |value| && LastOfKey(value, i) :: Get(o.entries, value[i].0) == ps[i].1)
            && (forall k | HasKey(o.entries, k) :: exists i | 0 <= i < |value| :: value[i].0 == k)
  {
    assert KeysClean(host, n, value, level, aggregate, |value|) by {
      ParentCleanIff(host, n, value, level, aggregate);
    }
    var ps := FieldPairs(host, n, value, level, aggregate, |value|);
    assert CleanKeys(host, n, value, level, aggregate, |value|).ObjectScan? && CleanKeys(host, n, value, level, aggregate, |value|).errors == [] by {
      KeysErrorsNonEmpty(host, n, value, level, aggregate, |value|);
    }
    CleanKeysStored(host, n, value, level, aggregate, |value|);
    AssignLastWins(ps);
    forall i | 0 <= i < |value|
      ensures ps[i].0 == value[i].0
    {
    }
    forall i | 0 <= i < |value| && LastOfKey(value, i)
      ensures LastOfKey(ps, i)
    {
    }
  }

  /** The errors Parent.clean gathers from a key with aggregate: one nested
      entry when its field's node fails. */
  function KeyErrors(host: Host, n: Node, e: (string, Value), level: seq<string>): (es: seq<ErrorEntry>)
    requires n.Parent?
  {
    var f := KeyIndex(n.fields, e.0);
    if f < |n.fields| && Clean(host, n.fields[f].1, e.1, level + [e.0], true).NodeError?
    then [Group(Clean(host, n.fields[f].1, e.1, level + [e.0], true).errors)]
    else []
  }

  /** The errors Parent.clean gathers from the first k keys, in order. */
  function FieldErrors(host: Host, n: Node, value: seq<(string, Value)>, level: seq<string>, k: nat): (es: seq<ErrorEntry>)
    requires n.Parent? && k <= |value|
  {
    if k == 0 then [] else FieldErrors(host, n, value, level, k - 1) + KeyErrors(host, n, value[k - 1], level)
  }

  /** The key names a field whose node throws nothing but a NodeException on
      the value under it. */
  predicate KeyDoesntThrow(host: Host, n: Node, e: (string, Value), level: seq<string>)
    requires n.Parent?
  {
    var f := KeyIndex(n.fields, e.0);
    f < |n.fields| && !Clean(host, n.fields[f].1, e.1, level + [e.0], true).Thrown?
  }

  predicate FieldsDontThrow(host: Host, n: Node, value: seq<(string, Value)>, level: seq<string>, k: nat)
    requires n.Parent? && k <= |value|
  {
    forall i | 0 <= i < k :: KeyDoesntThrow(host, n, value[i], level)
  }

  /** A turn of the Parent loop with aggregate over a key whose field throws
      nothing but a NodeException adds the key's errors and goes on. */
  lemma KeyStepGathers(host: Host, n: Node, s: ObjectScan, e: (string, Value), level: seq<string>)
    requires n.Parent? && s.ObjectScan? && KeyDoesntThrow(host, n, e, level)
    ensures KeyStep(host, n, s, e, level, true).ObjectScan?
    ensures KeyStep(host, n, s, e, level, true).errors == s.errors + KeyErrors(host, n, e, level)
  {
  }

  lemma FieldsDontThrowShrink(host: Host, n: Node, value: seq<(string, Value)>, level: seq<string>, k: nat)
    requires n.Parent? && 0 < k <= |value| && FieldsDontThrow(host, n, value, level, k)
    ensures FieldsDontThrow(host, n, value, level, k - 1) && KeyDoesntThrow(host, n, value[k - 1], level)
  {
  }

  /** With aggregate, the Parent loop keeps going past failing fields and
      holds one nested entry for every one of them, in order. */
  lemma {:induction false} KeysGatherErrors(host: Host, n: Node, value: seq<(string, Value)>, level: seq<string>, k: nat)
    requires n.Parent? && k <= |value| && FieldsDontThrow(host, n, value, level, k)
    ensures CleanKeys(host, n, value, level, true, k).ObjectScan?
    ensures CleanKeys(host, n, value, level, true, k).errors == FieldErrors(host, n, value, level, k)
  {
    if k > 0 {
      FieldsDontThrowShrink(host, n, value, level, k);
      KeysGatherErrors(host, n, value, level, k - 1);
      KeyStepGathers(host, n, CleanKeys(host, n, value, level, true, k - 1), value[k - 1], level);
    }
  }

  /** With aggregate, when every key names a field that throws nothing but a
      NodeException and some fail, Parent.clean throws a NodeException with
      one nested entry per failing field. */
  lemma ParentReportsEveryError(host: Host, n: Node, value: seq<(string, Value)>, level: seq<string>)
    requires n.Parent? && FieldsDontThrow(host, n, value, level, |value|)
    requires FieldErrors(host, n, value, level, |value|) != []
    ensures Clean(host, n, Obj(value), level, true) == NodeError(FieldErrors(host, n, value, level, |value|))
  {
    KeysGatherErrors(host, n, value, level, |value|);
  }

  // ----------------------------------------------------------------- Options

  /** Options.clean of a value that is not null: the clean of the first
      variant, in order, whose valid accepts it; 'matches no option' when
      none does. */
  lemma OptionsCleanFirst(host: Host, n: Node, value: Value, level: seq<string>, aggregate: bool, i: nat)
    requires n.Options? && value != Null && value != Undefined && i < |n.variants|
    requires Valid(host, n.variants[i], value, []).ok
    requires forall j | 0 <= j < i :: !Valid(host, n.variants[j], value, []).ok
    ensures Clean(host, n, value, level, aggregate) == Clean(host, n.variants[i], value, level, aggregate)
  {
    var r := FirstValid(host, n, value, 0);
    assert r == i by {
      if r < i {
        assert false;
      }
    }
  }

  /** Options.clean when no variant accepts the value. */
  lemma OptionsCleanNone(host: Host, n: Node, value: Value, level: seq<string>, aggregate: bool)
    requires n.Options? && value != Null && value != Undefined
    requires forall j | 0 <= j < |n.variants| :: !Valid(host, n.variants[j], value, []).ok
    ensures Clean(host, n, value, level, aggregate) == NodeError([Pair(PathOf(level), "matches no option")])
  {
  }

  // -------------------------------------------------------------------- null

  /** clean of null on an optional node is null, whatever its kind; on a
      container that is not optional it throws 'missing'. */
  lemma NullClean(host: Host, n: Node, level: seq<string>, aggregate: bool)
    ensures n.base.optional ==> Clean(host, n, Null, level, aggregate) == Cleaned(Null)
    ensures !n.Terminal? && !n.base.optional ==> Clean(host, n, Null, level, aggregate) == NodeError([Pair(PathOf(level), "missing")])
  {
  }
}

=== FILE: decimal_props.dfy ===
/** What the Decimal wrapper promises: the points of text come back in
    toString, toString pads and never truncates, toFixed has exactly the
    places asked for, and comparisons look at values and not at points. */
module DecimalProperties {
  import opened Wrappers
  import Numbers
  import opened Patterns
  import opened Strings
  import opened JsNumbers
  import opened Decimals

  /** The digits of an integer, and a fraction after a point unless it is
      empty. */
  function Unsigned(ip: nat, frac: string): string
  {
    Numbers.Digits(ip) + (if frac == [] then "" else "." + frac)
  }

  /** An optional minus before Unsigned: how decimal.js and toFixed write a
      number. */
  function Parts(neg: bool, ip: nat, frac: string): string
  {
    (if neg then "-" else "") + Unsigned(ip, frac)
  }

  /** The first point of Unsigned text is right after the integer digits. */
  lemma PointAfterDigits(ip: nat, frac: string)
    requires Numbers.AllDigits(frac)
    ensures var body, head := Unsigned(ip, frac), Numbers.Digits(ip);
            IndexOfChar(body, '.') == |head| && body[..|head|] == head
            && (frac != [] ==> body[|head| + 1..] == frac)
            && body[0] != '-'
  {
    var head := Numbers.Digits(ip);
    var body := Unsigned(ip, frac);
    assert forall i | 0 <= i < |head| :: body[i] == head[i] && body[i] != '.';
    assert |head| < |body| ==> body[|head|] == '.';
    var k := IndexOfChar(body, '.');
    assert k == |head|;
    assert body[..k] == head;
    if frac != [] {
      assert |body[k + 1..]| == |frac|;
      assert forall i | 0 <= i < |frac| :: body[k + 1..][i] == frac[i];
    }
  }

  /** Unsigned text goes through the pattern's body with its fraction as
      the capture. */
  lemma MatchOfUnsigned(ip: nat, frac: string)
    requires Numbers.AllDigits(frac)
    ensures UnsignedMatch(Unsigned(ip, frac)) == Some(if frac == [] then None else Some(frac))
  {
    PointAfterDigits(ip, frac);
    Numbers.DigitsNoLeadingZero(ip);
  }

  /** Text made of an optional minus, the digits of an integer and an
      optional fraction goes through the decimal pattern with that fraction
      as its capture. */
  lemma MatchOfParts(neg: bool, ip: nat, frac: string)
    requires Numbers.AllDigits(frac)
    ensures DecimalMatch(Parts(neg, ip, frac)) == Some(if frac == [] then None else Some(frac))
  {
    var body := Unsigned(ip, frac);
    var s := Parts(neg, ip, frac);
    PointAfterDigits(ip, frac);
    assert (if |s| > 0 && s[0] == '-' then s[1..] else s) == body by {
      if neg { assert s[1..] == body; }
    }
    MatchOfUnsigned(ip, frac);
  }

  /** Zeros after a fraction lengthen it. */
  lemma PartsPad(neg: bool, ip: nat, frac: string, z: string)
    requires frac != []
    ensures Parts(neg, ip, frac) + z == Parts(neg, ip, frac + z)
  {
    assert "." + frac + z == "." + (frac + z);
  }

  /** A point and zeros after a whole number make them its fraction. */
  lemma PartsPoint(neg: bool, ip: nat, z: string)
    requires z != []
    ensures Parts(neg, ip, []) + "." + z == Parts(neg, ip, z)
  {
    var sign := if neg then "-" else "";
    assert Unsigned(ip, []) == Numbers.Digits(ip);
    assert sign + Numbers.Digits(ip) + "." + z == sign + (Numbers.Digits(ip) + ("." + z));
  }

  /** The integer part of a value without its sign. */
  function Whole(n: Numbers.Number): nat
  {
    var c := Numbers.Normalize(n);
    Numbers.IntegerPart(if c.mant < 0 then -c.mant else c.mant, c.exp)
  }

  /** The fraction digits decimal.js writes for a value: as many as it needs. */
  function Fraction(n: Numbers.Number): (f: string)
    ensures |f| == Numbers.Normalize(n).exp && Numbers.AllDigits(f)
  {
    var c := Numbers.Normalize(n);
    if c.exp == 0 then "" else Numbers.FixedDigits(if c.mant < 0 then -c.mant else c.mant, c.exp)
  }

  /** decimal.js's text of a value in Parts: its sign, its integer part and
      the fraction digits it needs. */
  lemma RenderParts(n: Numbers.Number)
    ensures Numbers.Render(n) == Parts(Numbers.Normalize(n).mant < 0, Whole(n), Fraction(n))
  {
  }

  /** decimal.js's text of a value goes through the decimal pattern, with a
      fraction exactly when the value needs fraction digits. */
  lemma RenderMatch(n: Numbers.Number)
    ensures DecimalMatch(Numbers.Render(n)) == Some(if Numbers.Normalize(n).exp == 0 then None else Some(Fraction(n)))
  {
    RenderParts(n);
    MatchOfParts(Numbers.Normalize(n).mant < 0, Whole(n), Fraction(n));
  }

  /** toString with points of one or more: the text of the value with its
      fraction padded with zeros up to the points, never cut; the fraction
      of the result has the greater of the two lengths. */
  lemma TextPadding(d: Decimal)
    requires d.points.Some? && d.points.value >= 1
    ensures var places := Numbers.Normalize(d.value).exp;
            var r := DecimalMatch(Text(d));
            r.Some? && r.value.Some?
            && |r.value.value| == if places >= d.points.value then places else d.points.value
  {
    RenderParts(d.value);
    PadParts(Numbers.Normalize(d.value).mant < 0, Whole(d.value), Fraction(d.value), d.points.value);
  }

  /** Pad on text in Parts: the fraction, or a point if there is none, is
      followed by zeros up to p digits; a fraction of p digits or more stays. */
  lemma PadParts(neg: bool, ip: nat, frac: string, p: nat)
    requires Numbers.AllDigits(frac) && p >= 1
    ensures var r := DecimalMatch(Pad(Parts(neg, ip, frac), Some(p)));
            r.Some? && r.value.Some? && |r.value.value| == if |frac| >= p then |frac| else p
  {
    var t := Parts(neg, ip, frac);
    MatchOfParts(neg, ip, frac);
    if frac == [] {
      var z := Numbers.Zeros(p);
      PartsPoint(neg, ip, z);
      assert Pad(t, Some(p)) == Parts(neg, ip, z);
      MatchOfParts(neg, ip, z);
    } else if |frac| < p {
      var z := Numbers.Zeros(p - |frac|);
      PartsPad(neg, ip, frac, z);
      assert Pad(t, Some(p)) == Parts(neg, ip, frac + z);
      MatchOfParts(neg, ip, frac + z);
    }
  }

  /** toString starts with decimal.js's text: padding never cuts it. */
  lemma TextExtendsRender(d: Decimal)
    ensures Numbers.Render(d.value) <= Text(d)
  {
  }

  /** toString with no points is decimal.js's own text. */
  lemma TextWithoutPoints(d: Decimal)
    requires d.points.None?
    ensures Text(d) == Numbers.Render(d.value)
  {
  }

  // ------------------------------------------------------------ from text

  /** A run of k decimal digits ended by a non-digit or the end is what
      RadixRun reads. */
  lemma RunOfDigits(u: string, k: nat)
    requires k <= |u| && Numbers.AllDigits(u[..k]) && (k < |u| ==> !Numbers.IsDigit(u[k]))
    ensures RadixRun(u, 10) == k
  {
    var a := RadixRun(u, 10);
    assert forall i | 0 <= i < k :: u[..k][i] == u[i];
    assert forall i | 0 <= i < a :: u[..a][i] == u[i];
  }

  /** Text the decimal pattern accepts is a decimal literal whose exponent
      is the length of its fraction. */
  lemma LiteralOfMatch(s: string)
    requires DecimalMatch(s).Some?
    ensures DecimalLiteral(s).Some?
    ensures DecimalLiteral(s).value.exp == if DecimalMatch(s).value.Some? then |DecimalMatch(s).value.value| else 0
  {
    var body := if |s| > 0 && s[0] == '-' then s[1..] else s;
    var k := IndexOfChar(body, '.');
    assert UnsignedMatch(body).Some?;
    assert IsIntegerDigits(body[..k]);
    assert k >= 1 && body[0] == body[..k][0];
    assert Unsign(s).1 == body;
    RunOfDigits(body, k);
    if k < |body| {
      var frac := body[k + 1..];
      assert Numbers.AllDigits(frac);
      assert frac[..|frac|] == frac;
      RunOfDigits(frac, |frac|);
      assert body[k + 1 + |frac|..] == [];
      var r := DecimalPrefix(body);
      assert r.Some? && r.value.1 == |body| && r.value.0.exp == |frac|;
    } else {
      assert body[k..] == [];
      var r := DecimalPrefix(body);
      assert r.Some? && r.value.1 == |body| && r.value.0.exp == 0;
    }
  }

  /** The Decimal of text with a fraction remembers its length as points,
      and toString writes exactly that many fraction digits back. */
  lemma TextKeepsPoints(s: string)
    requires DecimalMatch(s).Some? && DecimalMatch(s).value.Some?
    ensures FromString(s).Some? && FromString(s).value.points == Some(|DecimalMatch(s).value.value|)
    ensures var r := DecimalMatch(Text(FromString(s).value));
            r.Some? && r.value.Some? && |r.value.value| == |DecimalMatch(s).value.value|
  {
    LiteralOfMatch(s);
    var d := FromString(s).value;
    TextPadding(d);
  }

  /** The Decimal of text without a fraction, or of a number, has no points. */
  lemma NoPointsWithoutFraction(s: string)
    requires DecimalMatch(s).Some? && DecimalMatch(s).value.None?
    ensures FromString(s).Some? && FromString(s).value.points.None?
  {
    LiteralOfMatch(s);
  }

  // ---------------------------------------------------------------- toFixed

  /** toFixed(p) has exactly p fraction digits whatever the points. */
  lemma ToFixedPlaces(d: Decimal, p: nat)
    ensures var r := DecimalMatch(ToFixed(d, p));
            r.Some? && (p == 0 <==> r.value.None?) && (p > 0 ==> |r.value.value| == p)
    ensures forall q: Option<nat> :: ToFixed(d.(points := q), p) == ToFixed(d, p)
  {
    var r := Numbers.RoundTo(Numbers.Abs(d.value), p);
    var m: nat := r.mant;
    var frac := if p == 0 then "" else Numbers.FixedDigits(m, p);
    var t := Parts(Numbers.IsNegative(d.value), Numbers.IntegerPart(m, p), frac);
    assert ToFixed(d, p) == t;
    MatchOfParts(Numbers.IsNegative(d.value), Numbers.IntegerPart(m, p), frac);
    assert DecimalMatch(t) == Some(if frac == [] then None else Some(frac));
  }

  /** Price clean: 3 with two places is "3.00", the case of the test
      '3 equals "3.00"' (tests/Node_Clean.test.ts:300-302). */
  lemma ToFixedThree()
    ensures ToFixed(Decimal(Numbers.Int(3), None), 2) == "3.00"
  {
    var r := Numbers.RoundTo(Numbers.Abs(Numbers.Int(3)), 2);
    assert Numbers.Pow10(2) == 100 by {
      assert Numbers.Pow10(1) == 10;
    }
    assert r == Numbers.Number(300, 2);
    assert Numbers.IntegerPart(300, 2) == 3;
    assert Numbers.Digits(3) == "3";
    assert Numbers.FixedDigits(300, 2) == "00" by {
      assert Numbers.FixedDigits(30, 1) == Numbers.FixedDigits(3, 0) + "0";
    }
  }

  // ------------------------------------------------------------- comparison

  /** equals, lessThan and greaterThan give the same answer whatever the
      points of either side: a Decimal argument is compared by its value. */
  lemma ComparisonsIgnorePoints(d: Decimal, e: Decimal, p: Option<nat>, q: Option<nat>)
    ensures Equals(d.(points := p), OfDecimal(e.(points := q))) == Some(Numbers.Eq(d.value, e.value))
    ensures LessThan(d.(points := p), OfDecimal(e.(points := q))) == Some(Numbers.Less(d.value, e.value))
    ensures GreaterThan(d.(points := p), OfDecimal(e.(points := q))) == Some(Numbers.Less(e.value, d.value))
  {
  }
}

=== FILE: decimals.dfy ===
/** The Decimal class of src/Decimal.js: a decimal.js value together with the
    number of fraction digits ("points") of the text it was made from, so that
    toString gives back as many fraction digits as were written. Every
    arithmetic wrapper hands the points on to its result. */
module Decimals {
  import opened Wrappers
  import Numbers
  import opened Patterns
  import opened JsNumbers

  type Number = Numbers.Number

  /** points is null (None) unless the value came from text with a fraction. */
  datatype Decimal = Decimal(value: Number, points: Option<nat>)

  /** The points of text: the length of the fraction the decimal pattern captures. */
  function PointsOf(s: string): Option<nat>
  {
    match DecimalMatch(s)
    case Some(Some(f)) => Some(|f|)
    case _ => None
  }

  /** new Decimal(s) for a string: decimal.js throws (None) unless the text is a decimal literal. */
  function FromString(s: string): Option<Decimal>
  {
    match DecimalLiteral(s)
    case None => None
    case Some(n) => Some(Decimal(n, PointsOf(s)))
  }

  /** new Decimal(n) for a number: no points. */
  function FromNumber(n: Number): Decimal
  {
    Decimal(n, None)
  }

  /** _fromDecimalJS(v, p): a new Decimal of a decimal.js value, with points p. */
  function FromDecimalJs(v: Number, p: Option<nat>): Decimal
  {
    Decimal(v, p)
  }

  /** clone(): a Decimal of the same value with the same points. */
  function Clone(d: Decimal): (r: Decimal)
    ensures r == d
  {
    FromDecimalJs(d.value, d.points)
  }

  /** decimalPlaces(): the fraction digits the value needs, not the points. */
  function DecimalPlaces(d: Decimal): nat
  {
    Numbers.DecimalPlaces(d.value)
  }

  // ------------------------------------------------------------ arithmetic

  /** The wrappers that call a decimal.js operation and keep the points. */
  datatype Op =
    | Abs | AbsoluteValue | Ceil | Floor | Minus(x: Number) | Negated | Plus(x: Number)
    | Round | Times(x: Number) | ToDecimalPlaces(dp: int) | ToNearest(x: Number)
    | ToSignificantDigits(sd: int) | Truncated

  /** Drops the `k` lowest mantissa digits of `v`, rounding half away from zero. */
  function DropDigits(v: Number, k: nat): Number
  {
    var d := Numbers.Pow10(k);
    var m: nat := if v.mant < 0 then -v.mant else v.mant;
    var q := (2 * m + d) / (2 * d) * d;
    Numbers.Number(if v.mant < 0 then -q else q, v.exp)
  }

  /** The decimal.js operation with the default rounding (half up); None where
      decimal.js throws on its argument. */
  function BaseOp(v: Number, op: Op): Option<Number>
  {
    match op
    case Abs => Some(Numbers.Abs(v))
    case AbsoluteValue => Some(Numbers.Abs(v))
    case Ceil => Some(Numbers.Ceil(v))
    case Floor => Some(Numbers.Floor(v))
    case Minus(x) => Some(Numbers.Sub(v, x))
    case Negated => Some(Numbers.Neg(v))
    case Plus(x) => Some(Numbers.Add(v, x))
    case Round => Some(Numbers.RoundTo(v, 0))
    case Times(x) => Some(Numbers.Mul(v, x))
    case ToDecimalPlaces(dp) => if dp < 0 then None else Some(Numbers.RoundTo(v, dp))
    case ToNearest(x) =>
      if x.mant == 0 then Some(Numbers.Int(0))
      else
        var a: nat := (if v.mant < 0 then -v.mant else v.mant) * Numbers.Pow10(x.exp);
        var b: nat := (if x.mant < 0 then -x.mant else x.mant) * Numbers.Pow10(v.exp);
        var q := (2 * a + b) / (2 * b) * (if x.mant < 0 then -x.mant else x.mant);
        Some(Numbers.Number(if v.mant < 0 then -q else q, x.exp))
    case ToSignificantDigits(sd) =>
      if sd < 1 then None
      else
        var n := |Numbers.Digits(if v.mant < 0 then -v.mant else v.mant)|;
        Some(if n <= sd then v else DropDigits(v, n - sd))
    case Truncated => Some(Numbers.Trunc(v))
  }

  /** abs, absoluteValue, ceil, floor, minus, negated, plus, round, times,
      toDecimalPlaces, toNearest, toSignificantDigits, truncated: the result is
      _fromDecimalJS of the decimal.js result with this Decimal's points. */
  function Apply(d: Decimal, op: Op): (r: Option<Decimal>)
    ensures r.Some? ==> r.value.points == d.points
    ensures r.None? <==> (op.ToDecimalPlaces? && op.dp < 0) || (op.ToSignificantDigits? && op.sd < 1)
  {
    match BaseOp(d.value, op)
    case None => None
    case Some(n) => Some(FromDecimalJs(n, d.points))
  }

  // ----------------------------------------------------------- comparison

  /** The argument of equals, greaterThan and lessThan: a Decimal is unwrapped,
      anything else goes to decimal.js as it is. */
  datatype Operand = OfDecimal(d: Decimal) | OfNumber(n: Number) | OfString(s: string)

  function OperandValue(o: Operand): Option<Number>
  {
    match o
    case OfDecimal(d) => Some(d.value)
    case OfNumber(n) => Some(n)
    case OfString(s) => DecimalLiteral(s)
  }

  /** equals(v); None where decimal.js throws on the argument. */
  function Equals(d: Decimal, o: Operand): Option<bool>
  {
    match OperandValue(o)
    case None => None
    case Some(n) => Some(Numbers.Eq(d.value, n))
  }

  function GreaterThan(d: Decimal, o: Operand): Option<bool>
  {
    match OperandValue(o)
    case None => None
    case Some(n) => Some(Numbers.Less(n, d.value))
  }

  function LessThan(d: Decimal, o: Operand): Option<bool>
  {
    match OperandValue(o)
    case None => None
    case Some(n) => Some(Numbers.Less(d.value, n))
  }

  // ---------------------------------------------------------------- text

  /** toString(): the decimal.js text, padded with zeros (and a point) up to
      the points when it has fewer fraction digits. */
  function Text(d: Decimal): string
  {
    Pad(Numbers.Render(d.value), d.points)
  }

  /** The padding of toString on decimal.js's text s. */
  function Pad(s: string, points: Option<nat>): string
  {
    if points.None? then s
    else
      match DecimalMatch(s)
      case None => s
      case Some(frac) =>
        if frac.Some? && |frac.value| >= points.value then s
        else
          var len := if frac.Some? then points.value - |frac.value| else points.value;
          (if frac.Some? then s else s + ".") + Numbers.Zeros(len)
  }

  method ToString(d: Decimal) returns (s: string)
    ensures s == Text(d)
  {
    s := Numbers.Render(d.value);
    if d.points.Some? {
      var a := DecimalMatch(s);
      if a.Some? {
        var len := d.points.value;
        if a.value.Some? {
          if |a.value.value| >= d.points.value {
            return s;
          }
          len := d.points.value - |a.value.value|;
        } else {
          s := s + ".";
        }
        ghost var head := s;
        for i := 0 to len
          invariant s == head + Numbers.Zeros(i)
        {
          s := s + "0";
        }
      }
    }
  }

  /** toFixed(p): exactly p fraction digits, rounded half away from zero, with
      a minus sign whenever the value itself is negative. */
  function ToFixed(d: Decimal, p: nat): string
  {
    var r := Numbers.RoundTo(Numbers.Abs(d.value), p);
    var m: nat := r.mant;
    var body := Numbers.Digits(Numbers.IntegerPart(m, p)) + (if p == 0 then "" else "." + Numbers.FixedDigits(m, p));
    if Numbers.IsNegative(d.value) then "-" + body else body
  }
}

=== FILE: findings.dfy ===
/** Places where the code does something other than what it evidently means
    to do. Each is written here as the code has it, next to an input that
    shows the difference; the rest of the model uses the intended behaviour,
    whose property is proved here too. */
module Findings {
  import opened Wrappers
  import Numbers
  import Decimals
  import opened Helpers
  import opened Values
  import opened Schema
  import opened BaseNodes
  import opened Terminals
  import opened Validation
  import opened Build
  import opened Cleaning
  import opened Serialise

  // ------------------------------------------------ a bound of zero (valid)

  /** The end of Node.valid as written: `if (this._minimum && …)` skips a
      bound that is zero as if it were not set. */
  function TailStepAsWritten(n: Node, v: Value): (r: Step)
    requires n.Terminal?
    ensures r.Accept? || r.Reject?
    ensures n.options.None? && !Truthy(n.minimum) && !Truthy(n.maximum) ==> r == Accept
  {
    if n.options.Some? then
      if IndexOf(n.options.value, v) == |n.options.value| then Reject("not in options") else Accept
    else if Truthy(n.minimum) && JsLess(v, n.minimum) then Reject("did not meet minimum")
    else if Truthy(n.maximum) && JsLess(n.maximum, v) then Reject("exceeds maximum")
    else Accept
  }

  /** An int node whose minimum is 0. */
  function NonNegativeInt(): Node
  {
    Terminal(Base(false, []), Int, None, None, IntValue(0), Null)
  }

  /** As written, an int node with minimum 0 accepts every integer, the
      negative ones too; the intended check refuses exactly the negative ones. */
  lemma ZeroMinimumIgnored(x: int)
    ensures TailStepAsWritten(NonNegativeInt(), IntValue(x)) == Accept
    ensures TailStep(NonNegativeInt(), IntValue(x)) == if x < 0 then Reject("did not meet minimum") else Accept
  {
  }

  /** The bound of an optional integer: the value itself, or null when unset. */
  function IntBound(b: Option<int>): Value
  {
    if b.Some? then IntValue(b.value) else Null
  }

  /** The intended check: an integer passes the bounds of a node without
      options exactly when it lies between the bounds that are set, zero
      counting like any other bound. */
  lemma IntBoundsHonoured(n: Node, lo: Option<int>, hi: Option<int>, x: int)
    requires n.Terminal? && n.options.None?
    requires n.minimum == IntBound(lo) && n.maximum == IntBound(hi)
    ensures TailStep(n, IntValue(x)).Accept?
            <==> (lo.None? || lo.value <= x) && (hi.None? || x <= hi.value)
  {
    assert Numbers.Pow10(0) == 1;
  }

  /** The length bounds of a string node as written: both the outer
      `if (this._minimum || this._maximum)` and each inner test skip a bound
      that is zero, so a node whose maximum length is 0 goes on to the end of
      valid with no length check at all. */
  function StringStepAsWritten(host: Host, n: Node, value: Value): (r: Step)
    requires n.Terminal?
    ensures !Truthy(n.minimum) && !Truthy(n.maximum) && value.Str? && n.regex.None? ==> r == Next(value)
  {
    if !value.Str? then Reject("is not a string")
    else if n.regex.Some? && !host.regexTest(n.regex.value, value.s) then Reject("invalid")
    else if Truthy(n.minimum) || Truthy(n.maximum) then
      var len := IntValue(|value.s|);
      if Truthy(n.minimum) && JsLess(len, n.minimum) then Reject("not long enough")
      else if Truthy(n.maximum) && JsLess(n.maximum, len) then Reject("too long")
      else Accept
    else Next(value)
  }

  /** A string node whose maximum length is 0. */
  function EmptyString(): Node
  {
    Terminal(Base(false, []), StringType, None, None, Null, IntValue(0))
  }

  /** As written, a string node with maximum length 0 accepts "abc": the
      length check is skipped and the end of valid accepts; the intended
      check refuses it as too long. */
  lemma ZeroMaxLengthIgnored(host: Host)
    ensures StringStepAsWritten(host, EmptyString(), Str("abc")) == Next(Str("abc"))
    ensures TailStepAsWritten(EmptyString(), Str("abc")) == Accept
    ensures StringStep(host, EmptyString(), Str("abc")) == Reject("too long")
  {
    assert JsLess(IntValue(0), IntValue(|"abc"|)) by {
      assert |"abc"| == 3;
      assert Numbers.Pow10(0) == 1;
    }
  }

  // ------------------------------------- decimal bounds compared as text

  /** `this._minimum > maximum` as written for two Decimal wrappers: the
      wrapper has no valueOf, so both sides become their toString text and
      the comparison is one of strings. */
  predicate BelowAsWritten(t: TypeTag, minimum: Value, maximum: Value)
  {
    if t == Ip then IpOrder(ToJsString(minimum), ToJsString(maximum)) == 1
    else JsLess(maximum, minimum)
  }

  /** A Decimal of an integer with no points. */
  function WholeDecimal(i: int): Value
  {
    Dec(Decimals.Decimal(Numbers.Int(i), None))
  }

  /** As written, a decimal node refuses the bounds 9 and 10, since "10"
      comes before "9" as text; by value 10 is not below 9. */
  lemma DecimalBoundsAsText()
    ensures BelowAsWritten(DecimalType, WholeDecimal(9), WholeDecimal(10))
    ensures !Below(DecimalType, WholeDecimal(9), WholeDecimal(10))
  {
    assert Numbers.Render(Numbers.Int(9)) == "9" by {
      assert Numbers.Normalize(Numbers.Int(9)) == Numbers.Int(9);
      assert Numbers.IntegerPart(9, 0) == 9;
    }
    assert Numbers.Render(Numbers.Int(10)) == "10" by {
      assert Numbers.Normalize(Numbers.Int(10)) == Numbers.Int(10);
      assert Numbers.IntegerPart(10, 0) == 10;
      assert Numbers.Digits(10) == Numbers.Digits(1) + "0";
    }
    assert StrLess("10", "9");
  }

  /** The intended minmax on a decimal or price node given two Decimals: it
      takes them exactly when the maximum is not below the minimum by value,
      whatever points either carries. */
  lemma DecimalBoundsByValue(n: Node, a: Decimals.Decimal, b: Decimals.Decimal)
    requires n.Terminal? && (n.tag == DecimalType || n.tag == Price)
    ensures MinMax(n, Dec(a), Dec(b)).Ok? <==> !Numbers.Less(b.value, a.value)
    ensures MinMax(n, Dec(a), Dec(b)).Ok? ==> MinMax(n, Dec(a), Dec(b)).value == n.(minimum := Dec(a), maximum := Dec(b))
  {
  }
  // ------------------------------------------- the message of requires

  /** The message of requires for a list entry that names no field, as
      written: `String(require[s])` reads the whole `__require__` object at
      the entry's index instead of the list, so it names nothing. */
  function UnknownRequireAsWritten(k: string, req: seq<(string, Value)>, j: nat): (m: string)
    ensures "__require__[" + k + "]:" <= m
  {
    "__require__[" + k + "]:" + ToJsString(Get(req, Numbers.Digits(j)))
  }

  /** As written, the list ["zz"] under key "a" is reported as
      "__require__[a]:undefined"; the intended message names "zz". */
  lemma UnknownNameLost()
    ensures UnknownRequireAsWritten("a", [("a", Arr([Str("zz")]))], 0) == "__require__[a]:undefined"
    ensures UnknownRequire("a", [Str("zz")], 0) == "__require__[a]:zz"
  {
    assert Numbers.Digits(0) == "0";
    assert "a" != "0";
  }

  /** The intended requires: a list under a field's key that holds a name of
      no field is refused with a message naming the first such entry. */
  lemma UnknownRequireNamed(fields: seq<(string, Node)>, k: string, items: seq<Value>)
    requires HasField(fields, k)
    requires exists j | 0 <= j < |items| :: !HasField(fields, ToJsString(items[j]))
    ensures exists j | 0 <= j < |items| ::
              !HasField(fields, ToJsString(items[j]))
              && (forall i | 0 <= i < j :: HasField(fields, ToJsString(items[i])))
              && RequireNames(fields, k, Arr(items)) == Err("__require__[" + k + "]:" + ToJsString(items[j]))
  {
    var names := seq(|items|, j requires 0 <= j < |items| => ToJsString(items[j]));
    var missing := FirstUnknown(fields, names);
    var w :| 0 <= w < |items| && !HasField(fields, ToJsString(items[w]));
    assert !HasField(fields, names[w]);
    assert missing < |items|;
    assert forall i | 0 <= i < missing :: HasField(fields, ToJsString(items[i])) by {
      forall i | 0 <= i < missing ensures HasField(fields, ToJsString(items[i])) {
        assert names[i] == ToJsString(items[i]);
      }
    }
  }

  // ------------------------------------------- requires in toObject

  /** Parent.toObject as written: the base keys and then each field's
      object; the rules set by requires are not written. */
  function ParentObjectAsWritten(n: Node): (r: Value)
    requires n.Parent?
    ensures r.Obj?
  {
    Obj(Assign(BaseObject(n.base), seq(|n.fields|, i requires 0 <= i < |n.fields| => (n.fields[i].0, ToObject(n.fields[i].1)))))
  }
  /** A string node with nothing set. */
  function Leaf(): Node
  {
    Terminal(Base(false, []), StringType, None, None, Null, Null)
  }

  /** A Parent with the fields a and b, where a requires b. */
  function RequiringParent(): Node
  {
    Parent(Base(false, []), [("a", Leaf()), ("b", Leaf())], [("a", ["b"])])
  }

  /** As written, the object of a Parent whose a requires b has no
      `__require__` key, so the Parent built back from it requires nothing;
      the intended object has one. */
  lemma RequiresDropped()
    ensures !HasKey(ParentObjectAsWritten(RequiringParent()).entries, "__require__")
    ensures HasKey(ToObject(RequiringParent()).entries, "__require__")
  {
    var n := RequiringParent();
    var fs := seq(|n.fields|, i requires 0 <= i < |n.fields| => (n.fields[i].0, ToObject(n.fields[i].1)));
    assert BaseObject(n.base) == [];
    assert fs == [("a", ToObject(Leaf())), ("b", ToObject(Leaf()))];
    var o1 := Put([], "a", ToObject(Leaf()));
    assert Assign([], fs) == Assign(Put(o1, "b", ToObject(Leaf())), []);
  }

  /** Every key of every rule, and every name it requires, is a field. */
  predicate RulesNameFields(fields: seq<(string, Node)>, rules: seq<(string, seq<string>)>)
  {
    forall i | 0 <= i < |rules| ::
      HasField(fields, rules[i].0) && forall j | 0 <= j < |rules[i].1| :: HasField(fields, rules[i].1[j])
  }

  /** A list of field names written as strings reads back as those names. */
  lemma NamesRoundTrip(fields: seq<(string, Node)>, k: string, names: seq<string>, v: Value)
    requires HasField(fields, k) && forall j | 0 <= j < |names| :: HasField(fields, names[j])
    requires v.Arr? && |v.items| == |names| && forall j | 0 <= j < |names| :: v.items[j] == Str(names[j])
    ensures RequireNames(fields, k, v) == Ok(names)
  {
    var read := seq(|v.items|, j requires 0 <= j < |v.items| => ToJsString(v.items[j]));
    assert read == names;
  }

  /** The intended round trip of requires: the `__require__` value written
      for rules naming fields reads back as the same rules. */
  lemma {:induction false} RequireRoundTrip(fields: seq<(string, Node)>, rules: seq<(string, seq<string>)>)
    requires RulesNameFields(fields, rules)
    ensures RequireEntries(fields, RequireObject(rules).entries) == Ok(rules)
  {
    if rules != [] {
      var init := rules[..|rules| - 1];
      var last := rules[|rules| - 1];
      var req := RequireObject(rules).entries;
      assert req[..|req| - 1] == RequireObject(init).entries;
      assert RulesNameFields(fields, init) by {
        forall i | 0 <= i < |init| ensures HasField(fields, init[i].0) && forall j | 0 <= j < |init[i].1| :: HasField(fields, init[i].1[j]) {
          assert init[i] == rules[i];
        }
      }
      RequireRoundTrip(fields, init);
      NamesRoundTrip(fields, last.0, last.1, req[|req| - 1].1);
      assert rules == init + [last];
    }
  }

  /** The intended Parent.toObject: rules naming fields are written under
      `__require__`, and requires reads the same rules back from it. */
  lemma ParentKeepsRequires(n: Node)
    requires n.Parent? && n.rules != [] && RulesNameFields(n.fields, n.rules)
    ensures HasKey(ToObject(n).entries, "__require__")
    ensures ReadRequires(n.fields, Get(ToObject(n).entries, "__require__")) == Ok(n.rules)
  {
    RequireRoundTrip(n.fields, n.rules);
  }
  // ------------------------------------------ errors of children in clean

  /* clean as written is Clean with aggregate false: the test
     `err.name === 'NodeException'` in the catch blocks of ArrayNode, Hash
     and Parent is never true, since NodeException leaves `name` at the
     'Error' it inherits. The model runs Clean with aggregate true. */

  /** A required list of strings. */
  function StringList(): Node
  {
    ArrayNode(Base(false, []), false, None, None, Leaf())
  }

  /** A required list of required lists of strings. */
  function ListOfLists(): Node
  {
    ArrayNode(Base(false, []), false, None, None, StringList())
  }

  /** As written, two missing elements of a list are reported as the first
      one alone; the intended clean reports both. */
  lemma ListErrorsLost(host: Host)
    ensures Clean(host, ListOfLists(), Arr([Null, Null]), [], false)
            == NodeError([Pair(PathOf([Index(0)]), "missing")])
    ensures Clean(host, ListOfLists(), Arr([Null, Null]), [], true)
            == NodeError([Pair(PathOf([Index(0)]), "missing"), Pair(PathOf([Index(1)]), "missing")])
  {
    var n, items := ListOfLists(), [Null, Null];
    assert CleanItems(host, n, items, [], false, 1) == ListHalt(NodeError([Pair(PathOf([Index(0)]), "missing")]));
    assert CleanItems(host, n, items, [], true, 1) == ListScan([], [Pair(PathOf([Index(0)]), "missing")]);
  }

  /** As written, a Parent whose field throws a NodeException reports
      'not a valid node' in its place; the intended clean keeps the field's
      own errors. */
  lemma FieldErrorsLost(host: Host)
    ensures Clean(host, Parent(Base(false, []), [("a", StringList())], []), Obj([("a", Null)]), [], false)
            == NodeError([Pair(PathOf(["a"]), "not a valid node")])
    ensures Clean(host, Parent(Base(false, []), [("a", StringList())], []), Obj([("a", Null)]), [], true)
            == NodeError([Group([Pair(PathOf(["a"]), "missing")])])
  {
    var n := Parent(Base(false, []), [("a", StringList())], []);
    assert KeyIndex(n.fields, "a") == 0;
  }

  /** The NodeException errors of the first k elements of a list, in order. */
  function ElementErrors(host: Host, n: Node, items: seq<Value>, level: seq<string>, k: nat): (es: seq<ErrorEntry>)
    requires n.ArrayNode? && k <= |items|
  {
    if k == 0 then []
    else
      var c := Clean(host, n.child, items[k - 1], level + [Index(k - 1)], true);
      ElementErrors(host, n, items, level, k - 1) + (if c.NodeError? then c.errors else [])
  }

  /** No element of the first k throws anything but a NodeException. */
  predicate NoneThrows(host: Host, n: Node, items: seq<Value>, level: seq<string>, k: nat)
    requires n.ArrayNode? && k <= |items|
  {
    forall i | 0 <= i < k :: !Clean(host, n.child, items[i], level + [Index(i)], true).Thrown?
  }

  /** With aggregate, the loop over a list keeps going past failing elements
      and holds the errors of every one of them. */
  lemma {:induction false} ItemsGatherErrors(host: Host, n: Node, items: seq<Value>, level: seq<string>, k: nat)
    requires n.ArrayNode? && k <= |items| && NoneThrows(host, n, items, level, k)
    ensures CleanItems(host, n, items, level, true, k).ListScan?
    ensures CleanItems(host, n, items, level, true, k).errors == ElementErrors(host, n, items, level, k)
  {
    if k > 0 {
      ItemsGatherErrors(host, n, items, level, k - 1);
    }
  }

  /** The intended ArrayNode.clean: when no element throws anything but a
      NodeException and some fail, the NodeException of the list holds the
      errors of every failing element, in order. */
  lemma ListReportsEveryError(host: Host, n: Node, items: seq<Value>, level: seq<string>)
    requires n.ArrayNode? && NoneThrows(host, n, items, level, |items|)
    requires ElementErrors(host, n, items, level, |items|) != []
    ensures Clean(host, n, Arr(items), level, true) == NodeError(ElementErrors(host, n, items, level, |items|))
  {
    ItemsGatherErrors(host, n, items, level, |items|);
  }
}

=== FILE: helpers.dfy ===
/** The two helpers of helpers.ts that the nodes use: strToInt, which reads a
    string in hex, octal or decimal after its prefix, and compareIPs, which
    orders dotted addresses octet by octet. */
module Helpers {
  import opened Wrappers
  import opened Numbers
  import opened Strings
  import opened Patterns
  import opened JsNumbers

  // --------------------------------------------------------------- strToInt

  /** strToInt: a leading 0 followed by x or X and more reads as hex, any other
      leading 0 with more after it as octal, and everything else as decimal. */
  function StrToInt(s: string): (r: Option<int>)
  {
    if |s| > 1 && s[0] == '0' then
      if (s[1] == 'x' || s[1] == 'X') && |s| > 2 then ParseInt(s, 16) else ParseInt(s, 8)
    else ParseInt(s, 10)
  }

  lemma RadixRunAll(w: string, radix: nat)
    requires AllRadixDigits(w, radix)
    ensures RadixRun(w, radix) == |w|
  {
  }

  lemma ReadRadixAll(neg: bool, w: string, radix: nat)
    requires |w| >= 1 && AllRadixDigits(w, radix)
    ensures ReadRadix(neg, w, radix) == Some(if neg then -(ValueIn(w, radix) as int) else ValueIn(w, radix))
  {
    RadixRunAll(w, radix);
    var k := RadixRun(w, radix);
    assert k == |w| && w[..k] == w;
  }

  lemma NotSpace(c: char, radix: nat)
    requires IsRadixDigit(c, radix)
    ensures !IsJsSpace(c) && c != '-' && c != '+'
  {
  }

  /** parseInt reads a whole string of digits (without a 0x prefix) as their value. */
  lemma ParseIntDigits(d: string, radix: nat)
    requires radix == 8 || radix == 10 || radix == 16
    requires |d| >= 1 && AllRadixDigits(d, radix)
    ensures ParseInt(d, radix) == Some(ValueIn(d, radix))
  {
    NotSpace(d[0], radix);
    if |d| >= 2 {
      assert IsRadixDigit(d[1], radix);
    }
    ParseIntPlain(d, radix);
    ReadRadixAll(false, d, radix);
  }

  /** Text that starts with neither white space nor a sign nor 0x reads as its digit run. */
  lemma ParseIntPlain(d: string, radix: nat)
    requires radix == 8 || radix == 10 || radix == 16
    requires |d| >= 1 && !IsJsSpace(d[0]) && d[0] != '-' && d[0] != '+'
    requires |d| >= 2 && d[0] == '0' ==> d[1] != 'x' && d[1] != 'X'
    ensures ParseInt(d, radix) == ReadRadix(false, d, radix)
  {
    assert Unsign(d) == (false, d);
    assert StripHexPrefix(d, radix) == d;
  }

  lemma {:induction false} ValueInLeadingZero(o: string, radix: nat)
    requires radix >= 1 && AllRadixDigits(o, radix)
    ensures AllRadixDigits("0" + o, radix)
    ensures ValueIn("0" + o, radix) == ValueIn(o, radix)
  {
    assert IsRadixDigit('0', radix);
    if o != [] {
      var t, c := o[..|o| - 1], o[|o| - 1];
      assert "0" + o == ("0" + t) + [c];
      assert o == t + [c];
      ValueInLeadingZero(t, radix);
      ValueInSnoc("0" + t, c, radix);
      ValueInSnoc(t, c, radix);
    }
  }

  /** "0x" or "0X" followed by hex digits reads as hex. */
  lemma StrToIntHex(x: char, h: string)
    requires x == 'x' || x == 'X'
    requires |h| >= 1 && AllRadixDigits(h, 16)
    ensures StrToInt(['0', x] + h) == Some(ValueIn(h, 16))
  {
    var s := ['0', x] + h;
    assert Unsign(s) == (false, s);
    assert StripHexPrefix(s, 16) == h;
    ReadRadixAll(false, h, 16);
  }

  /** A leading 0 followed by octal digits reads as octal. */
  lemma StrToIntOctal(o: string)
    requires |o| >= 1 && AllRadixDigits(o, 8)
    ensures StrToInt("0" + o) == Some(ValueIn(o, 8))
  {
    assert IsRadixDigit(o[0], 8);
    ValueInLeadingZero(o, 8);
    ParseIntDigits("0" + o, 8);
  }

  /** Digits without a leading zero, with an optional sign, read as decimal. */
  lemma StrToIntDecimal(sign: string, d: string)
    requires sign == "" || sign == "-" || sign == "+"
    requires NoLeadingZero(d) && AllDigits(d)
    ensures StrToInt(sign + d) == Some(if sign == "-" then -(DecimalValue(d) as int) else DecimalValue(d))
  {
    if sign == "" {
      assert sign + d == d;
      ParseIntDigits(d, 10);
    } else {
      StrToIntSigned(sign[0], d);
      assert sign + d == [sign[0]] + d;
    }
  }

  lemma StrToIntSigned(sign: char, d: string)
    requires sign == '-' || sign == '+'
    requires |d| >= 1 && AllDigits(d)
    ensures StrToInt([sign] + d) == Some(if sign == '-' then -(DecimalValue(d) as int) else DecimalValue(d))
  {
    var s := [sign] + d;
    assert s[0] == sign && s[1..] == d;
    assert !IsJsSpace(sign);
    assert StrToInt(s) == ParseInt(s, 10);
    assert Unsign(s) == (sign == '-', d);
    assert StripHexPrefix(d, 10) == d;
    ReadRadixAll(sign == '-', d, 10);
  }

  /** Every string the int pattern admits has a number (strToInt never gives NaN there). */
  lemma IntTextHasValue(s: string)
    requires IsIntText(s)
    ensures StrToInt(s).Some?
  {
    if s == "0" {
      assert StrToInt(s) == ParseInt(s, 10);
      ParseIntDigits(s, 10);
    } else if |s| > 2 && s[..2] == "0x" && AllLowerHex(s[2..]) {
      assert forall i | 0 <= i < |s[2..]| :: IsRadixDigit(s[2..][i], 16);
      assert s == ['0', 'x'] + s[2..];
      StrToIntHex('x', s[2..]);
    } else if |s| >= 2 && s[0] == '0' && AllOctal(s[1..]) {
      assert forall i | 0 <= i < |s[1..]| :: IsRadixDigit(s[1..][i], 8);
      assert s == "0" + s[1..];
      StrToIntOctal(s[1..]);
    } else {
      var sign := if s[0] == '+' || s[0] == '-' then s[..1] else "";
      assert s == sign + s[|sign|..];
      StrToIntDecimal(sign, s[|sign|..]);
    }
  }

  // ------------------------------------------------------------- compareIPs

  /** parseInt(part, 10) of each part, in order: the array compareIPs builds. */
  function ParseAll(parts: seq<string>): (r: seq<Option<int>>)
    ensures |r| == |parts|
  {
    if parts == [] then [] else ParseAll(parts[..|parts| - 1]) + [ParseInt(parts[|parts| - 1], 10)]
  }

  lemma ParseAllSnoc(parts: seq<string>, j: nat)
    requires j < |parts|
    ensures ParseAll(parts[..j + 1]) == ParseAll(parts[..j]) + [ParseInt(parts[j], 10)]
  {
    assert parts[..j + 1][..j] == parts[..j];
  }

  function Octets(s: string): seq<Option<int>> { ParseAll(Split(s, '.')) }

  /** aFirst[i]: an element of the array, or undefined past its end. */
  function At(a: seq<Option<int>>, i: nat): Option<int> { if i < |a| then a[i] else None }

  /** `x > y` between numbers that may be NaN or undefined: false unless both are numbers. */
  predicate Above(x: Option<int>, y: Option<int>) { x.Some? && y.Some? && x.value > y.value }

  /** The four-step scan of compareIPs from step `i` on. */
  function ScanFrom(a: seq<Option<int>>, b: seq<Option<int>>, i: nat): (r: int)
    decreases 4 - i
  {
    if i >= 4 then 0
    else if Above(At(a, i), At(b, i)) then 1
    else if Above(At(b, i), At(a, i)) then -1
    else ScanFrom(a, b, i + 1)
  }

  /** What compareIPs(first, second) returns. */
  function IpOrder(first: string, second: string): int
  {
    if first == second then 0 else ScanFrom(Octets(first), Octets(second), 0)
  }

  method ParseParts(s: string) returns (a: seq<Option<int>>)
    ensures a == Octets(s)
  {
    a := [];
    var parts := Split(s, '.');
    for j := 0 to |parts|
      invariant a == ParseAll(parts[..j])
    {
      ParseAllSnoc(parts, j);
      a := a + [ParseInt(parts[j], 10)];
    }
    assert parts[..|parts|] == parts;
  }

  /** compareIPs: 0 for the same text, else the sign of the first octet that differs. */
  method CompareIPs(first: string, second: string) returns (r: int)
    ensures r == IpOrder(first, second)
    ensures r == -1 || r == 0 || r == 1
  {
    if first == second {
      return 0;
    }
    var aFirst := ParseParts(first);
    var aSecond := ParseParts(second);
    for i := 0 to 4
      invariant ScanFrom(aFirst, aSecond, 0) == ScanFrom(aFirst, aSecond, i)
    {
      if Above(At(aFirst, i), At(aSecond, i)) {
        return 1;
      } else if Above(At(aSecond, i), At(aFirst, i)) {
        return -1;
      }
    }
    return 0;
  }

  lemma {:induction false} ScanAntisymmetric(a: seq<Option<int>>, b: seq<Option<int>>, i: nat)
    ensures ScanFrom(a, b, i) == -ScanFrom(b, a, i)
    ensures ScanFrom(a, b, i) in {-1, 0, 1}
    decreases 4 - i
  {
    if i < 4 {
      ScanAntisymmetric(a, b, i + 1);
    }
  }

  /** Swapping the arguments of compareIPs negates the result, for any two strings. */
  lemma IpOrderAntisymmetric(first: string, second: string)
    ensures IpOrder(first, second) == -IpOrder(second, first)
    ensures IpOrder(first, second) in {-1, 0, 1}
  {
    ScanAntisymmetric(Octets(first), Octets(second), 0);
  }

  /** The numeric octets of an address the ip pattern admits. */
  function OctetValues(s: string): (r: seq<nat>)
    requires IsIp(s)
    ensures |r| == 4 && forall k | 0 <= k < 4 :: r[k] == DecimalValue(Split(s, '.')[k])
  {
    var p := Split(s, '.');
    [DecimalValue(p[0]), DecimalValue(p[1]), DecimalValue(p[2]), DecimalValue(p[3])]
  }

  lemma {:induction false} ParseAllAt(parts: seq<string>, i: nat)
    requires i < |parts|
    ensures ParseAll(parts)[i] == ParseInt(parts[i], 10)
  {
    var init := parts[..|parts| - 1];
    assert ParseAll(parts) == ParseAll(init) + [ParseInt(parts[|parts| - 1], 10)];
    if i < |init| {
      ParseAllAt(init, i);
      assert parts[i] == init[i];
    }
  }

  lemma OctetsOfIp(s: string)
    requires IsIp(s)
    ensures |Octets(s)| == 4
    ensures forall i | 0 <= i < 4 :: Octets(s)[i] == Some(OctetValues(s)[i] as int)
  {
    var p := Split(s, '.');
    forall i | 0 <= i < 4
      ensures Octets(s)[i] == Some(OctetValues(s)[i] as int)
    {
      ParseAllAt(p, i);
      assert IsOctet(p[i]);
      DigitsInRadix10(p[i]);
      ParseIntDigits(p[i], 10);
      assert OctetValues(s)[i] == DecimalValue(p[i]);
    }
  }

  lemma {:induction false} ScanSkips(a: seq<Option<int>>, b: seq<Option<int>>, i: nat, j: nat)
    requires i <= j < 4
    requires forall k | i <= k < j :: At(a, k).Some? && At(a, k) == At(b, k)
    ensures ScanFrom(a, b, i) == ScanFrom(a, b, j)
    decreases j - i
  {
    if i < j {
      ScanSkips(a, b, i + 1, j);
    }
  }

  lemma ScanFirstDifference(a: seq<Option<int>>, b: seq<Option<int>>, x: seq<nat>, y: seq<nat>, j: nat)
    requires |a| == |b| == |x| == |y| == 4 && j < 4
    requires forall k | 0 <= k < 4 :: a[k] == Some(x[k] as int) && b[k] == Some(y[k] as int)
    requires forall k | 0 <= k < j :: x[k] == y[k]
    requires x[j] != y[j]
    ensures ScanFrom(a, b, 0) == if x[j] > y[j] then 1 else -1
  {
    ScanSkips(a, b, 0, j);
  }

  /** Between two addresses of the ip pattern, compareIPs follows the first octet
      whose number differs. */
  lemma IpOrderFirstDifference(first: string, second: string, j: nat)
    requires IsIp(first) && IsIp(second) && j < 4
    requires forall k | 0 <= k < j :: OctetValues(first)[k] == OctetValues(second)[k]
    requires OctetValues(first)[j] != OctetValues(second)[j]
    ensures IpOrder(first, second) == if OctetValues(first)[j] > OctetValues(second)[j] then 1 else -1
  {
    assert first != second;
    OctetsOfIp(first);
    OctetsOfIp(second);
    ScanFirstDifference(Octets(first), Octets(second), OctetValues(first), OctetValues(second), j);
  }

  /** Between two addresses of the ip pattern, compareIPs is 0 exactly when they
      are the same text. */
  lemma IpOrderZeroIffSame(first: string, second: string)
    requires IsIp(first) && IsIp(second)
    ensures IpOrder(first, second) == 0 <==> first == second
  {
    if first != second {
      var p, q := Split(first, '.'), Split(second, '.');
      if forall k | 0 <= k < 4 :: OctetValues(first)[k] == OctetValues(second)[k] {
        forall k | 0 <= k < 4
          ensures p[k] == q[k]
        {
          assert IsOctet(p[k]) && IsOctet(q[k]);
          assert OctetValues(first)[k] == OctetValues(second)[k];
          ValueDigits(p[k]);
          ValueDigits(q[k]);
        }
        assert p == q;
        JoinSplit(first, '.');
        JoinSplit(second, '.');
        assert false;
      }
      var j :| 0 <= j < 4 && OctetValues(first)[j] != OctetValues(second)[j];
      while j > 0 && OctetValues(first)[j - 1] != OctetValues(second)[j - 1]
        invariant 0 <= j < 4 && OctetValues(first)[j] != OctetValues(second)[j]
      {
        j := j - 1;
      }
      FirstDifference(first, second, j);
    }
  }

  lemma FirstDifference(first: string, second: string, j: nat)
    requires IsIp(first) && IsIp(second) && j < 4
    requires OctetValues(first)[j] != OctetValues(second)[j]
    ensures IpOrder(first, second) != 0
  {
    var i := j;
    while exists k | 0 <= k < i :: OctetValues(first)[k] != OctetValues(second)[k]
      invariant 0 <= i <= j && OctetValues(first)[i] != OctetValues(second)[i]
      decreases i
    {
      var k :| 0 <= k < i && OctetValues(first)[k] != OctetValues(second)[k];
      i := k;
    }
    IpOrderFirstDifference(first, second, i);
  }
}

=== FILE: js_numbers.dfy ===
/** The JavaScript conversions from text to number that the library calls:
    parseInt with a radix, parseFloat, and the ToNumber of a string that
    relational comparison applies. NaN is None. */
module JsNumbers {
  import opened Wrappers
  import opened Numbers
  import opened Strings

  /** The length of the longest prefix of `s` made of digits of `radix`. */
  function RadixRun(s: string, radix: nat): (k: nat)
    ensures k <= |s| && AllRadixDigits(s[..k], radix)
    ensures k < |s| ==> !IsRadixDigit(s[k], radix)
  {
    if s == [] || !IsRadixDigit(s[0], radix) then 0
    else
      var k := 1 + RadixRun(s[1..], radix);
      assert forall i | 1 <= i < k :: s[..k][i] == s[1..][..k - 1][i - 1];
      k
  }

  /** Splits an optional leading sign off `t`: whether it was a minus, and the rest. */
  function Unsign(t: string): (r: (bool, string))
    ensures |r.1| <= |t| && r.1 == t[|t| - |r.1|..]
  {
    if |t| > 0 && (t[0] == '-' || t[0] == '+') then (t[0] == '-', t[1..]) else (false, t)
  }

  /** parseInt(s, radix) for the radixes the library uses: white space is skipped,
      then a sign, then for radix 16 a 0x or 0X prefix; the longest run of digits
      is read, and no digit at all is NaN. */
  function ParseInt(s: string, radix: nat): (r: Option<int>)
    requires radix == 8 || radix == 10 || radix == 16
    decreases |s|
  {
    if s != [] && IsJsSpace(s[0]) then ParseInt(s[1..], radix)
    else
      var t := Unsign(s);
      ReadRadix(t.0, StripHexPrefix(t.1, radix), radix)
  }

  function StripHexPrefix(u: string, radix: nat): string
  {
    if radix == 16 && |u| >= 2 && u[0] == '0' && (u[1] == 'x' || u[1] == 'X') then u[2..] else u
  }

  /** The longest run of digits at the head of `w`, negated when `neg`; NaN when empty. */
  function ReadRadix(neg: bool, w: string, radix: nat): Option<int>
  {
    var k := RadixRun(w, radix);
    if k == 0 then None
    else
      var v: int := ValueIn(w[..k], radix);
      Some(if neg then -v else v)
  }

  /** The longest prefix of `u` that is an unsigned decimal literal
      (digits, an optional point and fraction, an optional exponent):
      its value and its length. */
  function DecimalPrefix(u: string): (r: Option<(Number, nat)>)
    ensures r.Some? ==> r.value.1 <= |u|
  {
    var a := RadixRun(u, 10);
    var dot := a < |u| && u[a] == '.';
    var f := if dot then RadixRun(u[a + 1..], 10) else 0;
    if a + f == 0 then None
    else
      var ip, fp := u[..a], if dot then u[a + 1..][..f] else "";
      var end := if dot then a + 1 + f else a;
      var m := ValueIn(ip, 10) * Pow10(|fp|) + ValueIn(fp, 10);
      var (e, used) := ExponentPrefix(u[end..]);
      if e >= 0 then Some((Number(m * Pow10(e), |fp|), end + used))
      else Some((Number(m, |fp| - e), end + used))
  }

  /** An exponent `e` or `E`, an optional sign and at least one digit at the head
      of `u`: its value and length, or (0, 0) when there is none. */
  function ExponentPrefix(u: string): (r: (int, nat))
    ensures r.1 <= |u|
  {
    if |u| >= 2 && (u[0] == 'e' || u[0] == 'E') then
      var (neg, v) := Unsign(u[1..]);
      var k := RadixRun(v, 10);
      if k == 0 then (0, 0)
      else
        var x: int := ValueIn(v[..k], 10);
        ((if neg then -x else x), |u| - |v| + k)
    else (0, 0)
  }

  /** parseFloat(s): white space skipped, an optional sign, then the longest
      decimal literal; no literal is NaN. */
  function ParseFloat(s: string): (r: Option<Number>)
  {
    var (neg, u) := Unsign(TrimStart(s));
    match DecimalPrefix(u)
    case None => None
    case Some((n, _)) => Some(if neg then Neg(n) else n)
  }

  /** A whole string that is one signed decimal literal, as decimal.js reads text. */
  function DecimalLiteral(t: string): (r: Option<Number>)
  {
    var (neg, u) := Unsign(t);
    match DecimalPrefix(u)
    case Some((n, k)) => if k == |u| then Some(if neg then Neg(n) else n) else None
    case None => None
  }

  /** ToNumber of a string: white space around it is ignored, the empty string is 0,
      0x/0o/0b integers are read in their radix, and otherwise the rest must be
      one signed decimal literal. */
  function StringToNumber(s: string): (r: Option<Number>)
  {
    var t := TrimEnd(TrimStart(s));
    if t == [] then Some(Int(0))
    else if |t| > 2 && t[0] == '0' && (t[1] in "xXoObB") then
      var radix := if t[1] in "xX" then 16 else if t[1] in "oO" then 8 else 2;
      if AllRadixDigits(t[2..], radix) then Some(Int(ValueIn(t[2..], radix))) else None
    else DecimalLiteral(t)
  }
}

=== FILE: numbers.dfy ===
/** Exact decimal numbers: the values that JavaScript numbers and decimal.js
    values take in this model, their digits, arithmetic and plain rendering. */
module Numbers {
  import opened Wrappers

  // ------------------------------------------------------------------ digits

  predicate IsDigit(c: char) { '0' <= c <= '9' }

  predicate AllDigits(s: string) { forall i | 0 <= i < |s| :: IsDigit(s[i]) }

  /** The value of `c` as a digit of a radix up to 36: 0-9, then a-z or A-Z. */
  function DigitOf(c: char): (r: Option<nat>)
    ensures r.Some? ==> r.value < 36
    ensures IsDigit(c) <==> (r.Some? && r.value < 10)
  {
    if '0' <= c <= '9' then Some(c as int - '0' as int)
    else if 'a' <= c <= 'z' then Some(c as int - 'a' as int + 10)
    else if 'A' <= c <= 'Z' then Some(c as int - 'A' as int + 10)
    else None
  }

  predicate IsRadixDigit(c: char, radix: nat) { DigitOf(c).Some? && DigitOf(c).value < radix }

  predicate AllRadixDigits(s: string, radix: nat) { forall i | 0 <= i < |s| :: IsRadixDigit(s[i], radix) }

  /** The number that the digit string `s` spells in `radix`, most significant digit first. */
  function ValueIn(s: string, radix: nat): nat
    requires AllRadixDigits(s, radix)
    decreases |s|
  {
    if s == [] then 0 else ValueIn(s[..|s| - 1], radix) * radix + DigitOf(s[|s| - 1]).value
  }

  function DecimalValue(s: string): nat
    requires AllDigits(s)
  {
    ValueIn(s, 10)
  }

  function DigitChar(d: nat): (c: char)
    requires d < 10
    ensures IsDigit(c) && DigitOf(c) == Some(d)
  {
    (d + '0' as int) as char
  }

  /** The decimal digits of `n` with no leading zero, as String(n) writes an integer. */
  function Digits(n: nat): (r: string)
    ensures |r| >= 1 && AllDigits(r)
  {
    if n < 10 then [DigitChar(n)] else Digits(n / 10) + [DigitChar(n % 10)]
  }

  /** The `w` lowest decimal digits of `n`, padded with zeros on the left. */
  function FixedDigits(n: nat, w: nat): (r: string)
    ensures |r| == w && AllDigits(r)
  {
    if w == 0 then [] else FixedDigits(n / 10, w - 1) + [DigitChar(n % 10)]
  }

  function Zeros(k: nat): (r: string)
    ensures |r| == k && forall i | 0 <= i < k :: r[i] == '0'
  {
    if k == 0 then [] else Zeros(k - 1) + "0"
  }

  function Pow10(e: nat): (r: nat)
    ensures r >= 1
  {
    if e == 0 then 1 else 10 * Pow10(e - 1)
  }

  predicate NoLeadingZero(s: string) { s == "0" || (|s| >= 1 && s[0] != '0') }

  lemma ValueInSnoc(s: string, c: char, radix: nat)
    requires AllRadixDigits(s, radix) && IsRadixDigit(c, radix)
    ensures AllRadixDigits(s + [c], radix)
    ensures ValueIn(s + [c], radix) == ValueIn(s, radix) * radix + DigitOf(c).value
  {
    assert (s + [c])[..|s|] == s;
  }

  lemma DigitsInRadix10(s: string)
    requires AllDigits(s)
    ensures AllRadixDigits(s, 10)
  {
    forall i | 0 <= i < |s|
      ensures IsRadixDigit(s[i], 10)
    {
      assert IsDigit(s[i]);
    }
  }

  lemma DigitCharOf(c: char)
    requires IsDigit(c)
    ensures DigitChar(DigitOf(c).value) == c
  {
  }

  /** Digits is a right inverse of DecimalValue. */
  lemma {:induction false} DigitsValue(n: nat)
    ensures DecimalValue(Digits(n)) == n
  {
    if n >= 10 {
      DigitsValue(n / 10);
      ValueInSnoc(Digits(n / 10), DigitChar(n % 10), 10);
    } else {
      assert Digits(n) == [] + [DigitChar(n)];
      ValueInSnoc([], DigitChar(n), 10);
    }
  }

  lemma {:induction false} DigitsNoLeadingZero(n: nat)
    ensures NoLeadingZero(Digits(n))
    ensures n >= 1 ==> Digits(n)[0] != '0'
  {
    if n >= 10 {
      DigitsNoLeadingZero(n / 10);
    }
  }

  lemma {:induction false} LeadingDigitBound(s: string)
    requires AllDigits(s) && |s| >= 1 && s[0] != '0'
    ensures DecimalValue(s) >= Pow10(|s| - 1)
  {
    var t := s[..|s| - 1];
    ValueInSnoc(t, s[|s| - 1], 10);
    assert s == t + [s[|s| - 1]];
    if |t| >= 1 {
      assert t[0] == s[0];
      LeadingDigitBound(t);
    }
  }

  /** Digits undoes DecimalValue on strings without a leading zero. */
  lemma {:induction false} ValueDigits(s: string)
    requires AllDigits(s) && NoLeadingZero(s)
    ensures Digits(DecimalValue(s)) == s
  {
    var t, c := s[..|s| - 1], s[|s| - 1];
    assert s == t + [c];
    ValueInSnoc(t, c, 10);
    DigitCharOf(c);
    var d := DigitOf(c).value;
    if t == [] {
      assert DecimalValue(s) == d;
    } else {
      assert t[0] == s[0] && t[0] != '0';
      LeadingDigitBound(t);
      ValueDigits(t);
      var v := DecimalValue(t);
      assert DecimalValue(s) == v * 10 + d;
      assert (v * 10 + d) / 10 == v && (v * 10 + d) % 10 == d;
    }
  }

  lemma DivModUnique(n: int, m: int, q: int, r: int)
    requires m > 0 && n == m * q + r && 0 <= r < m
    ensures n / m == q && n % m == r
  {
    var q', r' := n / m, n % m;
    assert m * q' + r' == m * q + r;
    if q' < q {
      assert m * (q - q') == r' - r;
      MulAtLeast(m, q - q');
    } else if q' > q {
      assert m * (q' - q) == r - r';
      MulAtLeast(m, q' - q);
    }
  }

  lemma MulAtLeast(m: int, k: int)
    requires m > 0 && k >= 1
    ensures m * k >= m
  {
  }

  lemma ModTen(n: nat, p: nat)
    requires p >= 1
    ensures n % (10 * p) == (n / 10) % p * 10 + n % 10
    ensures n / (10 * p) == (n / 10) / p
  {
    var q, r := n / 10, n % 10;
    var a, b := q / p, q % p;
    assert n == 10 * q + r;
    assert q == p * a + b;
    assert n == (10 * p) * a + (10 * b + r);
    DivModUnique(n, 10 * p, a, 10 * b + r);
  }

  lemma {:induction false} FixedDigitsValue(n: nat, w: nat)
    ensures DecimalValue(FixedDigits(n, w)) == n % Pow10(w)
  {
    if w > 0 {
      FixedDigitsValue(n / 10, w - 1);
      ValueInSnoc(FixedDigits(n / 10, w - 1), DigitChar(n % 10), 10);
      ModTen(n, Pow10(w - 1));
    }
  }

  /** FixedDigits undoes DecimalValue at the string's own width, leading zeros included. */
  lemma {:induction false} ValueFixedDigits(s: string)
    requires AllDigits(s)
    ensures FixedDigits(DecimalValue(s), |s|) == s
  {
    if s != [] {
      var t, c := s[..|s| - 1], s[|s| - 1];
      assert s == t + [c];
      ValueInSnoc(t, c, 10);
      DigitCharOf(c);
      ValueFixedDigits(t);
      var v, d := DecimalValue(t), DigitOf(c).value;
      assert (v * 10 + d) / 10 == v && (v * 10 + d) % 10 == d;
    }
  }

  lemma {:induction false} ValueBound(s: string)
    requires AllDigits(s)
    ensures DecimalValue(s) < Pow10(|s|)
  {
    if s != [] {
      var t := s[..|s| - 1];
      assert s == t + [s[|s| - 1]];
      ValueInSnoc(t, s[|s| - 1], 10);
      ValueBound(t);
    }
  }

  // ----------------------------------------------------------------- numbers

  /** A finite number, exactly `mant / 10^exp`. */
  datatype Number = Number(mant: int, exp: nat)

  function Int(i: int): Number { Number(i, 0) }

  /** -1, 0 or 1 as `a` is below, equal to or above `b`. */
  function Compare(a: Number, b: Number): (r: int)
    ensures r == -1 || r == 0 || r == 1
  {
    var x, y := a.mant * Pow10(b.exp), b.mant * Pow10(a.exp);
    if x < y then -1 else if x == y then 0 else 1
  }

  predicate Eq(a: Number, b: Number) { Compare(a, b) == 0 }

  predicate Less(a: Number, b: Number) { Compare(a, b) == -1 }

  predicate IsNegative(n: Number) { n.mant < 0 }

  predicate IsIntegral(n: Number) { n.mant % Pow10(n.exp) == 0 }

  function Neg(a: Number): Number { Number(-a.mant, a.exp) }

  function Abs(a: Number): Number { if a.mant < 0 then Neg(a) else a }

  function Add(a: Number, b: Number): Number
  {
    Number(a.mant * Pow10(b.exp) + b.mant * Pow10(a.exp), a.exp + b.exp)
  }

  function Sub(a: Number, b: Number): Number { Add(a, Neg(b)) }

  function Mul(a: Number, b: Number): Number { Number(a.mant * b.mant, a.exp + b.exp) }

  /** The greatest integer not above `a` (Dafny's division by a positive divisor floors). */
  function Floor(a: Number): Number { Int(a.mant / Pow10(a.exp)) }

  function Ceil(a: Number): Number { Neg(Floor(Neg(a))) }

  function Trunc(a: Number): Number { if a.mant < 0 then Ceil(a) else Floor(a) }

  /** Rounds to `dp` fraction digits, ties away from zero (decimal.js ROUND_HALF_UP). */
  function RoundTo(a: Number, dp: nat): (r: Number)
    ensures r.exp == dp
    ensures a.mant >= 0 ==> r.mant >= 0
  {
    if a.exp <= dp then
      var p: nat := Pow10(dp - a.exp);
      Number(a.mant * p, dp)
    else
      var q := HalfUpQuotient(if a.mant < 0 then -a.mant else a.mant, Pow10(a.exp - dp));
      Number(if a.mant < 0 then -(q as int) else q, dp)
  }

  /** m / d rounded to the nearest integer, ties upwards. */
  function HalfUpQuotient(m: nat, d: nat): nat
    requires d >= 1
  {
    (2 * m + d) / (2 * d)
  }

  predicate Canonical(n: Number) { n.exp == 0 || n.mant % 10 != 0 }

  /** The same value with trailing fraction zeros removed. */
  function Normalize(n: Number): (r: Number)
    ensures Canonical(r) && r.exp <= n.exp
    decreases n.exp
  {
    if n.exp > 0 && n.mant % 10 == 0 then Normalize(Number(n.mant / 10, n.exp - 1)) else n
  }

  /** decimalPlaces(): the fraction digits the value needs. */
  function DecimalPlaces(n: Number): nat { Normalize(n).exp }

  /** The digits of m / 10^e before the point. */
  function IntegerPart(m: nat, e: nat): nat
  {
    var p := Pow10(e);
    DivNat(m, p);
    m / p
  }

  /** A natural divided by a positive number is a natural. */
  lemma DivNat(m: nat, p: nat)
    requires p >= 1
    ensures m / p >= 0
  {
  }

  /** The plain text of a number: optional minus, integer digits, and the fraction
      without trailing zeros after a point when there is one. */
  function Render(n: Number): (s: string)
  {
    var c := Normalize(n);
    var m: nat := if c.mant < 0 then -c.mant else c.mant;
    (if c.mant < 0 then "-" else "") + Digits(IntegerPart(m, c.exp))
      + (if c.exp == 0 then "" else "." + FixedDigits(m, c.exp))
  }

  lemma {:induction false} NormalizeEq(n: Number)
    ensures Eq(Normalize(n), n)
    decreases n.exp
  {
    if n.exp > 0 && n.mant % 10 == 0 {
      var k := Number(n.mant / 10, n.exp - 1);
      NormalizeEq(k);
      var r := Normalize(k);
      var p, q := Pow10(k.exp), Pow10(r.exp);
      assert r.mant * p == k.mant * q;
      assert Pow10(n.exp) == 10 * p;
      assert r.mant * (10 * p) == 10 * (r.mant * p);
      assert n.mant * q == 10 * (k.mant * q);
    }
  }
}

=== FILE: objects.dfy ===
/** toObject of every kind of node: the definition a node writes itself back
    out as. A container writes its own keys, then its base keys, then the keys
    of its child's object. */
module Serialise {
  import opened Wrappers
  import Numbers
  import opened Values
  import opened Schema
  import opened BaseNodes
  import opened Terminals

  /** `if (this._minimum)`: a bound that is set and not zero. */
  predicate IsSet(b: Option<int>)
  {
    b.Some? && b.value != 0
  }

  /** The `__array__` value of ArrayNode.toObject: the type alone, or an
      object with the type and each bound that is set and not zero. */
  function ArrayValue(n: Node): (r: Value)
    requires n.ArrayNode?
    ensures !IsSet(n.minLength) && !IsSet(n.maxLength) ==> r == Str(if n.unique then "unique" else "duplicates")
    ensures (IsSet(n.minLength) || IsSet(n.maxLength)) ==> r.Obj? && |r.entries| >= 1 && r.entries[0] == ("type", Str(if n.unique then "unique" else "duplicates"))
  {
    var t := Str(if n.unique then "unique" else "duplicates");
    if IsSet(n.minLength) || IsSet(n.maxLength) then
      Obj([("type", t)]
          + (if IsSet(n.minLength) then [("minimum", Num(Numbers.Int(n.minLength.value)))] else [])
          + (if IsSet(n.maxLength) then [("maximum", Num(Numbers.Int(n.maxLength.value)))] else []))
    else t
  }

  /** The `__require__` value: each rule as a list of field names. */
  function RequireObject(rules: seq<(string, seq<string>)>): (r: Value)
    ensures r.Obj? && |r.entries| == |rules|
  {
    Obj(seq(|rules|, i requires 0 <= i < |rules| =>
          (rules[i].0, Arr(seq(|rules[i].1|, j requires 0 <= j < |rules[i].1| => Str(rules[i].1[j]))))))
  }

  /** toObject() */
  function ToObject(n: Node): (r: Value)
    ensures n.Options? <==> r.Arr?
    ensures !n.Options? ==> r.Obj?
    ensures n.Options? ==> |r.items| == |n.variants|
  {
    match n
    case Terminal(_, _, _, _, _, _) => Obj(TerminalObject(n))
    case ArrayNode(b, _, _, _, child) =>
      Obj(Assign(Assign([("__array__", ArrayValue(n))], BaseObject(b)), EntriesOf(ToObject(child))))
    case Hash(b, key, child) =>
      Obj(Assign(Assign([("__hash__", ToObject(key))], BaseObject(b)), EntriesOf(ToObject(child))))
    case Options(_, variants) =>
      Arr(seq(|variants|, i requires 0 <= i < |variants| => ToObject(variants[i])))
    case Parent(b, fields, rules) =>
      var o := Assign(BaseObject(b), seq(|fields|, i requires 0 <= i < |fields| => (fields[i].0, ToObject(fields[i].1))));
      Obj(if rules == [] then o else Put(o, "__require__", RequireObject(rules)))
  }

  /** Tree.toObject: `__name__` first, then the Parent's keys. */
  function TreeObject(t: Tree): (r: Value)
  {
    Obj(Assign([("__name__", t.name)], EntriesOf(ToObject(t.root))))
  }
}

=== FILE: patterns.dfy ===
/** The regular expressions of lib/constants.js, each written out as the
    predicate (or the capture) it recognises. */
module Patterns {
  import opened Wrappers
  import opened Numbers
  import opened Strings

  predicate IsLowerHex(c: char) { '0' <= c <= '9' || 'a' <= c <= 'f' }

  predicate IsHex(c: char) { IsLowerHex(c) || 'A' <= c <= 'F' }

  predicate IsAlnum(c: char) { '0' <= c <= '9' || 'a' <= c <= 'z' || 'A' <= c <= 'Z' }

  predicate AllLowerHex(s: string) { forall i | 0 <= i < |s| :: IsLowerHex(s[i]) }

  /** Digits of an integer as the patterns write them: `[1-9]\d+|\d`. */
  predicate IsIntegerDigits(s: string) { AllDigits(s) && NoLeadingZero(s) }

  // ------------------------------------------------------- numeric patterns

  /** `^-?(?:[1-9]\d+|\d)(?:\.(\d+))?$`: None when `s` does not match, otherwise
      the first capture group, None when the fraction is absent. */
  function DecimalMatch(s: string): (r: Option<Option<string>>)
    ensures r.Some? && r.value.Some? ==> |r.value.value| >= 1 && AllDigits(r.value.value)
  {
    UnsignedMatch(if |s| > 0 && s[0] == '-' then s[1..] else s)
  }

  /** The decimal pattern after its optional minus. */
  function UnsignedMatch(body: string): (r: Option<Option<string>>)
    ensures r.Some? && r.value.Some? ==> |r.value.value| >= 1 && AllDigits(r.value.value)
  {
    var k := IndexOfChar(body, '.');
    if !IsIntegerDigits(body[..k]) then None
    else if k == |body| then Some(None)
    else if |body[k + 1..]| >= 1 && AllDigits(body[k + 1..]) then Some(Some(body[k + 1..]))
    else None
  }

  predicate IsDecimalText(s: string) { DecimalMatch(s).Some? }

  /** `^-?(?:[1-9]\d+|\d)(?:\.\d{1,2})?$` */
  predicate IsPriceText(s: string)
  {
    DecimalMatch(s).Some? && (DecimalMatch(s).value.None? || |DecimalMatch(s).value.value| <= 2)
  }

  predicate AllOctal(s: string) { forall i | 0 <= i < |s| :: '0' <= s[i] <= '7' }

  /** `^(?:0|[+-]?[1-9]\d*|0x[0-9a-f]+|0[0-7]+)$` */
  predicate IsIntText(s: string)
  {
    s == "0"
    || (var body := if |s| > 0 && (s[0] == '+' || s[0] == '-') then s[1..] else s;
        |body| >= 1 && body[0] != '0' && AllDigits(body))
    || (|s| > 2 && s[..2] == "0x" && AllLowerHex(s[2..]))
    || (|s| >= 2 && s[0] == '0' && AllOctal(s[1..]))
  }

  // ----------------------------------------------------------- key patterns

  predicate IsSpecialChar(c: char) { 'a' <= c <= 'z' || '0' <= c <= '9' || c == '_' || c == '-' }

  /** `^[a-z0-9_-]+$` */
  predicate IsSpecialName(s: string) { |s| >= 1 && forall i | 0 <= i < |s| :: IsSpecialChar(s[i]) }

  /** `^__([a-z0-9_-]+)__$`: the captured name of a special key. */
  function SpecialKeyName(k: string): (r: Option<string>)
    ensures r.Some? ==> IsSpecialName(r.value) && k == "__" + r.value + "__"
  {
    if |k| >= 5 && k[..2] == "__" && k[|k| - 2..] == "__" && IsSpecialName(k[2..|k| - 2])
    then Some(k[2..|k| - 2]) else None
  }

  /** A special name written as a key reads back as itself. */
  lemma SpecialKeyNameOf(name: string)
    requires IsSpecialName(name)
    ensures SpecialKeyName("__" + name + "__") == Some(name)
  {
    var k := "__" + name + "__";
    assert k[2..|k| - 2] == name;
  }

  /** Distinct names give distinct keys. */
  lemma SpecialKeyInjective(a: string, b: string)
    ensures "__" + a + "__" == "__" + b + "__" ==> a == b
  {
    var k := "__" + a + "__";
    assert k[2..|k| - 2] == a;
    var l := "__" + b + "__";
    assert l[2..|l| - 2] == b;
  }

  /** `^_?[a-zA-Z0-9][a-zA-Z0-9_-]*$`, the shape of a field name. */
  predicate IsStandard(s: string)
  {
    var rest := if |s| >= 2 && s[0] == '_' then s[1..] else s;
    |rest| >= 1 && IsAlnum(rest[0])
    && forall i | 1 <= i < |rest| :: IsAlnum(rest[i]) || rest[i] == '_' || rest[i] == '-'
  }

  /** Reserved keys that are never read as special keys. */
  const Reserved: seq<string> := [
    "__array__", "__hash__", "__maximum__", "__minimum__", "__name__",
    "__options__", "__regex__", "__require__", "__type__"
  ]

  // ------------------------------------------------------------ formats

  predicate IsBase64Char(c: char) { IsAlnum(c) || c == '+' || c == '/' }

  /** `^(?:[A-Za-z0-9+/]{4})+(?:[A-Za-z0-9+/]{2}==|[A-Za-z0-9+/]{3}=)?$`: at least one
      full group, and padding only in a final group that follows a full one. */
  predicate IsBase64(s: string)
  {
    var n := |s|;
    n >= 4 && n % 4 == 0
    && (forall i | 0 <= i < n - 4 :: IsBase64Char(s[i]))
    && (var t := s[n - 4..];
        (IsBase64Char(t[0]) && IsBase64Char(t[1]) && IsBase64Char(t[2]) && IsBase64Char(t[3]))
        || (n >= 8 && IsBase64Char(t[0]) && IsBase64Char(t[1]) && t[2] == '=' && t[3] == '=')
        || (n >= 8 && IsBase64Char(t[0]) && IsBase64Char(t[1]) && IsBase64Char(t[2]) && t[3] == '='))
  }

  predicate IsMonth(a: char, b: char) { (a == '0' && '1' <= b <= '9') || (a == '1' && '0' <= b <= '2') }

  predicate IsDay(a: char, b: char)
  {
    (a == '0' && '1' <= b <= '9') || ((a == '1' || a == '2') && IsDigit(b)) || (a == '3' && (b == '0' || b == '1'))
  }

  /** `^\d{4}-(?:0[1-9]|1[0-2])-(?:0[1-9]|[12]\d|3[01])$` */
  predicate IsDate(s: string)
  {
    |s| == 10 && AllDigits(s[..4]) && s[4] == '-' && IsMonth(s[5], s[6]) && s[7] == '-' && IsDay(s[8], s[9])
  }

  /** `^(?:[01]\d|2[0-3])(?::[0-5]\d){2}$` */
  predicate IsTime(s: string)
  {
    |s| == 8
    && (((s[0] == '0' || s[0] == '1') && IsDigit(s[1])) || (s[0] == '2' && '0' <= s[1] <= '3'))
    && s[2] == ':' && '0' <= s[3] <= '5' && IsDigit(s[4])
    && s[5] == ':' && '0' <= s[6] <= '5' && IsDigit(s[7])
  }

  /** A date, one space, and a time. */
  predicate IsDatetime(s: string) { |s| == 19 && IsDate(s[..10]) && s[10] == ' ' && IsTime(s[11..]) }

  /** A decimal octet without leading zeros, at most 255. */
  predicate IsOctet(p: string) { 1 <= |p| <= 3 && IsIntegerDigits(p) && DecimalValue(p) <= 255 }

  /** The ip pattern: four dotted octets, the first not zero. */
  predicate IsIp(s: string)
  {
    var parts := Split(s, '.');
    |parts| == 4 && (forall i | 0 <= i < 4 :: IsOctet(parts[i])) && parts[0] != "0"
  }

  /** `^[a-fA-F0-9]{32}$` */
  predicate IsMd5(s: string) { |s| == 32 && forall i | 0 <= i < 32 :: IsHex(s[i]) }

  predicate IsVariant(c: char) { c == '8' || c == '9' || c == 'a' || c == 'A' || c == 'b' || c == 'B' }

  /** `^[a-f0-9]{8}[a-f0-9]{4}[a-f0-9]{4}[a-f0-9]{4}[a-f0-9]{12}$` */
  predicate IsTuuid(s: string) { |s| == 32 && AllLowerHex(s) }

  /** The tuuid pattern with version 4 at index 12 and a variant at index 16. */
  predicate IsTuuid4(s: string)
  {
    |s| == 32 && s[12] == '4' && IsVariant(s[16])
    && forall i | 0 <= i < 32 && i != 12 && i != 16 :: IsLowerHex(s[i])
  }

  predicate IsUuidDash(i: int) { i == 8 || i == 13 || i == 18 || i == 23 }

  /** `^[a-f0-9]{8}-[a-f0-9]{4}-[a-f0-9]{4}-[a-f0-9]{4}-[a-f0-9]{12}$` */
  predicate IsUuid(s: string)
  {
    |s| == 36 && (forall i | 0 <= i < 36 && IsUuidDash(i) :: s[i] == '-')
    && forall i | 0 <= i < 36 && !IsUuidDash(i) :: IsLowerHex(s[i])
  }

  /** The uuid pattern with version 4 at index 14 and a variant at index 19. */
  predicate IsUuid4(s: string)
  {
    |s| == 36 && (forall i | 0 <= i < 36 && IsUuidDash(i) :: s[i] == '-')
    && s[14] == '4' && IsVariant(s[19])
    && forall i | 0 <= i < 36 && !IsUuidDash(i) && i != 14 && i != 19 :: IsLowerHex(s[i])
  }
}

=== FILE: runner.dfy ===
/** The loops of the container nodes as the source writes them: each method
    walks the value (or the definition) with a loop, keeps the source's
    running variables, and is proved to compute exactly the specification
    function of Validation, Cleaning or Build. The clean methods catch a
    child's NodeException and go on, as the catch blocks are written to. */
module Runner {
  import opened Wrappers
  import opened Values
  import opened Schema
  import opened Terminals
  import opened Validation
  import opened Cleaning
  import opened Build
  import opened Patterns
  import opened BaseNodes

  // ------------------------------------------------------------------ valid

  /** valid(value, level) of any node. */
  method Check(host: Host, n: Node, value: Value, level: seq<string>) returns (r: Verdict)
    ensures r == Valid(host, n, value, level)
    decreases n, 1
  {
    match n
    case Terminal(_, _, _, _, _, _) => r := ValidTerminal(host, n, value, level);
    case ArrayNode(_, _, _, _, _) => r := CheckArray(host, n, value, level);
    case Hash(_, _, _) => r := CheckHash(host, n, value, level);
    case Options(_, _) => r := CheckOptions(host, n, value, level);
    case Parent(_, _, _) => r := CheckParent(host, n, value, level);
  }

  /** ArrayNode.valid: every element is looked at, failures accumulate. */
  method CheckArray(host: Host, n: Node, value: Value, level: seq<string>) returns (r: Verdict)
    requires n.ArrayNode?
    ensures r == Valid(host, n, value, level)
    decreases n, 0
  {
    if value == Null || value == Undefined {
      return Missing(n.base, level);
    }
    if !value.Arr? {
      return Fail(PathOf(level), ToJsString(value));
    }
    var items := value.items;
    var ok := true;
    var failures: seq<Failure> := [];
    var seen: seq<Value> := [];
    for i := 0 to |items|
      invariant ScanItems(host, n, items, level, i) == ArrayScan(ok, failures, seen)
    {
      var aLevel := level + [Index(i)];
      var c := Check(host, n.child, items[i], aLevel);
      if !c.ok {
        failures := failures + c.failures;
        ok := false;
        continue;
      }
      if n.unique {
        var j := IndexOf(seen, items[i]);
        if j < |seen| {
          failures := failures + [Failure(PathOf(aLevel), "duplicate of " + PathOf(level) + Index(j))];
          ok := false;
          continue;
        }
        seen := seen + [items[i]];
      }
    }
    if n.minLength.Some? && |items| < n.minLength.value {
      failures := failures + [Failure(PathOf(level), "did not meet minimum")];
      ok := false;
    }
    if n.maxLength.Some? && |items| > n.maxLength.value {
      failures := failures + [Failure(PathOf(level), "exceeds maximum")];
      ok := false;
    }
    r := Verdict(ok, failures);
  }

  /** Hash.valid: each key through the key node, then its value through the child. */
  method CheckHash(host: Host, n: Node, value: Value, level: seq<string>) returns (r: Verdict)
    requires n.Hash?
    ensures r == Valid(host, n, value, level)
    decreases n, 0
  {
    if value == Null {
      return Missing(n.base, level);
    }
    if !value.Obj? {
      return Fail(PathOf(level), ToJsString(value));
    }
    var entries := value.entries;
    var ok := true;
    var failures: seq<Failure> := [];
    for i := 0 to |entries|
      invariant ScanEntries(host, n, entries, level, i) == Verdict(ok, failures)
    {
      var k := entries[i].0;
      var aLevel := level + [k];
      var kv := Check(host, n.key, Str(k), []);
      if !kv.ok {
        failures := failures + [Failure(PathOf(aLevel), "invalid key: " + k)];
        ok := false;
        continue;
      }
      var c := Check(host, n.child, entries[i].1, aLevel);
      if !c.ok {
        failures := failures + c.failures;
        ok := false;
      }
    }
    r := Verdict(ok, failures);
  }

  /** Options.valid: true at the first variant that accepts the value. */
  method CheckOptions(host: Host, n: Node, value: Value, level: seq<string>) returns (r: Verdict)
    requires n.Options?
    ensures r == Valid(host, n, value, level)
    decreases n, 0
  {
    if value == Null || value == Undefined {
      return Missing(n.base, level);
    }
    var i := 0;
    while i < |n.variants|
      invariant i <= |n.variants|
      invariant FirstValid(host, n, value, i) == FirstValid(host, n, value, 0)
    {
      var c := Check(host, n.variants[i], value, []);
      if c.ok {
        return Pass();
      }
      i := i + 1;
    }
    r := Fail(PathOf(level), "no valid option");
  }

  /** Parent.valid: each field in order, then the rules of a field that passed. */
  method CheckParent(host: Host, n: Node, value: Value, level: seq<string>) returns (r: Verdict)
    requires n.Parent?
    ensures r == Valid(host, n, value, level)
    decreases n, 0
  {
    if value == Null {
      return Missing(n.base, level);
    }
    if !value.Obj? {
      return Fail(PathOf(level), ToJsString(value));
    }
    var ok := true;
    var failures: seq<Failure> := [];
    for i := 0 to |n.fields|
      invariant ScanFields(host, n, value.entries, level, i) == Verdict(ok, failures)
    {
      var key := n.fields[i].0;
      var aLevel := level + [key];
      if !HasKey(value.entries, key) {
        if !n.fields[i].1.base.optional {
          failures := failures + [Failure(PathOf(aLevel), "missing")];
          ok := false;
        }
        continue;
      }
      var c := Check(host, n.fields[i].1, Get(value.entries, key), aLevel);
      if !c.ok {
        failures := failures + c.failures;
        ok := false;
        continue;
      }
      var k := KeyIndex(n.rules, key);
      if k < |n.rules| {
        ok, failures := CheckRule(n.rules[k].1, value.entries, aLevel, ok, failures);
      }
    }
    r := Verdict(ok, failures);
  }

  /** The inner loop over the fields one rule requires. */
  method CheckRule(names: seq<string>, value: seq<(string, Value)>, aLevel: seq<string>, ok0: bool, failures0: seq<Failure>)
    returns (ok: bool, failures: seq<Failure>)
    ensures failures == failures0 + UnmetOf(names, value, aLevel)
    ensures ok == (ok0 && UnmetOf(names, value, aLevel) == [])
  {
    ok, failures := ok0, failures0;
    for j := 0 to |names|
      invariant failures == failures0 + UnmetOf(names[..j], value, aLevel)
      invariant ok == (ok0 && UnmetOf(names[..j], value, aLevel) == [])
    {
      assert names[..j + 1][..j] == names[..j];
      if IsUnset(value, names[j]) {
        failures := failures + [Failure(PathOf(aLevel), "requires \"" + names[j] + "\" to also be set")];
        ok := false;
      }
    }
    assert names[..|names|] == names;
  }

  // ------------------------------------------------------------------ clean

  /** clean(value, level) of any node. */
  method Scrub(host: Host, n: Node, value: Value, level: seq<string>) returns (r: Cleaned)
    ensures r == Clean(host, n, value, level, true)
    decreases n, 1
  {
    match n
    case Terminal(_, _, _, _, _, _) =>
      var c := CleanTerminal(host, n, value);
      r := if c.Ok? then Cleaned(c.value) else Thrown(c.error);
    case ArrayNode(_, _, _, _, _) => r := ScrubArray(host, n, value, level);
    case Hash(_, _, _) => r := ScrubHash(host, n, value, level);
    case Options(_, _) => r := ScrubOptions(host, n, value, level);
    case Parent(_, _, _) => r := ScrubParent(host, n, value, level);
  }

  /** ArrayNode.clean: the cleaned elements in order, or every element's errors. */
  method ScrubArray(host: Host, n: Node, value: Value, level: seq<string>) returns (r: Cleaned)
    requires n.ArrayNode?
    ensures r == Clean(host, n, value, level, true)
    decreases n, 0
  {
    if value == Null || value == Undefined {
      return MissingClean(n.base, level);
    }
    if !value.Arr? {
      return NodeError([Pair(PathOf(level), "not a valid Array")]);
    }
    var items := value.items;
    var values: seq<Value> := [];
    var errors: seq<ErrorEntry> := [];
    for i := 0 to |items|
      invariant CleanItems(host, n, items, level, true, i) == ListScan(values, errors)
    {
      var c := Scrub(host, n.child, items[i], level + [Index(i)]);
      match c
      case Cleaned(v) => values := values + [v];
      case NodeError(es) => errors := errors + es;
      case Thrown(m) =>
        ItemsHaltSticks(host, n, items, level, true, i + 1, |items|);
        return c;
    }
    r := if errors != [] then NodeError(errors) else Cleaned(Arr(values));
  }

  /** Hash.clean: each key cleaned, then its value, stored under the cleaned key. */
  method ScrubHash(host: Host, n: Node, value: Value, level: seq<string>) returns (r: Cleaned)
    requires n.Hash?
    ensures r == Clean(host, n, value, level, true)
    decreases n, 0
  {
    if value == Null || value == Undefined {
      return MissingClean(n.base, level);
    }
    if !value.Obj? {
      return NodeError([Pair(PathOf(level), "not a valid Object")]);
    }
    var entries := value.entries;
    var ret: seq<(string, Value)> := [];
    var errors: seq<ErrorEntry> := [];
    for i := 0 to |entries|
      invariant CleanEntries(host, n, entries, level, true, i) == ObjectScan(ret, errors)
    {
      var k := entries[i].0;
      var kc := Scrub(host, n.key, Str(k), []);
      if kc.Thrown? {
        EntriesHaltSticks(host, n, entries, level, true, i + 1, |entries|);
        return kc;
      }
      if kc.NodeError? {
        errors := errors + kc.errors;
        continue;
      }
      var c := Scrub(host, n.child, entries[i].1, level + [k]);
      match c
      case Cleaned(v) => ret := Put(ret, ToJsString(kc.value), v);
      case NodeError(es) => errors := errors + es;
      case Thrown(m) =>
        EntriesHaltSticks(host, n, entries, level, true, i + 1, |entries|);
        return c;
    }
    r := if errors != [] then NodeError(errors) else Cleaned(Obj(ret));
  }

  /** Options.clean: the clean of the first variant whose valid accepts. */
  method ScrubOptions(host: Host, n: Node, value: Value, level: seq<string>) returns (r: Cleaned)
    requires n.Options?
    ensures r == Clean(host, n, value, level, true)
    decreases n, 0
  {
    if value == Null || value == Undefined {
      return MissingClean(n.base, level);
    }
    var i := 0;
    while i < |n.variants|
      invariant i <= |n.variants|
      invariant FirstValid(host, n, value, i) == FirstValid(host, n, value, 0)
    {
      var c := Check(host, n.variants[i], value, []);
      if c.ok {
        r := Scrub(host, n.variants[i], value, level);
        return;
      }
      i := i + 1;
    }
    r := NodeError([Pair(PathOf(level), "matches no option")]);
  }

  /** Parent.clean: each key of the value through its field's node. */
  method ScrubParent(host: Host, n: Node, value: Value, level: seq<string>) returns (r: Cleaned)
    requires n.Parent?
    ensures r == Clean(host, n, value, level, true)
    decreases n, 0
  {
    if value == Null || value == Undefined {
      return MissingClean(n.base, level);
    }
    if !value.Obj? {
      return NodeError([Pair(PathOf(level), "not a valid Object")]);
    }
    var entries := value.entries;
    var ret: seq<(string, Value)> := [];
    var errors: seq<ErrorEntry> := [];
    for i := 0 to |entries|
      invariant CleanKeys(host, n, entries, level, true, i) == ObjectScan(ret, errors)
    {
      var k := entries[i].0;
      var aLevel := level + [k];
      var f := KeyIndex(n.fields, k);
      if f == |n.fields| {
        KeysHaltSticks(host, n, entries, level, true, i + 1, |entries|);
        return NodeError([Pair(PathOf(aLevel), "not a valid node")]);
      }
      var c := Scrub(host, n.fields[f].1, entries[i].1, aLevel);
      match c
      case Cleaned(v) => ret := Put(ret, k, v);
      case NodeError(es) => errors := errors + [Group(es)];
      case Thrown(_) =>
        KeysHaltSticks(host, n, entries, level, true, i + 1, |entries|);
        return NodeError([Pair(PathOf(aLevel), "not a valid node")]);
    }
    r := if errors != [] then NodeError(errors) else Cleaned(Obj(ret));
  }

  // ----------------------------------------------------------- constructors

  /** new Options(details): Base.create of each definition in order; the
      union is optional while every child so far is. */
  method NewOptions(host: Host, details: Value) returns (r: Result<Node, string>)
    ensures r == BuildOptions(host, details)
  {
    if !details.Arr? {
      return Err("details must be an Array");
    }
    var items := details.items;
    ghost var bound := Size(details);
    forall i | 0 <= i < |items| ensures Size(items[i]) < bound {
      ItemShrinks(items, i);
    }
    var nodes: seq<Node> := [];
    var optional := true;
    for i := 0 to |items|
      invariant CreateAll(host, items[..i], bound) == Ok(nodes)
      invariant optional == AllOptional(nodes)
    {
      CreateAllSnoc(host, items, bound, i);
      var c := Create(host, items[i]);
      if c.Err? {
        CreateAllStops(host, items, bound, i + 1);
        return Err(c.error);
      }
      AllOptionalSnoc(nodes, c.value);
      nodes := nodes + [c.value];
      if !c.value.base.optional {
        optional := false;
      }
    }
    assert items[..|items|] == items;
    r := Ok(Options(Base(optional, []), nodes));
  }

  /** new Parent(details): the Base constructor, a node for each standard
      key, then the `__require__` rules. */
  method NewParent(host: Host, o: seq<(string, Value)>) returns (r: Result<Node, string>)
    ensures r == BuildParent(host, o)
  {
    var made := MakeBase(Obj(o));
    if made.Err? {
      return Err(made.error);
    }
    var rest := made.value.1;
    MakeBaseSize(Obj(o));
    ghost var bound := Size(Obj(o));
    forall i | 0 <= i < |rest| ensures Size(rest[i].1) < bound {
      EntryShrinks(rest, i);
    }
    var fields: seq<(string, Node)> := [];
    for i := 0 to |rest|
      invariant CreateFields(host, rest[..i], bound) == Ok(fields)
    {
      CreateFieldsSnoc(host, rest, bound, i);
      var k := rest[i].0;
      if IsStandard(k) {
        var c := Create(host, rest[i].1);
        if c.Err? {
          CreateFieldsStops(host, rest, bound, i + 1);
          return Err(c.error);
        }
        fields := fields + [(k, c.value)];
      }
    }
    assert rest[..|rest|] == rest;
    var rules: seq<(string, seq<string>)> := [];
    if HasKey(o, "__require__") {
      var rr := SetRequires(fields, Get(o, "__require__"));
      if rr.Err? {
        return Err(rr.error);
      }
      rules := rr.value;
    }
    r := Ok(Parent(made.value.0, fields, rules));
  }

  /** Parent.requires(require): every key must be a field, every value a
      field name or a list of field names. */
  method SetRequires(fields: seq<(string, Node)>, req: Value) returns (r: Result<seq<(string, seq<string>)>, string>)
    ensures r == ReadRequires(fields, req)
  {
    if req == Undefined {
      return Ok([]);
    }
    if !req.Obj? {
      return Err("__require__ must be a valid Object");
    }
    var entries := req.entries;
    var rules: seq<(string, seq<string>)> := [];
    for i := 0 to |entries|
      invariant RequireEntries(fields, entries[..i]) == Ok(rules)
    {
      RequireEntriesSnoc(fields, entries, i);
      var k := entries[i].0;
      var v := entries[i].1;
      var e := RequireOne(fields, k, v);
      if e.Err? {
        RequireEntriesStops(fields, entries, i + 1);
        return Err(e.error);
      }
      rules := rules + [(k, e.value)];
    }
    assert entries[..|entries|] == entries;
    r := Ok(rules);
  }

  /** The body of requires' loop for one key: the names it requires. */
  method RequireOne(fields: seq<(string, Node)>, k: string, v: Value) returns (r: Result<seq<string>, string>)
    ensures r == RequireNames(fields, k, v)
  {
    if !HasField(fields, k) {
      return Err("__require__[" + k + "] does not exist in the Parent");
    }
    if v.Str? {
      if !HasField(fields, v.s) {
        return Err("__require__[" + k + "]:" + v.s);
      }
      return Ok([v.s]);
    }
    if !v.Arr? {
      return Err("__require__[" + k + "] must be a single string or an Array");
    }
    var names := seq(|v.items|, j requires 0 <= j < |v.items| => ToJsString(v.items[j]));
    for s := 0 to |names|
      invariant forall j | 0 <= j < s :: HasField(fields, names[j])
    {
      if !HasField(fields, names[s]) {
        return Err(UnknownRequire(k, v.items, s));
      }
    }
    r := Ok(names);
  }
}

=== FILE: schema.dfy ===
/** The compiled form of a definition: one constructor per node class, the
    failures valid reports, the outcomes of clean, and the host services a
    node calls but does not define. */
module Schema {
  import opened Wrappers
  import opened Strings
  import opened Values

  /** The node types of constants.nodes. */
  datatype TypeTag =
    | Any | Base64 | BoolType | Date | Datetime | DecimalType | Float | Int | Ip | Json
    | Md5 | Price | StringType | Time | Timestamp | Tuuid | Tuuid4 | Uint | Uuid | Uuid4

  /** constants.nodes, in its order. */
  const TypeNames: seq<string> := [
    "any", "base64", "bool", "date", "datetime", "decimal", "float", "int",
    "ip", "json", "md5", "price", "string", "time", "timestamp", "tuuid",
    "tuuid4", "uint", "uuid", "uuid4"
  ]

  function TagName(t: TypeTag): (r: string)
    ensures r in TypeNames
  {
    match t
    case Any => "any"
    case Base64 => "base64"
    case BoolType => "bool"
    case Date => "date"
    case Datetime => "datetime"
    case DecimalType => "decimal"
    case Float => "float"
    case Int => "int"
    case Ip => "ip"
    case Json => "json"
    case Md5 => "md5"
    case Price => "price"
    case StringType => "string"
    case Time => "time"
    case Timestamp => "timestamp"
    case Tuuid => "tuuid"
    case Tuuid4 => "tuuid4"
    case Uint => "uint"
    case Uuid => "uuid"
    case Uuid4 => "uuid4"
  }

  /** The type a `__type__` value names: it must be `===` one of constants.nodes. */
  function TagOf(v: Value): (r: Option<TypeTag>)
    ensures r.Some? <==> (v.Str? && v.s in TypeNames)
    ensures r.Some? ==> TagName(r.value) == v.s
  {
    if !v.Str? then None
    else
      var r := FirstTagOf(v.s);
      if r.Some? then r else LastTagOf(v.s)
  }

  /** The names any to json. */
  function FirstTagOf(s: string): (r: Option<TypeTag>)
    ensures r.Some? ==> TagName(r.value) == s
    ensures r.None? <==> s != "any" && s != "base64" && s != "bool" && s != "date" && s != "datetime" && s != "decimal" && s != "float" && s != "int" && s != "ip" && s != "json"
  {
    if s == "any" then Some(Any)
    else if s == "base64" then Some(Base64)
    else if s == "bool" then Some(BoolType)
    else if s == "date" then Some(Date)
    else if s == "datetime" then Some(Datetime)
    else if s == "decimal" then Some(DecimalType)
    else if s == "float" then Some(Float)
    else if s == "int" then Some(Int)
    else if s == "ip" then Some(Ip)
    else if s == "json" then Some(Json)
    else None
  }

  /** The names md5 to uuid4. */
  function LastTagOf(s: string): (r: Option<TypeTag>)
    ensures r.Some? ==> TagName(r.value) == s
    ensures r.None? <==> s != "md5" && s != "price" && s != "string" && s != "time" && s != "timestamp" && s != "tuuid" && s != "tuuid4" && s != "uint" && s != "uuid" && s != "uuid4"
  {
    if s == "md5" then Some(Md5)
    else if s == "price" then Some(Price)
    else if s == "string" then Some(StringType)
    else if s == "time" then Some(Time)
    else if s == "timestamp" then Some(Timestamp)
    else if s == "tuuid" then Some(Tuuid)
    else if s == "tuuid4" then Some(Tuuid4)
    else if s == "uint" then Some(Uint)
    else if s == "uuid" then Some(Uuid)
    else if s == "uuid4" then Some(Uuid4)
    else None
  }

  /** What src/Base.js keeps for every node: the optional flag and the special
      values, by name, in the order they were found. */
  datatype Base = Base(optional: bool, special: seq<(string, Value)>)

  /** A compiled node. Terminal is src/Node.ts (a bound that is not set is
      Null); ArrayNode keeps whether it is 'unique'; Hash keeps its key node,
      a Terminal; Parent keeps its fields and its `__require__` rules (rules). */
  datatype Node =
    | Terminal(base: Base, tag: TypeTag, regex: Option<string>, options: Option<seq<Value>>,
               minimum: Value, maximum: Value)
    | ArrayNode(base: Base, unique: bool, minLength: Option<int>, maxLength: Option<int>, child: Node)
    | Hash(base: Base, key: Node, child: Node)
    | Options(base: Base, variants: seq<Node>)
    | Parent(base: Base, fields: seq<(string, Node)>, rules: seq<(string, seq<string>)>)

  /** src/Tree.js: a Parent under a name. */
  datatype Tree = Tree(name: Value, root: Node)

  /** One entry of validationFailures: the joined path and the reason. */
  datatype Failure = Failure(path: string, reason: string)

  /** The result of valid together with the validationFailures it leaves. */
  datatype Verdict = Verdict(ok: bool, failures: seq<Failure>)

  function Pass(): Verdict { Verdict(true, []) }

  function Fail(path: string, reason: string): Verdict { Verdict(false, [Failure(path, reason)]) }

  /** An element of NodeException.errors: a [path, reason] pair, or the whole
      errors list of a child, which Parent.clean pushes without flattening. */
  datatype ErrorEntry = Pair(path: string, reason: string) | Group(entries: seq<ErrorEntry>)

  /** What clean does: return a value, throw a NodeException with its errors,
      or throw any other Error with its message. */
  datatype Cleaned = Cleaned(value: Value) | NodeError(errors: seq<ErrorEntry>) | Thrown(message: string)

  /** The runtime services the nodes call: RegExp compilation and test for
      user patterns, and JSON. */
  datatype Host = Host(
    regexCompiles: string -> bool,
    regexTest: (string, string) -> bool,
    jsonParses: string -> bool,
    jsonStringify: Value -> Value)

  /** `level.join('.')` */
  function PathOf(level: seq<string>): string { Join(level, ".") }
}

=== FILE: strings.dfy ===
/** String utilities of the JavaScript runtime that the library leans on:
    white space, split on a character, and join with a separator. */
module Strings {

  /** ECMAScript WhiteSpace and LineTerminator code units, the set that
      parseInt, parseFloat and Number() skip. */
  predicate IsJsSpace(c: char)
  {
    c == ' ' || c == '\t' || c == '\n' || c == '\r' || c == '\U{000B}' || c == '\U{000C}'
    || c == '\U{00A0}' || c == '\U{1680}' || ('\U{2000}' <= c <= '\U{200A}') || c == '\U{2028}'
    || c == '\U{2029}' || c == '\U{202F}' || c == '\U{205F}' || c == '\U{3000}' || c == '\U{FEFF}'
  }

  /** Drops the leading white space. */
  function TrimStart(s: string): (r: string)
    ensures |r| <= |s| && r == s[|s| - |r|..]
    ensures r == [] || !IsJsSpace(r[0])
    ensures forall i | 0 <= i < |s| - |r| :: IsJsSpace(s[i])
  {
    if s != [] && IsJsSpace(s[0]) then TrimStart(s[1..]) else s
  }

  /** Drops the trailing white space. */
  function TrimEnd(s: string): (r: string)
    ensures |r| <= |s| && r == s[..|r|]
    ensures r == [] || !IsJsSpace(r[|r| - 1])
    ensures forall i | |r| <= i < |s| :: IsJsSpace(s[i])
  {
    if s != [] && IsJsSpace(s[|s| - 1]) then TrimEnd(s[..|s| - 1]) else s
  }

  /** The index of the first `c` in `s`, or |s| when there is none. */
  function IndexOfChar(s: string, c: char): (k: nat)
    ensures k <= |s|
    ensures k < |s| ==> s[k] == c
    ensures forall i | 0 <= i < k :: s[i] != c
  {
    if s == [] then 0 else if s[0] == c then 0 else 1 + IndexOfChar(s[1..], c)
  }

  /** Array.prototype.indexOf on a list of strings: the first place of s,
      or |names| where indexOf gives -1. */
  function NameIndex(names: seq<string>, s: string): (k: nat)
    ensures k <= |names|
    ensures k < |names| ==> names[k] == s
    ensures k == |names| ==> s !in names
  {
    if names == [] then 0 else if names[0] == s then 0 else 1 + NameIndex(names[1..], s)
  }

  /** String.prototype.split with a one-character separator. */
  function Split(s: string, c: char): (parts: seq<string>)
    ensures |parts| >= 1
    ensures forall i | 0 <= i < |parts| :: c !in parts[i]
    decreases |s|
  {
    var k := IndexOfChar(s, c);
    if k == |s| then [s] else [s[..k]] + Split(s[k + 1..], c)
  }

  /** Array.prototype.join for strings. */
  function Join(parts: seq<string>, sep: string): string
  {
    if parts == [] then ""
    else if |parts| == 1 then parts[0]
    else parts[0] + sep + Join(parts[1..], sep)
  }

  /** Splitting on `c` and joining again with `c` gives the string back. */
  lemma {:induction false} JoinSplit(s: string, c: char)
    ensures Join(Split(s, c), [c]) == s
    decreases |s|
  {
    var k := IndexOfChar(s, c);
    if k < |s| {
      var rest := s[k + 1..];
      JoinSplit(rest, c);
      var parts := Split(s, c);
      assert parts == [s[..k]] + Split(rest, c);
      assert |parts| >= 2 && parts[0] == s[..k] && parts[1..] == Split(rest, c);
      assert Join(parts, [c]) == s[..k] + [c] + Join(Split(rest, c), [c]);
      assert s == s[..k] + [c] + rest;
    }
  }

  /** Adding a component to a path joins it after one more separator. */
  lemma {:induction false} JoinSnoc(parts: seq<string>, x: string, sep: string)
    ensures Join(parts + [x], sep) == if parts == [] then x else Join(parts, sep) + sep + x
  {
    if |parts| >= 2 {
      assert (parts + [x])[1..] == parts[1..] + [x];
      JoinSnoc(parts[1..], x, sep);
    } else if |parts| == 1 {
      assert (parts + [x])[1..] == [x];
    }
  }
}

=== FILE: terminal.dfy ===
/** src/Node.ts: the terminal node. A type tag, at most one constraint
    (a regex, a list of options, or a minimum and maximum), and per type the
    coercion of clean and the check of valid. */
module Terminals {
  import opened Wrappers
  import Numbers
  import opened Patterns
  import opened JsNumbers
  import opened Helpers
  import Decimals
  import opened Values
  import opened Schema
  import opened BaseNodes

  type Decimal = Decimals.Decimal

  // ------------------------------------------------------------ type groups

  /** The types checked by their pattern of lib/constants.js alone. */
  predicate IsFormatType(t: TypeTag)
  {
    t == Base64 || t == Date || t == Datetime || t == Ip || t == Md5 || t == Time || t == Uuid || t == Uuid4
  }

  predicate IsIntType(t: TypeTag) { t == Int || t == Timestamp || t == Uint }

  predicate IsUnsigned(t: TypeTag) { t == Timestamp || t == Uint }

  /** The types options may be set for. */
  predicate TakesOptions(t: TypeTag)
  {
    IsFormatType(t) || IsIntType(t) || t == DecimalType || t == Float || t == Price || t == StringType
  }

  /** The types a regex may be set for. */
  predicate TakesRegex(t: TypeTag)
  {
    t == DecimalType || t == Int || t == Price || t == StringType || t == Timestamp || t == Uint
  }

  /** `constants.regex[type].test(s)` */
  predicate FormatMatch(t: TypeTag, s: string)
  {
    match t
    case Base64 => IsBase64(s)
    case Date => IsDate(s)
    case Datetime => IsDatetime(s)
    case Ip => IsIp(s)
    case Md5 => IsMd5(s)
    case Time => IsTime(s)
    case Tuuid => IsTuuid(s)
    case Tuuid4 => IsTuuid4(s)
    case Uuid => IsUuid(s)
    case Uuid4 => IsUuid4(s)
    case _ => false
  }

  // ------------------------------------------------------------ conversions

  function IntValue(i: int): Value { Num(Numbers.Int(i)) }

  /** A parse result as a JavaScript number: NaN when there is none. */
  function NumberOrNaN(n: Option<Numbers.Number>): Value
  {
    match n
    case Some(x) => Num(x)
    case None => NaN
  }

  /** strToInt of text the int pattern admits, which always has a value. */
  function IntOfText(s: string): Value
    requires IsIntText(s)
  {
    IntTextHasValue(s);
    IntValue(StrToInt(s).value)
  }

  /** `new Decimal(v)` for a value that is not a Decimal yet: text is read by
      decimal.js, a number is taken as it is, and anything else throws (None). */
  function ToDecimal(v: Value): Option<Decimal>
  {
    match v
    case Str(s) => Decimals.FromString(s)
    case Num(n) => Some(Decimals.FromNumber(n))
    case _ => None
  }

  /** The message decimal.js throws for an argument it can not read. */
  function DecimalError(v: Value): string
  {
    "[DecimalError] Invalid argument: " + ToJsString(v)
  }

  /** A value handed to equals, lessThan or greaterThan of a Decimal. */
  function AsOperand(v: Value): Option<Decimals.Operand>
  {
    match v
    case Dec(d) => Some(Decimals.OfDecimal(d))
    case Num(n) => Some(Decimals.OfNumber(n))
    case Str(s) => Some(Decimals.OfString(s))
    case _ => None
  }

  predicate DecimalEquals(d: Decimal, v: Value)
  {
    AsOperand(v).Some? && Decimals.Equals(d, AsOperand(v).value) == Some(true)
  }

  predicate DecimalLess(d: Decimal, v: Value)
  {
    AsOperand(v).Some? && Decimals.LessThan(d, AsOperand(v).value) == Some(true)
  }

  predicate DecimalGreater(d: Decimal, v: Value)
  {
    AsOperand(v).Some? && Decimals.GreaterThan(d, AsOperand(v).value) == Some(true)
  }

  // ----------------------------------------------------------------- minmax

  /** One bound checked and converted for the type: `which` is "minimum" or
      "maximum". Date, datetime, ip and time take text in their format; base64,
      int, string, timestamp and uint take an integer, or integer text that
      strToInt reads (then not below zero but for int); decimal and price take
      a Decimal or their text; float a number or decimal text. */
  function CheckBound(t: TypeTag, which: string, v: Value): (r: Result<Value, string>)
    ensures r.Ok? ==> t != Any && t != BoolType && t != Json && t != Md5 && t != Tuuid && t != Tuuid4 && t != Uuid && t != Uuid4
  {
    var q := "\"__" + which + "__\"";
    if t == Date || t == Datetime || t == Ip || t == Time then
      if v.Str? && FormatMatch(t, v.s) then Ok(v)
      else Err(q + " is not valid for the current type: \"" + TagName(t) + "\"")
    else if t == Base64 || t == Int || t == StringType || t == Timestamp || t == Uint then
      if IsInteger(v) then Ok(v)
      else if v.Str? && IsIntText(v.s) then
        var i := IntOfText(v.s);
        if t != Int && Numbers.IsNegative(i.n) then Err(q + " must be an unsigned integer") else Ok(i)
      else Err(q + " must be an integer")
    else if t == DecimalType then
      if v.Dec? then Ok(v)
      else if v.Str? && IsDecimalText(v.s) && Decimals.FromString(v.s).Some? then Ok(Dec(Decimals.FromString(v.s).value))
      else Err(q + " not a valid decimal")
    else if t == Float then
      if v.Num? || v.NaN? then Ok(v)
      else if v.Str? && IsDecimalText(v.s) then Ok(NumberOrNaN(ParseFloat(v.s)))
      else Err(q + " not a valid float")
    else if t == Price then
      if v.Dec? then Ok(v)
      else if v.Str? && IsPriceText(v.s) && Decimals.FromString(v.s).Some? then Ok(Dec(Decimals.FromString(v.s).value))
      else Err(q + " not a valid price")
    else Err("can not set __" + which + "__ for \"" + TagName(t) + "\"")
  }

  /** A date, datetime, ip or time bound is kept as given, and is text in the
      type's format. */
  lemma CheckBoundFormat(t: TypeTag, which: string, v: Value)
    requires t == Date || t == Datetime || t == Ip || t == Time
    ensures CheckBound(t, which, v).Ok? <==> v.Str? && FormatMatch(t, v.s)
    ensures CheckBound(t, which, v).Ok? ==> CheckBound(t, which, v).value == v
  {
  }

  /** A base64, int, string, timestamp or uint bound becomes an integer, not
      below zero but for int. */
  lemma CheckBoundInteger(t: TypeTag, which: string, v: Value)
    requires t == Base64 || t == StringType || IsIntType(t)
    ensures CheckBound(t, which, v).Ok? ==> IsInteger(CheckBound(t, which, v).value)
    ensures CheckBound(t, which, v).Ok? && t != Int && !IsInteger(v) ==> !Numbers.IsNegative(CheckBound(t, which, v).value.n)
  {
  }

  /** A decimal or price bound becomes a Decimal; a float bound a number or NaN. */
  lemma CheckBoundNumeric(t: TypeTag, which: string, v: Value)
    requires t == DecimalType || t == Price || t == Float
    ensures CheckBound(t, which, v).Ok? && t != Float ==> CheckBound(t, which, v).value.Dec?
    ensures CheckBound(t, which, v).Ok? && t == Float ==> CheckBound(t, which, v).value.Num? || CheckBound(t, which, v).value.NaN?
  {
  }

  /** `minimum > maximum` as meant for the type: ip addresses by compareIPs,
      Decimals by value, anything else by JavaScript's `>`. */
  predicate Below(t: TypeTag, minimum: Value, maximum: Value)
  {
    if t == Ip then IpOrder(ToJsString(minimum), ToJsString(maximum)) == 1
    else if minimum.Dec? && maximum.Dec? then Numbers.Less(maximum.d.value, minimum.d.value)
    else JsLess(maximum, minimum)
  }

  /** minmax(minimum, maximum) as a setter: null leaves a bound alone, undefined
      is refused unless both are undefined (the getter), and the maximum may not
      be below a minimum that is set. */
  function MinMax(n: Node, minimum: Value, maximum: Value): (r: Result<Node, string>)
    requires n.Terminal?
    ensures minimum == Undefined && maximum == Undefined ==> r == Ok(n)
    ensures r.Ok? ==> r.value.Terminal? && r.value.base == n.base && r.value.tag == n.tag
                      && r.value.regex == n.regex && r.value.options == n.options
    ensures r.Ok? && minimum != Undefined && minimum != Null ==> CheckBound(n.tag, "minimum", minimum) == Ok(r.value.minimum)
    ensures r.Ok? && maximum != Undefined && maximum != Null ==> CheckBound(n.tag, "maximum", maximum) == Ok(r.value.maximum)
    ensures r.Ok? && minimum == Null ==> r.value.minimum == n.minimum
    ensures r.Ok? && maximum == Null ==> r.value.maximum == n.maximum
    ensures r.Ok? && maximum != Null && maximum != Undefined && r.value.minimum != Null ==> !Below(n.tag, r.value.minimum, r.value.maximum)
    ensures minimum == Undefined && maximum != Undefined ==> r == Err("\"minimum\" can only be undefined if \"maximum\" is also undefined")
  {
    if minimum == Undefined && maximum == Undefined then Ok(n)
    else
      var m :- (if minimum == Null then Ok(n)
                else if minimum == Undefined then Err("\"minimum\" can only be undefined if \"maximum\" is also undefined")
                else var b :- CheckBound(n.tag, "minimum", minimum); Ok(n.(minimum := b)));
      if maximum == Null then Ok(m)
      else if maximum == Undefined then Err("\"maximum\" can only be undefined if \"minimum\" is also undefined")
      else
        var b :- CheckBound(n.tag, "maximum", maximum);
        if m.minimum != Null && Below(n.tag, m.minimum, b) then Err("\"__maximum__\" can not be below \"__minimum__\"")
        else Ok(m.(maximum := b))
  }

  // ---------------------------------------------------------------- options

  /** The check and conversion of option `i` for the type. A price option
      that is already a Decimal passes the instanceof test and is then handed
      to `new Decimal` again, which decimal.js refuses. */
  function ConvertOption(t: TypeTag, i: nat, x: Value): (r: Result<Value, string>)
    ensures r.Ok? && IsFormatType(t) ==> r.value == x && x.Str? && FormatMatch(t, x.s)
    ensures r.Ok? && (t == DecimalType || t == Price) ==> r.value.Dec?
    ensures r.Ok? && IsIntType(t) ==> IsInteger(r.value)
    ensures r.Ok? && IsUnsigned(t) ==> !Numbers.IsNegative(r.value.n)
    ensures r.Ok? && t == StringType ==> r.value == Str(ToJsString(x))
    ensures r.Ok? ==> TakesOptions(t)
    ensures t == Price && x.Dec? ==> r == Err(DecimalError(x))
  {
    var at := "\"__options__[" + Numbers.Digits(i) + "]\"";
    if IsFormatType(t) then
      if x.Str? && FormatMatch(t, x.s) then Ok(x) else Err(at + " is not valid for \"" + TagName(t) + "\"")
    else if t == DecimalType then
      if x.Dec? then Ok(x)
      else
        match ToDecimal(x)
        case Some(d) => Ok(Dec(d))
        case None => Err(at + " not a valid decimal")
    else if t == Float then
      if x.Num? || x.NaN? then Ok(x)
      else
        match ParseFloat(ToJsString(x))
        case Some(f) => Ok(Num(f))
        case None => Err(at + " not a valid float")
    else if IsIntType(t) then
      var v :- (if IsInteger(x) then Ok(x)
                else if x.Str? && IsIntText(x.s) then Ok(IntOfText(x.s))
                else Err(at + " must be an integer"));
      if IsUnsigned(t) && Numbers.IsNegative(v.n) then Err(at + " must be an unsigned integer") else Ok(v)
    else if t == Price then
      if x.Dec? then Err(DecimalError(x))
      else if x.Str? && IsPriceText(x.s) && Decimals.FromString(x.s).Some? then Ok(Dec(Decimals.FromString(x.s).value))
      else Err(at + " not a valid price")
    else if t == StringType then Ok(if x.Str? then x else Str(ToJsString(x)))
    else Err("can not set __options__ for \"" + TagName(t) + "\"")
  }

  /** The loop of options(): each option converted in turn, the first bad one
      or the first one `===` an earlier one refused. */
  function CollectOptions(t: TypeTag, opts: seq<Value>): (r: Result<seq<Value>, string>)
  {
    if opts == [] then Ok([])
    else AddOption(t, |opts| - 1, CollectOptions(t, opts[..|opts| - 1]), opts[|opts| - 1])
  }

  /** One turn of the options() loop: option `i` converted and appended, unless
      an earlier turn failed, it is bad, or it is `===` one already kept. */
  function AddOption(t: TypeTag, i: nat, acc: Result<seq<Value>, string>, x: Value): (r: Result<seq<Value>, string>)
  {
    var list :- acc;
    var v :- ConvertOption(t, i, x);
    if IndexOf(list, v) < |list| then Err("\"__options__[" + Numbers.Digits(i) + "] is a duplicate")
    else Ok(list + [v])
  }

  /** Option i of `opts` converts to r[i], for each i. */
  predicate Converted(t: TypeTag, opts: seq<Value>, r: seq<Value>)
  {
    |r| == |opts| && forall i | 0 <= i < |opts| :: ConvertOption(t, i, opts[i]) == Ok(r[i])
  }

  /** No two values of the list are `===`. */
  predicate Distinct(r: seq<Value>)
  {
    forall i, j | 0 <= i < j < |r| :: !StrictEquals(r[i], r[j])
  }

  /** What options() stores: every option converted at its own index, and no
      two of them `===`. */
  lemma {:induction false} CollectedOptions(t: TypeTag, opts: seq<Value>)
    requires CollectOptions(t, opts).Ok?
    ensures Converted(t, opts, CollectOptions(t, opts).value)
    ensures Distinct(CollectOptions(t, opts).value)
  {
    if opts != [] {
      var n := |opts| - 1;
      var init := opts[..n];
      assert CollectOptions(t, opts) == AddOption(t, n, CollectOptions(t, init), opts[n]);
      CollectedOptions(t, init);
      var acc := CollectOptions(t, init).value;
      AddOptionOk(t, n, acc, opts[n]);
      var v := ConvertOption(t, n, opts[n]).value;
      ConvertedSnoc(t, opts, acc, v);
      DistinctSnoc(acc, v);
    }
  }

  lemma ConvertedSnoc(t: TypeTag, opts: seq<Value>, acc: seq<Value>, v: Value)
    requires |opts| >= 1 && Converted(t, opts[..|opts| - 1], acc)
    requires ConvertOption(t, |opts| - 1, opts[|opts| - 1]) == Ok(v)
    ensures Converted(t, opts, acc + [v])
  {
    var r := acc + [v];
    forall i | 0 <= i < |opts| ensures ConvertOption(t, i, opts[i]) == Ok(r[i]) {
      if i < |opts| - 1 {
        assert opts[..|opts| - 1][i] == opts[i];
      }
    }
  }

  lemma DistinctSnoc(acc: seq<Value>, v: Value)
    requires Distinct(acc)
    requires forall j | 0 <= j < |acc| :: !StrictEquals(acc[j], v)
    ensures Distinct(acc + [v])
  {
  }

  /** A turn that succeeds converts its option, finds it `===` none kept
      before, and appends it. */
  lemma AddOptionOk(t: TypeTag, i: nat, acc: seq<Value>, x: Value)
    requires AddOption(t, i, Ok(acc), x).Ok?
    ensures ConvertOption(t, i, x).Ok?
    ensures forall j | 0 <= j < |acc| :: !StrictEquals(acc[j], ConvertOption(t, i, x).value)
    ensures AddOption(t, i, Ok(acc), x).value == acc + [ConvertOption(t, i, x).value]
  {
  }

  /** The three ways a turn after a successful one can end. */
  lemma AddOptionTurn(t: TypeTag, i: nat, list: seq<Value>, x: Value)
    ensures ConvertOption(t, i, x).Err? ==> AddOption(t, i, Ok(list), x) == Err(ConvertOption(t, i, x).error)
    ensures ConvertOption(t, i, x).Ok? && IndexOf(list, ConvertOption(t, i, x).value) < |list|
            ==> AddOption(t, i, Ok(list), x) == Err("\"__options__[" + Numbers.Digits(i) + "] is a duplicate")
    ensures ConvertOption(t, i, x).Ok? && IndexOf(list, ConvertOption(t, i, x).value) == |list|
            ==> AddOption(t, i, Ok(list), x) == Ok(list + [ConvertOption(t, i, x).value])
  {
  }

  /** Once a turn of the loop has thrown, the later ones throw the same. */
  lemma {:induction false} CollectStops(t: TypeTag, opts: seq<Value>, j: nat)
    requires j <= |opts| && CollectOptions(t, opts[..j]).Err?
    ensures CollectOptions(t, opts) == CollectOptions(t, opts[..j])
    decreases |opts| - j
  {
    if j < |opts| {
      var k := |opts| - 1;
      assert opts[..k][..j] == opts[..j];
      assert CollectOptions(t, opts) == AddOption(t, k, CollectOptions(t, opts[..k]), opts[k]);
      CollectStops(t, opts[..k], j);
      AddOptionErr(t, k, CollectOptions(t, opts[..k]), opts[k]);
    } else {
      assert opts[..j] == opts;
    }
  }

  /** A turn after one that threw passes the error on. */
  lemma AddOptionErr(t: TypeTag, i: nat, acc: Result<seq<Value>, string>, x: Value)
    requires acc.Err?
    ensures AddOption(t, i, acc, x) == acc
  {
  }

  /** The options() loop, building the list that is stored. */
  method OptionList(t: TypeTag, opts: seq<Value>) returns (r: Result<seq<Value>, string>)
    ensures r == CollectOptions(t, opts)
  {
    var list: seq<Value> := [];
    for i := 0 to |opts|
      invariant CollectOptions(t, opts[..i]) == Ok(list)
    {
      assert CollectOptions(t, opts[..i + 1]) == AddOption(t, i, Ok(list), opts[i]) by {
        assert opts[..i + 1][..i] == opts[..i];
      }
      var x := ConvertOption(t, i, opts[i]);
      AddOptionTurn(t, i, list, opts[i]);
      if x.Err? {
        r := Err(x.error);
        CollectStops(t, opts, i + 1);
        return;
      }
      var k := IndexOf(list, x.value);
      if k < |list| {
        r := Err("\"__options__[" + Numbers.Digits(i) + "] is a duplicate");
        CollectStops(t, opts, i + 1);
        return;
      }
      list := list + [x.value];
    }
    assert opts[..|opts|] == opts;
    r := Ok(list);
  }

  /** options(opts) as a setter (undefined is the getter and changes nothing). */
  function SetOptions(n: Node, opts: Value): (r: Result<Node, string>)
    requires n.Terminal?
    ensures opts == Undefined ==> r == Ok(n)
    ensures opts != Undefined && !opts.Arr? ==> r == Err("\"__options__\" must be an array")
    ensures opts.Arr? && !TakesOptions(n.tag) ==> r == Err("can not set __options__ for \"" + TagName(n.tag) + "\"")
    ensures opts != Undefined && r.Ok? ==>
              opts.Arr? && CollectOptions(n.tag, opts.items).Ok?
              && r.value == n.(options := Some(CollectOptions(n.tag, opts.items).value))
  {
    if opts == Undefined then Ok(n)
    else if !opts.Arr? then Err("\"__options__\" must be an array")
    else if !TakesOptions(n.tag) then Err("can not set __options__ for \"" + TagName(n.tag) + "\"")
    else
      var list :- CollectOptions(n.tag, opts.items);
      Ok(n.(options := Some(list)))
  }

  // ------------------------------------------------------------------ regex

  /** regex(r) as a setter: only for decimal, int, price, string, timestamp
      and uint; a RegExp is kept, text is compiled (and may fail to). */
  function SetRegex(host: Host, n: Node, re: Value): (r: Result<Node, string>)
    requires n.Terminal?
    ensures re == Undefined ==> r == Ok(n)
    ensures re != Undefined && !TakesRegex(n.tag) ==> r == Err("can not set __regex__ for \"" + TagName(n.tag) + "\"")
    ensures re != Undefined && r.Ok? ==>
              TakesRegex(n.tag) && (re.Re? || re.Str?) && r.value == n.(regex := Some(if re.Re? then re.source else re.s))
    ensures re.Str? && TakesRegex(n.tag) ==> (r.Ok? <==> host.regexCompiles(re.s))
  {
    if re == Undefined then Ok(n)
    else if !TakesRegex(n.tag) then Err("can not set __regex__ for \"" + TagName(n.tag) + "\"")
    else if re.Re? then Ok(n.(regex := Some(re.source)))
    else if !re.Str? then Err("\"__regex__\" must be a valid string or RegExp")
    else if !host.regexCompiles(re.s) then Err("Invalid regular expression: /" + re.s + "/")
    else Ok(n.(regex := Some(re.s)))
  }

  // ------------------------------------------------------------ constructor

  /** The details a Node is made from: a type name alone, or an object. */
  function NodeDetails(details: Value): (r: Result<seq<(string, Value)>, string>)
    ensures details.Str? ==> r == Ok([("__type__", details)])
    ensures details.Obj? ==> r == Ok(details.entries)
    ensures r.Err? <==> !details.Str? && !details.Obj?
  {
    if details.Str? then Ok([("__type__", details)])
    else if details.Obj? then Ok(details.entries)
    else Err("\"details\" must be an Object or a String")
  }

  /** new Node(details): the type must be present and one of constants.nodes;
      then the base keys; then a regex if given, else options if given, else
      the bounds given (an absent one as null). */
  function BuildTerminal(host: Host, details: Value): (r: Result<Node, string>)
    ensures r.Ok? ==> r.value.Terminal?
    ensures r.Ok? ==> NodeDetails(details).Ok? && TagOf(Get(NodeDetails(details).value, "__type__")) == Some(r.value.tag)
    ensures NodeDetails(details).Ok? && !HasKey(NodeDetails(details).value, "__type__") ==> r == Err("missing \"__type__\" in details")
    ensures (NodeDetails(details).Ok? && HasKey(NodeDetails(details).value, "__type__")
             && TagOf(Get(NodeDetails(details).value, "__type__")).None?) ==> r == Err("invalid \"__type__\" in details")
  {
    var d :- NodeDetails(details);
    if !HasKey(d, "__type__") then Err("missing \"__type__\" in details")
    else
      match TagOf(Get(d, "__type__"))
      case None => Err("invalid \"__type__\" in details")
      case Some(tag) =>
        var made :- MakeBase(Obj(d));
        Constrain(host, Terminal(made.0, tag, None, None, Null, Null), d)
  }

  /** The constraint of new Node(details) on a terminal that has none yet: a
      regex if given, else options if given, else the bounds given (an absent
      one as null). A terminal ends up with at most one kind of constraint. */
  function Constrain(host: Host, n: Node, d: seq<(string, Value)>): (r: Result<Node, string>)
    requires n.Terminal? && n.regex.None? && n.options.None? && n.minimum == Null && n.maximum == Null
    ensures r.Ok? ==> r.value.Terminal? && r.value.tag == n.tag && r.value.base == n.base
    ensures r.Ok? && r.value.regex.Some? ==> r.value.options.None? && r.value.minimum == Null && r.value.maximum == Null
    ensures r.Ok? && r.value.options.Some? ==> r.value.minimum == Null && r.value.maximum == Null
    ensures !HasKey(d, "__regex__") && !HasKey(d, "__options__") && !HasKey(d, "__minimum__") && !HasKey(d, "__maximum__")
            ==> r == Ok(n)
  {
    if HasKey(d, "__regex__") then SetRegex(host, n, Get(d, "__regex__"))
    else if HasKey(d, "__options__") then SetOptions(n, Get(d, "__options__"))
    else if HasKey(d, "__minimum__") || HasKey(d, "__maximum__") then
      MinMax(n, if HasKey(d, "__minimum__") then Get(d, "__minimum__") else Null,
                if HasKey(d, "__maximum__") then Get(d, "__maximum__") else Null)
    else Ok(n)
  }

  // ------------------------------------------------------------------ clean

  /** The strings bool clean reads as true. */
  const TrueStrings: seq<string> := ["true", "True", "TRUE", "t", "T", "yes", "Yes", "YES", "y", "Y", "x", "1"]

  predicate StringCoerced(t: TypeTag)
  {
    IsFormatType(t) || t == StringType
  }

  /** clean of the int types: text through strToInt, an integer as it is, and
      anything else through parseInt of its text; NaN where nothing is read. */
  function CleanInt(value: Value): (r: Value)
    ensures value.Str? && IsIntText(value.s) ==> r == IntOfText(value.s)
    ensures IsInteger(value) ==> r == value
    ensures r.Num? ==> IsInteger(r)
  {
    if value.Str? then
      if IsIntText(value.s) then IntOfText(value.s) else NumberOrNaN(MapInt(StrToInt(value.s)))
    else if IsInteger(value) then value
    else NumberOrNaN(MapInt(ParseInt(ToJsString(value), 10)))
  }

  function MapInt(i: Option<int>): (r: Option<Numbers.Number>)
    ensures r.Some? ==> Numbers.IsIntegral(r.value)
  {
    match i
    case Some(x) => Some(Numbers.Int(x))
    case None => None
  }

  /** clean of decimal and price: a Decimal as it is, anything else through
      `new Decimal`, which may throw. */
  function CleanDecimal(value: Value, price: bool): (r: Result<Value, string>)
    ensures value.Dec? ==> r == Ok(Str(if price then Decimals.ToFixed(value.d, 2) else Decimals.Text(value.d)))
    ensures !value.Dec? && ToDecimal(value).None? ==> r == Err(DecimalError(value))
  {
    var d := if value.Dec? then Some(value.d) else ToDecimal(value);
    match d
    case None => Err(DecimalError(value))
    case Some(x) => Ok(Str(if price then Decimals.ToFixed(x, 2) else Decimals.Text(x)))
  }

  /** Node.clean: null on an optional node stays null; otherwise the value is
      coerced by type. Err is the message of what clean throws. */
  function CleanTerminal(host: Host, n: Node, value: Value): (r: Result<Value, string>)
    requires n.Terminal?
    ensures value == Null && n.base.optional ==> r == Ok(Null)
    ensures r.Err? ==> n.tag == Tuuid || n.tag == Tuuid4 || n.tag == DecimalType || n.tag == Price
  {
    if value == Null && n.base.optional then Ok(Null)
    else
      match n.tag
      case Any => Ok(value)
      case BoolType => Ok(Bool(if value.Str? then value.s in TrueStrings else Truthy(value)))
      case DecimalType => CleanDecimal(value, false)
      case Float => Ok(NumberOrNaN(ParseFloat(ToJsString(value))))
      case Int => Ok(CleanInt(value))
      case Json => Ok(if value.Str? then value else host.jsonStringify(value))
      case Price => CleanDecimal(value, true)
      case Timestamp => Ok(CleanInt(value))
      case Tuuid => Err("\"" + TagName(n.tag) + "\" has not been added to .clean()")
      case Tuuid4 => Err("\"" + TagName(n.tag) + "\" has not been added to .clean()")
      case Uint => Ok(CleanInt(value))
      case _ => Ok(Str(ToJsString(value)))
  }

  // ------------------------------------------------------------------ valid

  /** Where the branch of valid for the node's type leaves a value: accepted,
      refused with a reason, or handed on, perhaps converted, to the shared
      options and bounds check at the end. */
  datatype Step = Accept | Reject(reason: string) | Next(v: Value)

  /** The strings bool valid accepts. */
  const BoolStrings: seq<string> := ["true", "true", "TRUE", "t", "T", "1", "false", "false", "FALSE", "f", "F", "0"]

  /** Options, then bounds, of a decimal or price value. */
  function DecimalStep(n: Node, d: Decimal): Step
    requires n.Terminal?
  {
    if n.options.Some? then
      if exists i | 0 <= i < |n.options.value| :: DecimalEquals(d, n.options.value[i]) then Accept else Next(Dec(d))
    else if n.minimum != Null || n.maximum != Null then
      if n.minimum != Null && DecimalLess(d, n.minimum) then Reject("not long enough")
      else if n.maximum != Null && DecimalGreater(d, n.maximum) then Reject("too long")
      else Accept
    else Next(Dec(d))
  }

  /** The branch of valid for the node's type, on a value that is not null. */
  function TypeStep(host: Host, n: Node, value: Value): (r: Step)
    requires n.Terminal?
  {
    match n.tag
    case Any => Next(value)
    case BoolType => BoolStep(value)
    case DecimalType => DecimalTypeStep(n, value)
    case Float => FloatStep(value)
    case Json =>
      if value.Str? then (if host.jsonParses(value.s) then Accept else Reject("Can not be decoded from JSON"))
      else Accept
    case Price => PriceStep(n, value)
    case StringType => StringStep(host, n, value)
    case Tuuid => Next(value)
    case Tuuid4 => Next(value)
    case _ => if IsIntType(n.tag) then IntStep(n.tag, value) else FormatStep(n, value)
  }

  /** bool: a boolean, 0 or 1, or one of BoolStrings. */
  function BoolStep(value: Value): Step
  {
    if value.Bool? then Accept
    else if IsInteger(value) && (Numbers.Eq(value.n, Numbers.Int(0)) || Numbers.Eq(value.n, Numbers.Int(1))) then Accept
    else if value.Str? then
      if value.s in BoolStrings then Accept else Reject("not a valid string representation of a bool")
    else Reject("not valid bool replacement")
  }

  /** decimal: anything but a boolean that new Decimal reads, then DecimalStep. */
  function DecimalTypeStep(n: Node, value: Value): Step
    requires n.Terminal?
  {
    if value.Bool? then Reject("is a bool")
    else
      var d := if value.Dec? then Some(value.d) else ToDecimal(value);
      if d.None? then Reject("can not be converted to decimal") else DecimalStep(n, d.value)
  }

  /** float: a number, decimal text read by parseFloat, or anything parseFloat reads. */
  function FloatStep(value: Value): Step
  {
    if value.Bool? then Reject("is a bool")
    else if value.Num? || value.NaN? then Next(value)
    else if value.Str? then
      if !IsDecimalText(value.s) then Reject("failed regex (internal)") else Next(NumberOrNaN(ParseFloat(value.s)))
    else
      match ParseFloat(ToJsString(value))
      case None => Reject("can not be converted to float")
      case Some(x) => Next(Num(x))
  }

  /** price: a Decimal, price text or a number, with two places at most, then DecimalStep. */
  function PriceStep(n: Node, value: Value): Step
    requires n.Terminal?
  {
    if value.Bool? then Reject("is a bool")
    else if value.Str? && !IsPriceText(value.s) then Reject("invalid")
    else if !value.Dec? && !value.Str? && !value.Num? then Reject("can not be converted to price")
    else
      var d := if value.Dec? then Some(value.d) else ToDecimal(value);
      if d.None? then Reject("can not be converted to price")
      else if Decimals.DecimalPlaces(d.value) > 2 then Reject("too many decimal points")
      else DecimalStep(n, d.value)
  }

  /** string: text, matching the regex if any, within the length bounds if any. */
  function StringStep(host: Host, n: Node, value: Value): Step
    requires n.Terminal?
  {
    if !value.Str? then Reject("is not a string")
    else if n.regex.Some? && !host.regexTest(n.regex.value, value.s) then Reject("invalid")
    else if n.minimum != Null || n.maximum != Null then
      var len := IntValue(|value.s|);
      if n.minimum != Null && JsLess(len, n.minimum) then Reject("not long enough")
      else if n.maximum != Null && JsLess(n.maximum, len) then Reject("too long")
      else Accept
    else Next(value)
  }

  /** int, timestamp and uint: an integer or int text, not a boolean, and not
      negative for the unsigned types. */
  function IntStep(t: TypeTag, value: Value): Step
    requires IsIntType(t)
  {
    if value.Bool? then Reject("is a bool")
    else if !IsInteger(value) && !(value.Str? && IsIntText(value.s)) then Reject("not an integer")
    else
      var v := if IsInteger(value) then value else IntOfText(value.s);
      if IsUnsigned(t) && Numbers.IsNegative(v.n) then Reject("signed") else Next(v)
  }

  /** base64, date, datetime, ip, md5, time, uuid and uuid4: text in the
      type's format; an ip address within its bounds if any. */
  function FormatStep(n: Node, value: Value): Step
    requires n.Terminal?
  {
    if !value.Str? then Reject("not a string")
    else if !FormatMatch(n.tag, value.s) then Reject("invalid")
    else if n.tag == Ip && (n.minimum != Null || n.maximum != Null) then
      if n.maximum != Null && IpOrder(value.s, ToJsString(n.maximum)) == 1 then Reject("exceeds maximum")
      else if n.minimum != Null && IpOrder(value.s, ToJsString(n.minimum)) == -1 then Reject("did not meet minimum")
      else Accept
    else Next(value)
  }

  /** The end of valid shared by every type: membership in the options when
      there are any, else the bounds that are set. */
  function TailStep(n: Node, v: Value): (r: Step)
    requires n.Terminal?
    ensures r != Next(v) && (r.Accept? || r.Reject?)
  {
    if n.options.Some? then
      if IndexOf(n.options.value, v) == |n.options.value| then Reject("not in options") else Accept
    else if n.minimum != Null && JsLess(v, n.minimum) then Reject("did not meet minimum")
    else if n.maximum != Null && JsLess(n.maximum, v) then Reject("exceeds maximum")
    else Accept
  }

  /** Node.valid: the verdict, and the one failure it records when it fails. */
  function ValidTerminal(host: Host, n: Node, value: Value, level: seq<string>): (r: Verdict)
    requires n.Terminal?
    ensures r.ok <==> r.failures == []
    ensures !r.ok ==> |r.failures| == 1 && r.failures[0].path == PathOf(level)
    ensures value == Null ==> r == (if n.base.optional then Pass() else Fail(PathOf(level), "missing"))
  {
    if value == Null then (if n.base.optional then Pass() else Fail(PathOf(level), "missing"))
    else
      var step := match TypeStep(host, n, value) case Next(v) => TailStep(n, v) case s => s;
      if step.Reject? then Fail(PathOf(level), step.reason) else Pass()
  }

  // --------------------------------------------------------------- toObject

  /** The keys of the node's own constraint, as toObject writes them. */
  function ConstraintEntries(n: Node): seq<(string, Value)>
    requires n.Terminal?
  {
    if n.regex.Some? then [("__regex__", Str(n.regex.value))]
    else if n.options.Some? then [("__options__", Arr(n.options.value))]
    else (if n.minimum != Null then [("__minimum__", n.minimum)] else [])
         + (if n.maximum != Null then [("__maximum__", n.maximum)] else [])
  }

  /** Node.toObject: the type, the constraint, then the base keys. */
  function TerminalObject(n: Node): seq<(string, Value)>
    requires n.Terminal?
  {
    Assign([("__type__", Str(TagName(n.tag)))] + ConstraintEntries(n), BaseObject(n.base))
  }
}

=== FILE: terminal_props.dfy ===
/** What Node.valid and Node.clean promise for the terminal types: the
    spellings of a bool, integers that are booleans or signed, the length of
    a string, the range of an ip address, the options of a node and the
    places of a price. */
module TerminalProperties {
  import opened Wrappers
  import Numbers
  import opened Patterns
  import opened Helpers
  import Decimals
  import opened Values
  import opened Schema
  import opened Terminals
  import DecimalProperties

  // ------------------------------------------------------------------- bool

  /** The spellings of true that bool valid accepts. */
  const ValidTrue: seq<string> := ["true", "TRUE", "t", "T", "1"]

  /** A value bool valid accepts cleans to the boolean it spells: true for
      true, 1 and the true spellings, false for false, 0 and the false ones. */
  lemma BoolValidClean(host: Host, n: Node, value: Value, level: seq<string>)
    requires n.Terminal? && n.tag == BoolType && value != Null
    requires ValidTerminal(host, n, value, level).ok
    ensures CleanTerminal(host, n, value)
            == Ok(Bool(value == Bool(true)
                       || (value.Num? && Numbers.Eq(value.n, Numbers.Int(1)))
                       || (value.Str? && value.s in ValidTrue)))
  {
    if value.Num? {
      assert Numbers.Pow10(0) == 1;
      assert Numbers.Eq(value.n, Numbers.Int(0)) ==> value.n.mant == 0;
      assert Numbers.Eq(value.n, Numbers.Int(1)) ==> value.n.mant == Numbers.Pow10(value.n.exp);
    }
  }

  // ------------------------------------------------------------ integers

  /** A boolean is refused by the int types, decimal, float and price. */
  lemma NumericRejectsBool(host: Host, n: Node, b: bool, level: seq<string>)
    requires n.Terminal? && (IsIntType(n.tag) || n.tag == DecimalType || n.tag == Float || n.tag == Price)
    ensures ValidTerminal(host, n, Bool(b), level) == Fail(PathOf(level), "is a bool")
  {
    assert TypeStep(host, n, Bool(b)) == Reject("is a bool") by {
      if IsIntType(n.tag) {
        assert IntStep(n.tag, Bool(b)) == Reject("is a bool");
      }
    }
  }

  /** uint and timestamp refuse a negative integer with 'signed'. */
  lemma UnsignedRejectsNegative(host: Host, n: Node, x: Numbers.Number, level: seq<string>)
    requires n.Terminal? && IsUnsigned(n.tag) && Numbers.IsIntegral(x) && Numbers.IsNegative(x)
    ensures ValidTerminal(host, n, Num(x), level) == Fail(PathOf(level), "signed")
  {
    assert TypeStep(host, n, Num(x)) == Reject("signed");
  }

  /** uint and timestamp refuse text the int pattern reads as a negative
      integer with 'signed'. */
  lemma UnsignedRejectsNegativeText(host: Host, n: Node, s: string, level: seq<string>)
    requires n.Terminal? && IsUnsigned(n.tag) && IsIntText(s) && StrToInt(s).Some? && StrToInt(s).value < 0
    ensures ValidTerminal(host, n, Str(s), level) == Fail(PathOf(level), "signed")
  {
    assert IntStep(n.tag, Str(s)) == Reject("signed") by {
      assert IntOfText(s) == IntValue(StrToInt(s).value);
    }
    IntTypeStep(host, n, Str(s));
  }

  /** The int types take the int branch of valid. */
  lemma IntTypeStep(host: Host, n: Node, value: Value)
    requires n.Terminal? && IsIntType(n.tag)
    ensures TypeStep(host, n, value) == IntStep(n.tag, value)
  {
    if n.tag == Int {
      assert TypeStep(host, n, value) == IntStep(Int, value);
    } else if n.tag == Uint {
      assert TypeStep(host, n, value) == IntStep(Uint, value);
    } else {
      assert TypeStep(host, n, value) == IntStep(Timestamp, value);
    }
  }

  /** The int branch of valid checks int text as the integer strToInt
      reads from it: "0x10" as 16, "010" as 8. */
  lemma IntTextStep(t: TypeTag, s: string)
    requires IsIntType(t) && IsIntText(s)
    ensures StrToInt(s).Some? && IntStep(t, Str(s)) == IntStep(t, Num(Numbers.Int(StrToInt(s).value)))
  {
    IntTextHasValue(s);
    assert Numbers.Pow10(0) == 1;
  }

  // ----------------------------------------------------------------- string

  /** A string with integer bounds and no options: 'not long enough' below
      the minimum length, then 'too long' above the maximum, else accepted. */
  lemma StringLength(host: Host, n: Node, s: string, level: seq<string>, lo: Option<int>, hi: Option<int>)
    requires n.Terminal? && n.tag == StringType
    requires n.regex.None? || host.regexTest(n.regex.value, s)
    requires n.minimum == (if lo.Some? then IntValue(lo.value) else Null)
    requires n.maximum == (if hi.Some? then IntValue(hi.value) else Null)
    requires lo.Some? || hi.Some?
    ensures lo.Some? && |s| < lo.value ==> ValidTerminal(host, n, Str(s), level) == Fail(PathOf(level), "not long enough")
    ensures ((lo.None? || lo.value <= |s|) && hi.Some? && hi.value < |s|
             ==> ValidTerminal(host, n, Str(s), level) == Fail(PathOf(level), "too long"))
    ensures (ValidTerminal(host, n, Str(s), level).ok
             <==> (lo.None? || lo.value <= |s|) && (hi.None? || |s| <= hi.value))
  {
    assert Numbers.Pow10(0) == 1;
  }

  /** A string with a regex that does not match it is 'invalid'. */
  lemma StringRegex(host: Host, n: Node, s: string, level: seq<string>)
    requires n.Terminal? && n.tag == StringType && n.regex.Some? && !host.regexTest(n.regex.value, s)
    ensures ValidTerminal(host, n, Str(s), level) == Fail(PathOf(level), "invalid")
  {
  }

  // --------------------------------------------------------------------- ip

  /** An ip address with bounds: 'exceeds maximum' when compareIPs puts it
      above the maximum, else 'did not meet minimum' when below the minimum,
      else accepted. */
  lemma IpRange(host: Host, n: Node, s: string, level: seq<string>)
    requires n.Terminal? && n.tag == Ip && IsIp(s)
    requires n.minimum != Null || n.maximum != Null
    ensures (n.maximum != Null && IpOrder(s, ToJsString(n.maximum)) == 1
             ==> ValidTerminal(host, n, Str(s), level) == Fail(PathOf(level), "exceeds maximum"))
    ensures ((n.maximum == Null || IpOrder(s, ToJsString(n.maximum)) != 1)
             && n.minimum != Null && IpOrder(s, ToJsString(n.minimum)) == -1
             ==> ValidTerminal(host, n, Str(s), level) == Fail(PathOf(level), "did not meet minimum"))
    ensures (ValidTerminal(host, n, Str(s), level).ok
             <==> (n.maximum == Null || IpOrder(s, ToJsString(n.maximum)) != 1)
                  && (n.minimum == Null || IpOrder(s, ToJsString(n.minimum)) != -1))
  {
    assert FormatMatch(Ip, s);
    var step := TypeStep(host, n, Str(s));
    assert step == if n.maximum != Null && IpOrder(s, ToJsString(n.maximum)) == 1 then Reject("exceeds maximum")
                   else if n.minimum != Null && IpOrder(s, ToJsString(n.minimum)) == -1 then Reject("did not meet minimum")
                   else Accept;
  }

  // ---------------------------------------------------------------- options

  /** A string node with options and nothing else accepts exactly the
      strings among them, and refuses the rest with 'not in options'. */
  lemma StringOptions(host: Host, n: Node, s: string, level: seq<string>)
    requires n.Terminal? && n.tag == StringType && n.regex.None? && n.minimum == Null && n.maximum == Null
    requires n.options.Some?
    ensures ValidTerminal(host, n, Str(s), level).ok <==> Str(s) in n.options.value
    ensures !ValidTerminal(host, n, Str(s), level).ok ==> ValidTerminal(host, n, Str(s), level) == Fail(PathOf(level), "not in options")
  {
    var opts := n.options.value;
    var k := IndexOf(opts, Str(s));
    if Str(s) in opts {
      var j :| 0 <= j < |opts| && opts[j] == Str(s);
      assert StrictEquals(opts[j], Str(s));
    }
    if k < |opts| {
      assert opts[k].Str? && opts[k].s == s;
    }
  }

  /** An int node with options accepts an integer exactly when one of them
      is the same number, and refuses it with 'not in options' otherwise. */
  lemma IntOptions(host: Host, n: Node, x: Numbers.Number, level: seq<string>)
    requires n.Terminal? && n.tag == Int && n.options.Some? && Numbers.IsIntegral(x)
    ensures (ValidTerminal(host, n, Num(x), level).ok
             <==> exists i | 0 <= i < |n.options.value| :: n.options.value[i].Num? && Numbers.Eq(n.options.value[i].n, x))
    ensures !ValidTerminal(host, n, Num(x), level).ok ==> ValidTerminal(host, n, Num(x), level) == Fail(PathOf(level), "not in options")
  {
    var opts := n.options.value;
    var k := IndexOf(opts, Num(x));
    if exists i | 0 <= i < |opts| :: opts[i].Num? && Numbers.Eq(opts[i].n, x) {
      var j :| 0 <= j < |opts| && opts[j].Num? && Numbers.Eq(opts[j].n, x);
      assert StrictEquals(opts[j], Num(x));
    }
    if k < |opts| {
      assert opts[k].Num? && Numbers.Eq(opts[k].n, x);
    }
  }

  // ------------------------------------------------------------------ price

  /** Text of a price, two fraction digits at most, is a Decimal that needs
      no more than two places. */
  lemma PriceTextPlaces(s: string)
    requires IsPriceText(s)
    ensures Decimals.FromString(s).Some? && Decimals.DecimalPlaces(Decimals.FromString(s).value) <= 2
  {
    DecimalProperties.LiteralOfMatch(s);
  }

  /** A Decimal price with more than two places is 'too many decimal points'. */
  lemma PriceTooPrecise(host: Host, n: Node, d: Decimals.Decimal, level: seq<string>)
    requires n.Terminal? && n.tag == Price && Decimals.DecimalPlaces(d) > 2
    ensures ValidTerminal(host, n, Dec(d), level) == Fail(PathOf(level), "too many decimal points")
  {
    assert TypeStep(host, n, Dec(d)) == Reject("too many decimal points");
  }

  /** Text that is not a price is 'invalid'. */
  lemma PriceTextInvalid(host: Host, n: Node, s: string, level: seq<string>)
    requires n.Terminal? && n.tag == Price && !IsPriceText(s)
    ensures ValidTerminal(host, n, Str(s), level) == Fail(PathOf(level), "invalid")
  {
    assert TypeStep(host, n, Str(s)) == Reject("invalid");
  }

  /** Price text is never 'too many decimal points': with no options and no
      bounds it passes. */
  lemma PriceTextValid(host: Host, n: Node, s: string, level: seq<string>)
    requires n.Terminal? && n.tag == Price && IsPriceText(s)
    requires n.options.None? && n.minimum == Null && n.maximum == Null
    ensures ValidTerminal(host, n, Str(s), level).ok
  {
    PriceTextStep(n, s);
    var d := Decimals.FromString(s).value;
    assert DecimalStep(n, d) == Next(Dec(d));
    assert TailStep(n, Dec(d)) == Accept;
  }

  /** Price text goes on to the options and bounds as its Decimal. */
  lemma PriceTextStep(n: Node, s: string)
    requires n.Terminal? && IsPriceText(s)
    ensures Decimals.FromString(s).Some? && PriceStep(n, Str(s)) == DecimalStep(n, Decimals.FromString(s).value)
  {
    PriceTextPlaces(s);
    var d := Decimals.FromString(s).value;
    assert ToDecimal(Str(s)) == Some(d);
  }
}

=== FILE: valid.dfy ===
/** valid of every kind of node. Each call starts a fresh validationFailures
    list; the Verdict is the boolean valid returns together with that list.
    The loops of ArrayNode, Hash and Parent are stated here as their state
    after the first k steps. */
module Validation {
  import opened Wrappers
  import Numbers
  import opened Strings
  import opened Values
  import opened Schema
  import opened Terminals

  /** The level component of the i-th element of a list: '[' + i + ']'. */
  function Index(i: nat): string
  {
    "[" + Numbers.Digits(i) + "]"
  }

  /** The outcome of a null value: true when optional, else 'missing'. */
  function Missing(b: Base, level: seq<string>): (r: Verdict)
    ensures r.ok <==> b.optional
    ensures r.ok <==> r.failures == []
  {
    if b.optional then Pass() else Fail(PathOf(level), "missing")
  }

  /** valid(value, level) */
  function Valid(host: Host, n: Node, value: Value, level: seq<string>): (r: Verdict)
    ensures r.ok <==> r.failures == []
    decreases n, 1, 0
  {
    match n
    case Terminal(_, _, _, _, _, _) => ValidTerminal(host, n, value, level)
    case ArrayNode(b, _, _, _, _) =>
      if value == Null || value == Undefined then Missing(b, level)
      else if !value.Arr? then Fail(PathOf(level), ToJsString(value))
      else
        var s := ScanItems(host, n, value.items, level, |value.items|);
        LengthChecks(n, |value.items|, level, Verdict(s.ok, s.failures))
    case Hash(b, _, _) =>
      if value == Null then Missing(b, level)
      else if !value.Obj? then Fail(PathOf(level), ToJsString(value))
      else ScanEntries(host, n, value.entries, level, |value.entries|)
    case Options(b, variants) =>
      if value == Null || value == Undefined then Missing(b, level)
      else if FirstValid(host, n, value, 0) < |variants| then Pass()
      else Fail(PathOf(level), "no valid option")
    case Parent(b, _, _) =>
      if value == Null then Missing(b, level)
      else if !value.Obj? then Fail(PathOf(level), ToJsString(value))
      else ScanFields(host, n, value.entries, level, |n.fields|)
  }

  // -------------------------------------------------------------- ArrayNode

  /** The state of ArrayNode.valid's loop: bRet, the failures, and aItems,
      the elements accepted so far in 'unique' mode. */
  datatype ArrayScan = ArrayScan(ok: bool, failures: seq<Failure>, seen: seq<Value>)

  /** The loop of ArrayNode.valid after the first k elements: an element the
      child refuses adds the child's failures; in 'unique' mode an element
      `===` one accepted before adds 'duplicate of <level>[j]', with j its
      place among the accepted ones; the loop never stops early. */
  function ScanItems(host: Host, n: Node, items: seq<Value>, level: seq<string>, k: nat): (s: ArrayScan)
    requires n.ArrayNode? && k <= |items|
    ensures s.ok <==> s.failures == []
    decreases n, 0, k
  {
    if k == 0 then ArrayScan(true, [], [])
    else ItemStep(host, n, ScanItems(host, n, items, level, k - 1), items[k - 1], level, k - 1)
  }

  /** One turn of ArrayNode.valid's loop, on element i. */
  function ItemStep(host: Host, n: Node, s: ArrayScan, x: Value, level: seq<string>, i: nat): (r: ArrayScan)
    requires n.ArrayNode?
    requires s.ok <==> s.failures == []
    ensures r.ok <==> r.failures == []
    decreases n, 0, 0
  {
    var aLevel := level + [Index(i)];
    var c := Valid(host, n.child, x, aLevel);
    if !c.ok then ArrayScan(false, s.failures + c.failures, s.seen)
    else if n.unique then
      var j := IndexOf(s.seen, x);
      if j < |s.seen| then
        ArrayScan(false, s.failures + [Failure(PathOf(aLevel), "duplicate of " + PathOf(level) + Index(j))], s.seen)
      else ArrayScan(s.ok, s.failures, s.seen + [x])
    else s
  }

  /** The length checks after the loop, each on its own. */
  function LengthChecks(n: Node, len: nat, level: seq<string>, v: Verdict): (r: Verdict)
    requires n.ArrayNode?
    requires v.ok <==> v.failures == []
    ensures r.ok <==> r.failures == []
    ensures |v.failures| <= |r.failures| && r.failures[..|v.failures|] == v.failures
    ensures (r.ok <==> v.ok && (n.minLength.None? || len >= n.minLength.value)
                            && (n.maxLength.None? || len <= n.maxLength.value))
  {
    var v1 := if n.minLength.Some? && len < n.minLength.value
              then Verdict(false, v.failures + [Failure(PathOf(level), "did not meet minimum")]) else v;
    if n.maxLength.Some? && len > n.maxLength.value
    then Verdict(false, v1.failures + [Failure(PathOf(level), "exceeds maximum")]) else v1
  }

  // ------------------------------------------------------------------- Hash

  /** The loop of Hash.valid after the first k entries, each adding the
      failures of EntryFailures. */
  function ScanEntries(host: Host, n: Node, entries: seq<(string, Value)>, level: seq<string>, k: nat): (r: Verdict)
    requires n.Hash? && k <= |entries|
    ensures r.ok <==> r.failures == []
    decreases n, 0, k
  {
    if k == 0 then Pass()
    else
      var s := ScanEntries(host, n, entries, level, k - 1);
      var a := EntryFailures(host, n, entries[k - 1], level);
      Verdict(s.ok && a == [], s.failures + a)
  }

  /** One turn of Hash.valid's loop: a key the key node refuses adds
      'invalid key: <k>' and its value is not looked at; a value the child
      refuses adds the child's failures. */
  function EntryFailures(host: Host, n: Node, e: (string, Value), level: seq<string>): (r: seq<Failure>)
    requires n.Hash?
    decreases n, 0, 0
  {
    if !Valid(host, n.key, Str(e.0), []).ok then [Failure(PathOf(level + [e.0]), "invalid key: " + e.0)]
    else Valid(host, n.child, e.1, level + [e.0]).failures
  }

  // ---------------------------------------------------------------- Options

  /** The first variant, from index k on, whose valid accepts the value (its
      failures are not kept), or |variants|. */
  function FirstValid(host: Host, n: Node, value: Value, k: nat): (r: nat)
    requires n.Options? && k <= |n.variants|
    ensures k <= r <= |n.variants|
    ensures r < |n.variants| ==> Valid(host, n.variants[r], value, []).ok
    ensures forall i | k <= i < r :: !Valid(host, n.variants[i], value, []).ok
    decreases n, 0, |n.variants| - k
  {
    if k == |n.variants| then k
    else if Valid(host, n.variants[k], value, []).ok then k
    else FirstValid(host, n, value, k + 1)
  }

  // ----------------------------------------------------------------- Parent

  /** The values that leave a required field unset. */
  const Unset: seq<Value> := [Str("0000-00-00"), Str("0000-00-00 00:00:00"), Str(""), Null]

  /** A required field f is absent, or holds one of the Unset values. */
  predicate IsUnset(value: seq<(string, Value)>, f: string)
  {
    !HasKey(value, f) || IndexOf(Unset, Get(value, f)) < |Unset|
  }

  /** The failures of the rule for a field that passed: one for each field
      it names that is unset, at the path of the field. */
  function Unmet(rules: seq<(string, seq<string>)>, key: string, value: seq<(string, Value)>, aLevel: seq<string>)
    : (r: seq<Failure>)
  {
    var i := KeyIndex(rules, key);
    if i == |rules| then [] else UnmetOf(rules[i].1, value, aLevel)
  }

  function UnmetOf(names: seq<string>, value: seq<(string, Value)>, aLevel: seq<string>): (r: seq<Failure>)
  {
    if names == [] then []
    else
      var f := names[|names| - 1];
      UnmetOf(names[..|names| - 1], value, aLevel)
      + (if IsUnset(value, f) then [Failure(PathOf(aLevel), "requires \"" + f + "\" to also be set")] else [])
  }

  /** The loop of Parent.valid after the first k fields, each adding the
      failures of FieldFailures. */
  function ScanFields(host: Host, n: Node, value: seq<(string, Value)>, level: seq<string>, k: nat): (r: Verdict)
    requires n.Parent? && k <= |n.fields|
    ensures r.ok <==> r.failures == []
    decreases n, 0, k
  {
    if k == 0 then Pass()
    else
      var s := ScanFields(host, n, value, level, k - 1);
      var a := FieldFailures(host, n, value, level, k - 1);
      Verdict(s.ok && a == [], s.failures + a)
  }

  /** One turn of Parent.valid's loop, on field i: an absent field is
      'missing' unless optional; a present one adds its child's failures,
      and only when it passes the failures of its rule. */
  function FieldFailures(host: Host, n: Node, value: seq<(string, Value)>, level: seq<string>, i: nat): (r: seq<Failure>)
    requires n.Parent? && i < |n.fields|
    decreases n, 0, 0
  {
    var key := n.fields[i].0;
    var aLevel := level + [key];
    if !HasKey(value, key) then
      if n.fields[i].1.base.optional then [] else [Failure(PathOf(aLevel), "missing")]
    else
      var c := Valid(host, n.fields[i].1, Get(value, key), aLevel);
      if !c.ok then c.failures else Unmet(n.rules, key, value, aLevel)
  }

  // ------------------------------------------------------------------- Tree

  /** How a name reads inside `level.join('.')`: null and undefined are empty. */
  function LevelName(name: Value): string
  {
    if name == Null || name == Undefined then "" else ToJsString(name)
  }

  /** Tree.valid(value, level): without a level, the level is the name. */
  function ValidTree(host: Host, t: Tree, value: Value, level: Option<seq<string>>): (r: Verdict)
    ensures r.ok <==> r.failures == []
    ensures level.None? ==> r == Valid(host, t.root, value, [LevelName(t.name)])
  {
    Valid(host, t.root, value, if level.Some? then level.value else [LevelName(t.name)])
  }
}

=== FILE: valid_props.dfy ===
/** What valid promises about the containers: when it returns true, that it
    never stops at the first failure, and where the failures it records are. */
module ValidProperties {
  import opened Wrappers
  import opened Strings
  import opened Values
  import opened Schema
  import opened Terminals
  import opened Validation

  // ------------------------------------------------------------- ArrayNode

  /** Every element passes the child node at its own level. */
  predicate ItemsValid(host: Host, n: Node, items: seq<Value>, level: seq<string>, k: nat)
    requires n.ArrayNode? && k <= |items|
  {
    forall i | 0 <= i < k :: ItemValid(host, n, items, level, i)
  }

  /** Element i passes the child node at level + '[i]'. */
  predicate ItemValid(host: Host, n: Node, items: seq<Value>, level: seq<string>, i: nat)
    requires n.ArrayNode? && i < |items|
  {
    Valid(host, n.child, items[i], level + [Index(i)]).ok
  }

  /** No element is `===` an earlier one. */
  predicate NoRepeats(items: seq<Value>, k: nat)
    requires k <= |items|
  {
    forall i, j | 0 <= i < j < k :: !StrictEquals(items[i], items[j])
  }

  /** The loop of ArrayNode.valid is still true after k elements exactly when
      each of them passed the child and, in 'unique' mode, none repeats an
      earlier one; then the accepted list is the whole prefix. */
  lemma {:induction false} ScanItemsOk(host: Host, n: Node, items: seq<Value>, level: seq<string>, k: nat)
    requires n.ArrayNode? && k <= |items|
    ensures ScanItems(host, n, items, level, k).ok
            <==> ItemsValid(host, n, items, level, k) && (n.unique ==> NoRepeats(items, k))
    ensures (ScanItems(host, n, items, level, k).ok && n.unique ==> ScanItems(host, n, items, level, k).seen == items[..k])
  {
    if k > 0 {
      ScanItemsOk(host, n, items, level, k - 1);
      ScanItemsOkStep(host, n, items, level, k);
      var s := ScanItems(host, n, items, level, k - 1);
      if s.ok && n.unique {
        NoRepeatsSnoc(items, k);
      }
    }
  }

  /** One more element keeps the prefix free of repeats exactly when it is
      not `===` an earlier one. */
  lemma NoRepeatsSnoc(items: seq<Value>, k: nat)
    requires 0 < k <= |items| && NoRepeats(items, k - 1)
    ensures NoRepeats(items, k) <==> IndexOf(items[..k - 1], items[k - 1]) == k - 1
    ensures items[..k] == items[..k - 1] + [items[k - 1]]
  {
    var seen := items[..k - 1];
    var j := IndexOf(seen, items[k - 1]);
    if j < |seen| {
      assert StrictEquals(items[j], items[k - 1]);
    } else {
      forall i, i' | 0 <= i < i' < k ensures !StrictEquals(items[i], items[i']) {
        if i' == k - 1 {
          assert seen[i] == items[i];
        }
      }
    }
    assert items[..k] == seen + [items[k - 1]];
  }

  /** One element keeps the loop's boolean exactly when it passes the child
      and, in 'unique' mode, is not `===` an accepted one; then it is accepted. */
  lemma ScanItemsOkStep(host: Host, n: Node, items: seq<Value>, level: seq<string>, k: nat)
    requires n.ArrayNode? && 0 < k <= |items|
    ensures var s := ScanItems(host, n, items, level, k - 1);
            ScanItems(host, n, items, level, k).ok
            == (s.ok && ItemValid(host, n, items, level, k - 1) && (n.unique ==> IndexOf(s.seen, items[k - 1]) == |s.seen|))
    ensures var s := ScanItems(host, n, items, level, k - 1);
            ScanItems(host, n, items, level, k).ok && n.unique ==> ScanItems(host, n, items, level, k).seen == s.seen + [items[k - 1]]
  {
  }

  /** ArrayNode.valid of a list is true exactly when every element passes the
      child, no element repeats an earlier one in 'unique' mode, and the
      length is within the bounds that are set. */
  lemma ArrayValidIff(host: Host, n: Node, items: seq<Value>, level: seq<string>)
    requires n.ArrayNode?
    ensures Valid(host, n, Arr(items), level).ok
            <==> ItemsValid(host, n, items, level, |items|)
                 && (n.unique ==> NoRepeats(items, |items|))
                 && (n.minLength.None? || |items| >= n.minLength.value)
                 && (n.maxLength.None? || |items| <= n.maxLength.value)
  {
    ScanItemsOk(host, n, items, level, |items|);
  }

  /** One element only adds failures after those already recorded. */
  lemma ScanItemsStep(host: Host, n: Node, items: seq<Value>, level: seq<string>, k: nat)
    requires n.ArrayNode? && 0 < k <= |items|
    ensures ScanItems(host, n, items, level, k - 1).failures <= ScanItems(host, n, items, level, k).failures
  {
  }

  /** The failures after k elements are a prefix of those after more. */
  lemma {:induction false} ScanItemsGrows(host: Host, n: Node, items: seq<Value>, level: seq<string>, j: nat, k: nat)
    requires n.ArrayNode? && j <= k <= |items|
    ensures |ScanItems(host, n, items, level, j).failures| <= |ScanItems(host, n, items, level, k).failures|
    ensures ScanItems(host, n, items, level, j).failures
            == ScanItems(host, n, items, level, k).failures[..|ScanItems(host, n, items, level, j).failures|]
    decreases k
  {
    if j < k {
      ScanItemsGrows(host, n, items, level, j, k - 1);
      ScanItemsStep(host, n, items, level, k);
      PrefixOfPrefix(ScanItems(host, n, items, level, j).failures, ScanItems(host, n, items, level, k - 1).failures,
                     ScanItems(host, n, items, level, k).failures);
    }
  }

  /** Prefixes of prefixes, stated by slicing. */
  lemma PrefixOfPrefix<T>(a: seq<T>, b: seq<T>, c: seq<T>)
    requires |a| <= |b| && a == b[..|a|] && b <= c
    ensures |a| <= |c| && a == c[..|a|]
  {
    assert b == c[..|b|];
    assert c[..|b|][..|a|] == c[..|a|];
  }

  /** No fail-fast: every failure an element's child records is among the
      failures of the list, at the element's level. */
  lemma ArrayKeepsChildFailures(host: Host, n: Node, items: seq<Value>, level: seq<string>, i: nat)
    requires n.ArrayNode? && i < |items|
    ensures forall f | f in Valid(host, n.child, items[i], level + [Index(i)]).failures ::
              f in Valid(host, n, Arr(items), level).failures
  {
    var c := Valid(host, n.child, items[i], level + [Index(i)]);
    if !c.ok {
      ScanItemsGrows(host, n, items, level, i + 1, |items|);
      var a := ScanItems(host, n, items, level, i).failures;
      var s := ScanItems(host, n, items, level, i + 1).failures;
      var t := ScanItems(host, n, items, level, |items|).failures;
      assert s == a + c.failures;
      var v := Valid(host, n, Arr(items), level).failures;
      assert |t| <= |v| && v[..|t|] == t;
      forall f | f in c.failures ensures f in v {
        var p :| 0 <= p < |c.failures| && c.failures[p] == f;
        assert f == s[|a| + p] == t[|a| + p] == v[|a| + p];
      }
    }
  }

  // ------------------------------------------------------------------- Hash

  /** No entry among the first k adds a failure. */
  predicate EntriesValid(host: Host, n: Node, entries: seq<(string, Value)>, level: seq<string>, k: nat)
    requires n.Hash? && k <= |entries|
  {
    forall i | 0 <= i < k :: EntryFailures(host, n, entries[i], level) == []
  }

  lemma {:induction false} ScanEntriesOk(host: Host, n: Node, entries: seq<(string, Value)>, level: seq<string>, k: nat)
    requires n.Hash? && k <= |entries|
    ensures ScanEntries(host, n, entries, level, k).ok <==> EntriesValid(host, n, entries, level, k)
  {
    if k > 0 {
      ScanEntriesOk(host, n, entries, level, k - 1);
    }
  }

  /** An entry adds no failure exactly when its key passes the key node and
      its value the child node. */
  lemma EntryFailuresEmpty(host: Host, n: Node, e: (string, Value), level: seq<string>)
    requires n.Hash?
    ensures EntryFailures(host, n, e, level) == []
            <==> Valid(host, n.key, Str(e.0), []).ok && Valid(host, n.child, e.1, level + [e.0]).ok
  {
  }

  /** Hash.valid of an object is true exactly when every key passes the key
      node and every value passes the child. */
  lemma HashValidIff(host: Host, n: Node, entries: seq<(string, Value)>, level: seq<string>)
    requires n.Hash?
    ensures Valid(host, n, Obj(entries), level).ok
            <==> forall i | 0 <= i < |entries| ::
                   Valid(host, n.key, Str(entries[i].0), []).ok && Valid(host, n.child, entries[i].1, level + [entries[i].0]).ok
  {
    ScanEntriesOk(host, n, entries, level, |entries|);
    forall i | 0 <= i < |entries| {
      EntryFailuresEmpty(host, n, entries[i], level);
    }
  }

  /** A key the key node refuses is reported as 'invalid key: <k>' at the
      key's path, and the loop goes on past it. */
  lemma {:induction false} HashReportsInvalidKey(host: Host, n: Node, entries: seq<(string, Value)>, level: seq<string>, i: nat)
    requires n.Hash? && i < |entries|
    requires !Valid(host, n.key, Str(entries[i].0), []).ok
    ensures Failure(PathOf(level + [entries[i].0]), "invalid key: " + entries[i].0) in Valid(host, n, Obj(entries), level).failures
  {
    var x := Failure(PathOf(level + [entries[i].0]), "invalid key: " + entries[i].0);
    assert Valid(host, n, Obj(entries), level) == ScanEntries(host, n, entries, level, |entries|);
    assert EntryFailures(host, n, entries[i], level) == [x];
    ScanEntriesSnoc(host, n, entries, level, i + 1);
    ScanEntriesGrows(host, n, entries, level, i + 1, |entries|);
    var s := ScanEntries(host, n, entries, level, i + 1).failures;
    var t := ScanEntries(host, n, entries, level, |entries|).failures;
    assert s[|s| - 1] == x;
    assert s[|s| - 1] == t[|s| - 1];
  }

  lemma {:induction false} ScanEntriesGrows(host: Host, n: Node, entries: seq<(string, Value)>, level: seq<string>, j: nat, k: nat)
    requires n.Hash? && j <= k <= |entries|
    ensures |ScanEntries(host, n, entries, level, j).failures| <= |ScanEntries(host, n, entries, level, k).failures|
    ensures ScanEntries(host, n, entries, level, j).failures
            == ScanEntries(host, n, entries, level, k).failures[..|ScanEntries(host, n, entries, level, j).failures|]
    decreases k
  {
    if j < k {
      ScanEntriesGrows(host, n, entries, level, j, k - 1);
      ScanEntriesStep(host, n, entries, level, k);
      PrefixOfPrefix(ScanEntries(host, n, entries, level, j).failures, ScanEntries(host, n, entries, level, k - 1).failures,
                     ScanEntries(host, n, entries, level, k).failures);
    }
  }

  /** One entry only adds failures after those already recorded. */
  lemma ScanEntriesStep(host: Host, n: Node, entries: seq<(string, Value)>, level: seq<string>, k: nat)
    requires n.Hash? && 0 < k <= |entries|
    ensures ScanEntries(host, n, entries, level, k - 1).failures <= ScanEntries(host, n, entries, level, k).failures
  {
  }

  /** The failures after k entries end with those of entry k - 1. */
  lemma ScanEntriesSnoc(host: Host, n: Node, entries: seq<(string, Value)>, level: seq<string>, k: nat)
    requires n.Hash? && 0 < k <= |entries|
    ensures ScanEntries(host, n, entries, level, k).failures
            == ScanEntries(host, n, entries, level, k - 1).failures + EntryFailures(host, n, entries[k - 1], level)
  {
  }

  // ----------------------------------------------------------------- Parent

  /** Field i of the Parent is satisfied by the object: absent and optional,
      or present, passing its node, and with every field its rule requires set. */
  predicate FieldOk(host: Host, n: Node, value: seq<(string, Value)>, level: seq<string>, i: nat)
    requires n.Parent? && i < |n.fields|
  {
    var key := n.fields[i].0;
    if !HasKey(value, key) then n.fields[i].1.base.optional
    else Valid(host, n.fields[i].1, Get(value, key), level + [key]).ok && Unmet(n.rules, key, value, level + [key]) == []
  }

  lemma {:induction false} ScanFieldsOk(host: Host, n: Node, value: seq<(string, Value)>, level: seq<string>, k: nat)
    requires n.Parent? && k <= |n.fields|
    ensures ScanFields(host, n, value, level, k).ok <==> forall i | 0 <= i < k :: FieldOk(host, n, value, level, i)
  {
    if k > 0 {
      ScanFieldsOk(host, n, value, level, k - 1);
      FieldFailuresEmpty(host, n, value, level, k - 1);
    }
  }

  /** A field adds no failure exactly when it is satisfied. */
  lemma FieldFailuresEmpty(host: Host, n: Node, value: seq<(string, Value)>, level: seq<string>, i: nat)
    requires n.Parent? && i < |n.fields|
    ensures FieldFailures(host, n, value, level, i) == [] <==> FieldOk(host, n, value, level, i)
  {
  }

  /** Parent.valid of an object is true exactly when every field is satisfied. */
  lemma ParentValidIff(host: Host, n: Node, value: seq<(string, Value)>, level: seq<string>)
    requires n.Parent?
    ensures Valid(host, n, Obj(value), level).ok <==> forall i | 0 <= i < |n.fields| :: FieldOk(host, n, value, level, i)
  {
    ScanFieldsOk(host, n, value, level, |n.fields|);
  }

  /** A rule adds no failure exactly when every field it requires is set,
      and never more failures than it names fields. */
  lemma {:induction false} UnmetOfEmpty(names: seq<string>, value: seq<(string, Value)>, aLevel: seq<string>)
    ensures |UnmetOf(names, value, aLevel)| <= |names|
    ensures UnmetOf(names, value, aLevel) == [] <==> forall j | 0 <= j < |names| :: !IsUnset(value, names[j])
  {
    if names != [] {
      var init := names[..|names| - 1];
      UnmetOfEmpty(init, value, aLevel);
      assert forall j | 0 <= j < |init| :: init[j] == names[j];
    }
  }

  /** Each failure of a rule is at the field's path and names one of the
      fields the rule requires. */
  lemma {:induction false} UnmetOfReasons(names: seq<string>, value: seq<(string, Value)>, aLevel: seq<string>)
    ensures forall f | f in UnmetOf(names, value, aLevel) ::
              f.path == PathOf(aLevel) && exists j | 0 <= j < |names| :: f.reason == "requires \"" + names[j] + "\" to also be set"
  {
    if names != [] {
      var init := names[..|names| - 1];
      var last := names[|names| - 1];
      UnmetOfReasons(init, value, aLevel);
      var tail: seq<Failure> := if IsUnset(value, last) then [Failure(PathOf(aLevel), "requires \"" + last + "\" to also be set")] else [];
      assert UnmetOf(names, value, aLevel) == UnmetOf(init, value, aLevel) + tail;
      forall f | f in UnmetOf(names, value, aLevel)
        ensures f.path == PathOf(aLevel) && exists j | 0 <= j < |names| :: f.reason == "requires \"" + names[j] + "\" to also be set"
      {
        if f in UnmetOf(init, value, aLevel) {
          var j :| 0 <= j < |init| && f.reason == "requires \"" + init[j] + "\" to also be set";
          assert names[j] == init[j];
        } else {
          assert f in tail;
          assert f.reason == "requires \"" + names[|names| - 1] + "\" to also be set";
        }
      }
    }
  }

  // ---------------------------------------------------------------- Options

  /** Options.valid of a value that is set is true exactly when some variant accepts it. */
  lemma OptionsValidIff(host: Host, n: Node, value: Value, level: seq<string>)
    requires n.Options? && value != Null && value != Undefined
    ensures Valid(host, n, value, level).ok <==> exists i | 0 <= i < |n.variants| :: Valid(host, n.variants[i], value, []).ok
    ensures !Valid(host, n, value, level).ok ==> Valid(host, n, value, level).failures == [Failure(PathOf(level), "no valid option")]
  {
    var i := FirstValid(host, n, value, 0);
    if i == |n.variants| {
      assert forall j | 0 <= j < |n.variants| :: !Valid(host, n.variants[j], value, []).ok;
    }
  }

  // ------------------------------------------------------------------ paths

  /** `a` is a prefix of `b`, and `b` of `c`. */
  lemma PrefixTransitive(a: string, b: string, c: string)
    requires a <= b && b <= c
    ensures a <= c
  {
    assert b == c[..|b|];
    assert a == b[..|a|] == c[..|a|];
  }

  /** The path of a child's level starts with the path of its parent's level. */
  lemma PathExtends(level: seq<string>, x: string)
    ensures PathOf(level) <= PathOf(level + [x])
  {
    JoinSnoc(level, x, ".");
  }

  /** Every failure valid records lies under the level it was given: its
      path starts with `level.join('.')`. */
  lemma {:induction false} FailuresUnder(host: Host, n: Node, value: Value, level: seq<string>)
    ensures forall f | f in Valid(host, n, value, level).failures :: PathOf(level) <= f.path
    decreases n, 1, 0
  {
    match n
    case Terminal(_, _, _, _, _, _) =>
    case ArrayNode(_, _, _, _, _) =>
      if value != Null && value != Undefined && value.Arr? {
        ScanItemsUnder(host, n, value.items, level, |value.items|);
      }
    case Hash(_, _, _) =>
      if value != Null && value.Obj? {
        ScanEntriesUnder(host, n, value.entries, level, |value.entries|);
      }
    case Options(_, _) =>
    case Parent(_, _, _) =>
      if value != Null && value.Obj? {
        ScanFieldsUnder(host, n, value.entries, level, |n.fields|);
      }
  }

  /** A failure under a child's level is under its parent's level. */
  lemma ChildUnder(fs: seq<Failure>, level: seq<string>, x: string)
    requires forall f | f in fs :: PathOf(level + [x]) <= f.path
    ensures forall f | f in fs :: PathOf(level) <= f.path
  {
    PathExtends(level, x);
    forall f | f in fs ensures PathOf(level) <= f.path {
      PrefixTransitive(PathOf(level), PathOf(level + [x]), f.path);
    }
  }

  lemma {:induction false} ScanItemsUnder(host: Host, n: Node, items: seq<Value>, level: seq<string>, k: nat)
    requires n.ArrayNode? && k <= |items|
    ensures forall f | f in ScanItems(host, n, items, level, k).failures :: PathOf(level) <= f.path
    decreases n, 0, k
  {
    if k > 0 {
      ScanItemsUnder(host, n, items, level, k - 1);
      ItemStepUnder(host, n, ScanItems(host, n, items, level, k - 1), items[k - 1], level, k - 1);
    }
  }

  lemma ItemStepUnder(host: Host, n: Node, s: ArrayScan, x: Value, level: seq<string>, i: nat)
    requires n.ArrayNode? && (s.ok <==> s.failures == [])
    requires forall f | f in s.failures :: PathOf(level) <= f.path
    ensures forall f | f in ItemStep(host, n, s, x, level, i).failures :: PathOf(level) <= f.path
    decreases n, 0, 0
  {
    var aLevel := level + [Index(i)];
    FailuresUnder(host, n.child, x, aLevel);
    ChildUnder(Valid(host, n.child, x, aLevel).failures, level, Index(i));
    PathExtends(level, Index(i));
  }

  lemma {:induction false} ScanEntriesUnder(host: Host, n: Node, entries: seq<(string, Value)>, level: seq<string>, k: nat)
    requires n.Hash? && k <= |entries|
    ensures forall f | f in ScanEntries(host, n, entries, level, k).failures :: PathOf(level) <= f.path
    decreases n, 0, k
  {
    if k > 0 {
      ScanEntriesUnder(host, n, entries, level, k - 1);
      EntryFailuresUnder(host, n, entries[k - 1], level);
    }
  }

  lemma EntryFailuresUnder(host: Host, n: Node, e: (string, Value), level: seq<string>)
    requires n.Hash?
    ensures forall f | f in EntryFailures(host, n, e, level) :: PathOf(level) <= f.path
    decreases n, 0, 0
  {
    var aLevel := level + [e.0];
    FailuresUnder(host, n.child, e.1, aLevel);
    ChildUnder(Valid(host, n.child, e.1, aLevel).failures, level, e.0);
    PathExtends(level, e.0);
  }

  lemma {:induction false} ScanFieldsUnder(host: Host, n: Node, value: seq<(string, Value)>, level: seq<string>, k: nat)
    requires n.Parent? && k <= |n.fields|
    ensures forall f | f in ScanFields(host, n, value, level, k).failures :: PathOf(level) <= f.path
    decreases n, 0, k
  {
    if k > 0 {
      ScanFieldsUnder(host, n, value, level, k - 1);
      FieldFailuresUnder(host, n, value, level, k - 1);
    }
  }

  lemma FieldFailuresUnder(host: Host, n: Node, value: seq<(string, Value)>, level: seq<string>, i: nat)
    requires n.Parent? && i < |n.fields|
    ensures forall f | f in FieldFailures(host, n, value, level, i) :: PathOf(level) <= f.path
    decreases n, 0, 0
  {
    var key := n.fields[i].0;
    var aLevel := level + [key];
    PathExtends(level, key);
    if HasKey(value, key) {
      FailuresUnder(host, n.fields[i].1, Get(value, key), aLevel);
      ChildUnder(Valid(host, n.fields[i].1, Get(value, key), aLevel).failures, level, key);
      var j := KeyIndex(n.rules, key);
      if j < |n.rules| {
        UnmetOfReasons(n.rules[j].1, value, aLevel);
      }
    }
  }

  /** Tree.valid without a level: every failure path starts with the tree's name. */
  lemma TreeFailuresNamed(host: Host, t: Tree, value: Value)
    ensures forall f | f in ValidTree(host, t, value, None).failures :: LevelName(t.name) <= f.path
  {
    FailuresUnder(host, t.root, value, [LevelName(t.name)]);
  }
}

=== FILE: values.dfy ===
/** JavaScript values as the schema nodes see them: definitions handed to the
    constructors and data handed to valid and clean. Numbers are exact
    decimals and NaN is its own value; a plain object is its list of entries
    in key order; a Decimal of the library and a RegExp are values of their own. */
module Values {
  import opened Wrappers
  import opened Numbers
  import opened Strings
  import opened JsNumbers
  import Decimals

  datatype Value =
    | Null
    | Undefined
    | Bool(b: bool)
    | Num(n: Number)
    | NaN
    | Str(s: string)
    | Arr(items: seq<Value>)
    | Obj(entries: seq<(string, Value)>)
    | Dec(d: Decimals.Decimal)
    | Re(source: string)

  /** A measure that shrinks from a value to each value inside it. */
  function Size(v: Value): (r: nat)
    ensures r >= 1
  {
    match v
    case Arr(items) => 1 + ItemsSize(items)
    case Obj(entries) => 1 + EntriesSize(v, entries)
    case _ => 1
  }

  function ItemsSize(items: seq<Value>): nat
  {
    if items == [] then 0 else Size(items[0]) + ItemsSize(items[1..])
  }

  /** The size of the entries of `owner`, an object holding all of them. */
  function EntriesSize(ghost owner: Value, entries: seq<(string, Value)>): nat
    requires forall e | e in entries :: e.1 < owner
    decreases owner, |entries|
  {
    if entries == [] then 0 else 1 + Size(entries[0].1) + EntriesSize(owner, entries[1..])
  }

  lemma {:induction false} EntriesSizeOwner(a: Value, b: Value, entries: seq<(string, Value)>)
    requires forall e | e in entries :: e.1 < a && e.1 < b
    ensures EntriesSize(a, entries) == EntriesSize(b, entries)
    decreases |entries|
  {
    if entries != [] {
      EntriesSizeOwner(a, b, entries[1..]);
    }
  }

  /** The size of an object with one more entry in front. */
  lemma ObjSizeCons(e: (string, Value), rest: seq<(string, Value)>)
    ensures Size(Obj([e] + rest)) == 1 + Size(e.1) + Size(Obj(rest))
  {
    var o := [e] + rest;
    assert o[1..] == rest;
    EntriesSizeOwner(Obj(o), Obj(rest), rest);
  }

  // ------------------------------------------------------------- objects

  /** `k in o` */
  predicate HasKey(o: seq<(string, Value)>, k: string)
  {
    o != [] && (o[0].0 == k || HasKey(o[1..], k))
  }

  /** `o[k]`, undefined when absent. */
  function Get(o: seq<(string, Value)>, k: string): (r: Value)
    ensures !HasKey(o, k) ==> r == Undefined
  {
    if o == [] then Undefined else if o[0].0 == k then o[0].1 else Get(o[1..], k)
  }

  /** The index of the first pair whose key is `key`, or |s| when there is none. */
  function KeyIndex<T>(s: seq<(string, T)>, key: string): (k: nat)
    ensures k <= |s|
    ensures k < |s| ==> s[k].0 == key
    ensures forall i | 0 <= i < k :: s[i].0 != key
  {
    if s == [] then 0 else if s[0].0 == key then 0 else 1 + KeyIndex(s[1..], key)
  }

  /** `o[k] = v`: an existing key keeps its place, a new key goes last. */
  function Put(o: seq<(string, Value)>, k: string, v: Value): (r: seq<(string, Value)>)
    ensures HasKey(r, k) && Get(r, k) == v
    ensures forall j | j != k :: HasKey(r, j) == HasKey(o, j) && Get(r, j) == Get(o, j)
  {
    if o == [] then [(k, v)]
    else if o[0].0 == k then
      var r := [(k, v)] + o[1..];
      assert r[0] == (k, v) && r[1..] == o[1..];
      r
    else
      var rest := Put(o[1..], k, v);
      var r := [o[0]] + rest;
      assert r[0] == o[0] && r[1..] == rest;
      assert forall j | j != k :: HasKey(r, j) == HasKey(o, j) && Get(r, j) == Get(o, j) by {
        forall j | j != k ensures HasKey(r, j) == HasKey(o, j) && Get(r, j) == Get(o, j) {
          assert HasKey(rest, j) == HasKey(o[1..], j) && Get(rest, j) == Get(o[1..], j);
        }
      }
      r
  }

  /** `delete o[k]` */
  function Remove(o: seq<(string, Value)>, k: string): (r: seq<(string, Value)>)
    ensures !HasKey(r, k)
    ensures forall j | j != k :: HasKey(r, j) == HasKey(o, j) && Get(r, j) == Get(o, j)
    ensures Size(Obj(r)) <= Size(Obj(o))
    ensures HasKey(o, k) ==> Size(Obj(r)) + Size(Get(o, k)) < Size(Obj(o))
  {
    if o == [] then []
    else
      ObjSizeCons(o[0], o[1..]);
      assert o == [o[0]] + o[1..];
      if o[0].0 == k then Remove(o[1..], k)
      else
        var r := [o[0]] + Remove(o[1..], k);
        assert r[1..] == Remove(o[1..], k);
        ObjSizeCons(o[0], Remove(o[1..], k));
        r
  }

  /** The size of two runs of entries put together. */
  lemma {:induction false} ObjSizeAppend(a: seq<(string, Value)>, b: seq<(string, Value)>)
    ensures Size(Obj(a + b)) + 1 == Size(Obj(a)) + Size(Obj(b))
    decreases |a|
  {
    if a == [] {
      assert a + b == b;
    } else {
      assert a + b == [a[0]] + (a[1..] + b);
      assert a == [a[0]] + a[1..];
      ObjSizeCons(a[0], a[1..] + b);
      ObjSizeCons(a[0], a[1..]);
      ObjSizeAppend(a[1..], b);
    }
  }

  /** Each value of an object is smaller than the object. */
  lemma {:induction false} EntryShrinks(o: seq<(string, Value)>, i: nat)
    requires i < |o|
    ensures Size(o[i].1) < Size(Obj(o))
  {
    ObjSizeCons(o[0], o[1..]);
    assert o == [o[0]] + o[1..];
    if i > 0 {
      EntryShrinks(o[1..], i - 1);
    }
  }

  /** The value under a key is smaller than the object. */
  lemma GetShrinks(o: seq<(string, Value)>, k: string)
    requires HasKey(o, k)
    ensures Size(Get(o, k)) < Size(Obj(o))
  {
    var r := Remove(o, k);
  }

  /** Each item of a list is smaller than the list. */
  lemma {:induction false} ItemShrinks(items: seq<Value>, i: nat)
    requires i < |items|
    ensures Size(items[i]) < 1 + ItemsSize(items)
  {
    if i > 0 {
      ItemShrinks(items[1..], i - 1);
    }
  }

  /** `Object.keys(v)` paired with the values: the entries of an object, the
      indexes of a list as text. */
  function EntriesOf(v: Value): seq<(string, Value)>
  {
    match v
    case Obj(entries) => entries
    case Arr(items) => seq(|items|, i requires 0 <= i < |items| => (Digits(i), items[i]))
    case _ => []
  }

  /** `for (const k of Object.keys(src)) dst[k] = src[k]` */
  function Assign(dst: seq<(string, Value)>, src: seq<(string, Value)>): seq<(string, Value)>
    decreases |src|
  {
    if src == [] then dst else Assign(Put(dst, src[0].0, src[0].1), src[1..])
  }

  /** Assigning one more pair, last, is one more write. */
  lemma {:induction false} AssignSnoc(dst: seq<(string, Value)>, src: seq<(string, Value)>, e: (string, Value))
    ensures Assign(dst, src + [e]) == Put(Assign(dst, src), e.0, e.1)
    decreases |src|
  {
    if src == [] {
      assert [] + [e] == [e] && [e][1..] == [];
    } else {
      assert (src + [e])[0] == src[0] && (src + [e])[1..] == src[1..] + [e];
      AssignSnoc(Put(dst, src[0].0, src[0].1), src[1..], e);
    }
  }

  /** A sequence built from its indices grows, one index more, by the element at that index. */
  lemma BuildSnoc<T>(k: nat, f: int --> T)
    requires 0 < k && forall i | 0 <= i < k :: f.requires(i)
    ensures seq(k, f) == seq(k - 1, f) + [f(k - 1)]
  {
    var a, b := seq(k, f), seq(k - 1, f) + [f(k - 1)];
    assert forall i | 0 <= i < k - 1 :: b[i] == seq(k - 1, f)[i];
    assert forall i | 0 <= i < k :: a[i] == b[i];
  }

  /** No pair after the i-th has its key. */
  predicate LastOfKey<T>(ps: seq<(string, T)>, i: nat)
    requires i < |ps|
  {
    forall j | i < j < |ps| :: ps[j].0 != ps[i].0
  }

  /** Writing pairs in order onto an empty object leaves exactly their keys,
      each holding the value of the last pair with that key. */
  lemma {:induction false} AssignLastWins(ps: seq<(string, Value)>)
    ensures forall i | 0 <= i < |ps| :: HasKey(Assign([], ps), ps[i].0)
    ensures forall i | 0 <= i < |ps| && LastOfKey(ps, i) :: Get(Assign([], ps), ps[i].0) == ps[i].1
    ensures forall k | HasKey(Assign([], ps), k) :: exists i | 0 <= i < |ps| :: ps[i].0 == k
    decreases |ps|
  {
    if ps != [] {
      var init, e := ps[..|ps| - 1], ps[|ps| - 1];
      assert ps == init + [e];
      AssignLastWins(init);
      AssignSnoc([], init, e);
      var o := Assign([], init);
      assert Assign([], ps) == Put(o, e.0, e.1);
      forall i | 0 <= i < |ps| - 1
        ensures ps[i] == init[i]
        ensures LastOfKey(ps, i) ==> ps[i].0 != e.0 && LastOfKey(init, i)
      {
      }
      forall k | HasKey(Assign([], ps), k)
        ensures exists i | 0 <= i < |ps| :: ps[i].0 == k
      {
        if k != e.0 {
          var i :| 0 <= i < |init| && init[i].0 == k;
          assert ps[i].0 == k;
        }
      }
    }
  }

  // --------------------------------------------------- conversions

  /** ToBoolean */
  predicate Truthy(v: Value)
  {
    match v
    case Null => false
    case Undefined => false
    case Bool(b) => b
    case Num(n) => n.mant != 0
    case NaN => false
    case Str(s) => s != ""
    case _ => true
  }

  /** String(v). */
  function ToJsString(v: Value): string
  {
    match v
    case Null => "null"
    case Undefined => "undefined"
    case Bool(b) => if b then "true" else "false"
    case Num(n) => Render(n)
    case NaN => "NaN"
    case Str(s) => s
    case Arr(items) => JoinItems(items)
    case Obj(_) => "[object Object]"
    case Dec(d) => Decimals.Text(d)
    case Re(source) => "/" + source + "/"
  }

  /** Array.prototype.join(","): null and undefined elements become empty. */
  function JoinItems(items: seq<Value>): string
  {
    if items == [] then ""
    else
      var last := items[|items| - 1];
      var t := if last.Null? || last.Undefined? then "" else ToJsString(last);
      if |items| == 1 then t else JoinItems(items[..|items| - 1]) + "," + t
  }

  /** Number.isInteger: a number with no fraction. */
  predicate IsInteger(v: Value) { v.Num? && IsIntegral(v.n) }

  /** `===`: numbers by value (NaN equals nothing), strings by content, and
      objects, lists, Decimals and RegExps only by identity, which two values
      built apart never share. */
  predicate StrictEquals(a: Value, b: Value)
  {
    match (a, b)
    case (Null, Null) => true
    case (Undefined, Undefined) => true
    case (Bool(x), Bool(y)) => x == y
    case (Num(x), Num(y)) => Eq(x, y)
    case (Str(x), Str(y)) => x == y
    case _ => false
  }

  /** `list.indexOf(v)`: the first index holding a value `===` v, |list| when none. */
  function IndexOf(list: seq<Value>, v: Value): (k: nat)
    ensures k <= |list|
    ensures k < |list| ==> StrictEquals(list[k], v)
    ensures forall i | 0 <= i < k :: !StrictEquals(list[i], v)
  {
    if list == [] then 0 else if StrictEquals(list[0], v) then 0 else 1 + IndexOf(list[1..], v)
  }

  /** ToPrimitive with hint number: an object falls back on its toString. */
  function ToPrimitive(v: Value): Value
  {
    match v
    case Arr(_) => Str(ToJsString(v))
    case Obj(_) => Str(ToJsString(v))
    case Dec(_) => Str(ToJsString(v))
    case Re(_) => Str(ToJsString(v))
    case _ => v
  }

  /** ToNumber of a primitive; None is NaN. */
  function ToNumber(v: Value): Option<Number>
  {
    match v
    case Null => Some(Int(0))
    case Bool(b) => Some(Int(if b then 1 else 0))
    case Num(n) => Some(n)
    case Str(s) => StringToNumber(s)
    case _ => None
  }

  /** Code unit order of strings. */
  predicate StrLess(a: string, b: string)
  {
    if a == [] then b != []
    else if b == [] then false
    else if a[0] != b[0] then a[0] < b[0]
    else StrLess(a[1..], b[1..])
  }

  /** `a < b`: two strings compare as text, anything else as numbers, and NaN
      compares false. `a > b` is JsLess(b, a). */
  predicate JsLess(a: Value, b: Value)
  {
    var pa, pb := ToPrimitive(a), ToPrimitive(b);
    if pa.Str? && pb.Str? then StrLess(pa.s, pb.s)
    else
      match (ToNumber(pa), ToNumber(pb))
      case (Some(x), Some(y)) => Less(x, y)
      case _ => false
  }
}

=== FILE: wrappers.dfy ===
/** Optional values and results with an error, used wherever the library returns
    null or throws. */
module Wrappers {

  datatype Option<+T> = None | Some(value: T)

  /** A computation that either produced a value or threw an error. */
  datatype Result<+T, +E> = Ok(value: T) | Err(error: E) {
    predicate IsFailure() { Err? }

    function PropagateFailure<U>(): Result<U, E>
      requires Err?
    {
      Err(error)
    }

    function Extract(): T
      requires Ok?
    {
      value
    }
  }
}
